=== FILE: README.md ===
# UPBOTRADING in Dafny

A model of the deterministic core of UPBOTRADING, a React paper-trading
front end for the Vietnamese stock market. It models these parts, each with
the properties the code promises:

- **The order engine** (App.tsx). An account has cash, positions and a
  ledger. `handlePlaceOrder` applies one order atomically or rejects it.
- **The dashboard valuation and task list** (components/DashboardView.tsx).
- **The AI gateway** (services/geminiService.ts):
  - the persistent cache with its day-long sweep and per-operation
    time-to-live;
  - the sharing of in-flight requests;
  - the two error classifiers;
  - `withRetry` and its global cooldown;
  - the fallbacks of the five cached operations;
  - the cache keys;
  - the reading of the sentiment tag;
  - the global search.
- **The trading desk** (components/TradingSection.tsx): the merge of live
  prices into the watchlist, the price map forwarded to App, the simulated
  ticker, the board and search filter, and the order form.
- **The small decision rules of the other components**:
  - the product grid (ProductsSection);
  - the route guard (ProtectedRoute);
  - the mock sign-in (AuthView);
  - the three-step KYC wizard (KYCView);
  - the KYC approval queue (AdminView);
  - the language restore (LanguageContext);
  - the debounced search box and result click (Navbar).

Layout: one module per source component.
- `Wrappers` supplies `Option` and `Result`.
- `Text` supplies the JavaScript string operations the components use:
  - `includes`;
  - `indexOf`;
  - first-occurrence `replace`;
  - `trim`;
  - `toLowerCase`.
- `Seqs` holds one sequence lemma.

Everything is modelled as immutable data and pure functions:
- Clocks (`Date.now()`), random ids and draws, and browser storage are
  parameters.
- The AI provider is a parameter too: a function from the attempt number to
  the outcome and its latency.
- JSON parsing is a parameter as well.

Behaviour of the retry and fallback code worth noting:
- **A rate-limited call is never retried successfully.** The rate-limit
  error sets a 10-second cooldown, and the single retry comes 2 seconds
  later, so the retry always throws `QUOTA_COOLDOWN` without calling the
  provider (`Retry.RetryNeverOutlastsCooldown`,
  `Retry.DefaultRetryFailsFast`).
- **Other errors are not retried.** Any error that is not a rate limit is
  rethrown at once.
- **Stale entries are not always a fallback.** The symbol analysis falls
  back to its stale cache entry only for rate-limit errors, and the product
  strategy never does.

## Model

| member | source | states |
|---|---|---|
| Portfolio.PlaceOrder | App.tsx:128-167 | Rejects a Buy exactly when qty×price exceeds the cash (InsufficientFunds), so spending exactly all the cash is accepted. Rejects a Sell exactly when the held quantity is below the order quantity or the symbol is not held (InsufficientHoldings). A rejection carries no account. On success the cash moves by qty×price in the side's direction, and exactly one ledger entry is prepended (value qty×price, the symbol, the given id and date, status Khớp, MUA exactly for a Buy) in front of the unchanged earlier entries. |
| Portfolio.BuyOnHeldSymbol | App.tsx:137-142 | A Buy on a held symbol adds the order quantity to that position and sets its entry to the volume-weighted average, so entry×qty grows by price×qty. Every other position is kept. |
| Portfolio.BuyOnNewSymbol | App.tsx:138-144 | A Buy on a symbol not held appends one position at the end, with the order's price as entry, the order's quantity and side Buy. |
| Portfolio.SellAllRemovesPosition | App.tsx:147-153 | Selling exactly the held quantity succeeds and removes that position, keeping the other positions in order. |
| Portfolio.SellPartLowersQuantity | App.tsx:147-155 | Selling less than the held quantity succeeds and lowers that position's quantity by the order quantity, at the same entry. The other positions are unchanged. |
| Portfolio.PlaceOrderKeepsValid | App.tsx:128-156 | A successful order at a non-negative price keeps the account invariant: cash is non-negative, there is at most one position per symbol, and every quantity is positive. |
| Portfolio.BuyUpsertKeepsInvariant | App.tsx:137-145 | The Buy position update keeps symbols unique and quantities positive. |
| Portfolio.SellReduceKeepsInvariant | App.tsx:152-155 | The Sell position update keeps symbols unique and quantities positive. |
| Portfolio.DropKeepsInvariant | App.tsx:153 | Dropping one position keeps the rest unique and positive. |
| Portfolio.DecrementKeepsInvariant | App.tsx:154 | Lowering one position by less than it holds keeps symbols unique and quantities positive. |
| Portfolio.FindIndex | App.tsx:138 | Returns the index of the first position with the symbol, or none exactly when no position has it. |
| Portfolio.Reprice | App.tsx:142 | Replaces quantity and entry exactly on the positions of the symbol. All other positions keep their place and value. |
| Portfolio.Decrement | App.tsx:154 | Lowers the quantity exactly of the positions of the symbol. All other positions keep their place and value. |
| Portfolio.Without | App.tsx:153 | Keeps exactly the positions of other symbols. |
| Portfolio.WithoutUnique | App.tsx:153 | With unique symbols, filtering out the symbol held at index k is removing index k. |
| Portfolio.WithoutAbsent | App.tsx:153 | Filtering out a symbol that is not held changes nothing. |
| Portfolio.BuyThenSellExample | App.tsx:128-167 | A worked example. From 100,000,000 cash, buying 100 VNM at 78.5 leaves 99,992,150 and one position. Then selling 50 at 80 leaves 99,996,150, half the position at the same entry, and two ledger entries. |
| Portfolio.BuyAll | App.tsx:128-145 | Buy orders placed one after another either all fill, leaving the cash lowered by the sum of their values, or stop at the first InsufficientFunds. |
| Portfolio.BuysOnHeldSymbol | App.tsx:137-142 | Any run of fills on a held symbol keeps the position at its index. Its quantity grows by the sum of the fills, and entry×qty grows by the sum of their values. Every other position is untouched. |
| Portfolio.RepeatedBuysAverage | App.tsx:137-145 | Any run of fills on a symbol not yet held ends in one new position at the end. Its quantity is the sum of the fills, and its entry is their volume-weighted average price, in whatever order they came. The earlier positions are unchanged. |
| App.ViewNamed | App.tsx:81-82 | Returns the view a string names, or none exactly when no view has that name. |
| App.ViewFromHash | App.tsx:79-83 | The initial view is the view the hash names once its first '#' is removed, when that name is one of the five views; for any other hash it is 'marketing'. |
| App.ViewHashRoundTrip | App.tsx:79-125 | The view written to the hash is the view read back from it. |
| App.UpdateKycStatus | App.tsx:189-193 | Only a signed-in user's KYC status changes. With nobody signed in, nothing happens. |
| App.VerifyUser | App.tsx:286-290 | The signed-in user becomes verified exactly when the id matches; otherwise the user is unchanged. |
| App.UpdateGlobalPrices | App.tsx:169-171 | The keys are the union of both maps. New entries win. A key missing from the update keeps its old value. |
| App.UpdateGlobalPricesIdempotent | App.tsx:169-171 | Forwarding the same prices twice is the same as forwarding them once. |
| App.Restore | App.tsx:91-104 | A missing or empty stored item gives the default; otherwise the item is parsed. |
| App.StartupAccount | App.tsx:91-104 | Each of cash, positions and ledger is restored from its own stored item, with its own default. |
| App.FreshStart | App.tsx:91-104 | With nothing stored, the account starts with 100,000,000 cash, no positions and an empty ledger. |
| Dashboard.Value | components/DashboardView.tsx:76-84 | The five figures: profit is invested minus cost, and total is cash plus invested. With no positions, the total is the cash and profit and ratio are 0. The ratio is invested/total×100 when total > 0, else 0. It lies in [0,100] when cash and invested are non-negative. |
| Dashboard.RatioWithin | components/DashboardView.tsx:84 | A non-negative share of a positive total is at most 100 per cent. |
| Dashboard.UnquotedInvestedIsCost | components/DashboardView.tsx:76-82 | When no position has a usable quote (missing, undefined or 0), the invested value is the cost basis and the profit is 0. |
| Dashboard.InvestedNonNegative | components/DashboardView.tsx:76-79 | Non-negative entries, quotes and quantities give a non-negative invested value. |
| Dashboard.CostAppend | components/DashboardView.tsx:81 | The cost basis of a concatenation is the sum of the two cost bases. |
| Dashboard.AverageCost | App.tsx:140-142 | Averaging a fill into a position adds exactly price×qty to that position's cost. |
| Dashboard.BuyUpsertCost | App.tsx:137-145 | The Buy position update raises the cost basis by exactly the order value. |
| Dashboard.SellReduceCost | App.tsx:152-155 | The Sell position update lowers the cost basis by the sold quantity at the position's entry. |
| Dashboard.BuyRaisesCostBasis | App.tsx:128-145 | A filled Buy raises the cost basis by exactly the cash it spent. |
| Dashboard.SellLowersCostBasis | App.tsx:146-155 | A filled Sell succeeds and lowers the cost basis by the sold quantity at the entry price. |
| Dashboard.AddTask | components/DashboardView.tsx:86-95 | Prepends one open task with the given id, title, description and creation time, in front of the unchanged earlier tasks. |
| Dashboard.ToggleTask | components/DashboardView.tsx:97-99 | Flips `completed` exactly on the tasks with the id. Length, order and every other field are kept. |
| Dashboard.DeleteTask | components/DashboardView.tsx:101-103 | Keeps exactly the tasks with another id. |
| Dashboard.ToggleTwice | components/DashboardView.tsx:97-99 | Toggling the same id twice restores the list. |
| Dashboard.DeleteUndoesAdd | components/DashboardView.tsx:86-103 | Deleting a task just added under an unused id gives back the old list. |
| Dashboard.DeleteKeepsOthers | components/DashboardView.tsx:101-103 | Deleting an id no task has changes nothing. |
| Dashboard.DeleteUnique | components/DashboardView.tsx:101-103 | Deleting the one task with the id removes exactly its index; the other tasks keep their order. |
| Dashboard.DefaultTasks | components/DashboardView.tsx:63-67 | Two tasks, ids "1" and "2", created now. The first is completed exactly when the KYC status is verified; the second is open. |
| Dashboard.LoadTasks | components/DashboardView.tsx:58-69 | The stored list when there is one, else the defaults. |
| Cache.Sweep | services/geminiService.ts:42-50 | Keeps exactly the entries younger than a day, unchanged. |
| Cache.SweepChangesIffStale | services/geminiService.ts:43-51 | The sweep drops something exactly when some entry is a day old or older. |
| Cache.SweepKeepsFresh | services/geminiService.ts:44-51 | When nothing is stale, the sweep returns the entries as they were. |
| Cache.SweepIdempotent | services/geminiService.ts:36-58 | A second sweep at the same time drops nothing more, and no stale entry survives. |
| Cache.GetPersistentCache | services/geminiService.ts:36-58 | The caller sees the swept entries. The storage item is rewritten, with exactly that view, only when something was dropped. A missing or unparsable item reads as empty and is left alone. No entry seen is a day old. |
| Cache.SaveToPersistentCache | services/geminiService.ts:60-68 | The stored object is the swept cache with the key set to the new data, stamped now. Every other key is as the read left it. |
| Cache.SaveThenRead | services/geminiService.ts:60-68 | Data saved at a time is served by a lookup at that time for any positive time-to-live, and reading it back rewrites nothing. |
| Cache.Lookup | services/geminiService.ts:142 | Serves an entry's data exactly when the entry is present and younger than the time-to-live. |
| Cache.Stale | services/geminiService.ts:159 | Serves an entry's data exactly when it is present, whatever its age. |
| Cache.LookupImpliesStale | services/geminiService.ts:142-160 | A fresh hit is also a stale hit, with the same data. |
| Cache.LookupMonotone | services/geminiService.ts:142 | A longer time-to-live serves everything a shorter one does, with the same data. |
| Cache.Deduplicate | services/geminiService.ts:118-123 | A pending key returns its promise without starting the function. Otherwise the function starts as a new promise that is recorded under the key. |
| Cache.Settle | services/geminiService.ts:120 | Settling forgets the key and keeps every other pending entry. |
| Cache.SecondCallJoins | services/geminiService.ts:118-122 | Two calls with one key while the first is in flight share one promise and start the function once. |
| Cache.SettledKeyStartsAgain | services/geminiService.ts:118-123 | Once settled, the next call with that key starts afresh. |
| Retry.CooldownErrorClassified | services/geminiService.ts:72-94 | The error thrown during the cooldown is a rate-limit error and not an invalid-key error. |
| Retry.InvalidKeyMentionsKey | services/geminiService.ts:83-88 | Every invalid-key message mentions "API key" or "API_KEY_INVALID". |
| Retry.RateLimitSignals | services/geminiService.ts:72-81 | A 429 in `status` or `code` makes a rate limit, and so does a string message containing "quota". A message that is not a string is never searched, so such an error is a rate limit exactly when its status or code is 429. The search is case-sensitive: "RESOURCE_EXHAUSTED" alone is not a rate limit. |
| Retry.InvalidKeySignals | services/geminiService.ts:83-88 | "API_KEY_INVALID" anywhere in the message text makes an invalid key, whatever the status, and so does "API key" under status 400. The text of a non-string message is read too. A bare "API key" mention under status 403 is not an invalid key. |
| Retry.WithRetry | services/geminiService.ts:90-116 | During the cooldown it throws `QUOTA_COOLDOWN` without calling the provider. It makes at most retries+1 provider calls, and a value needs at least one. It dispatches at most one invalid-key event, and only when it throws an invalid-key error. The cooldown is either untouched or at least ten seconds past the start. |
| Retry.FirstCallOutcome | services/geminiService.ts:96-114 | Outside the cooldown, the first call decides: (1) a success returns its data; (2) an invalid key is rethrown with one event and the cooldown untouched; (3) any other error that is not a rate limit is rethrown without retry. |
| Retry.RateLimitStartsCooldown | services/geminiService.ts:105-114 | With no retries left, a rate-limit error sets the cooldown to ten seconds after it arrived and is rethrown. |
| Retry.RetryNeverOutlastsCooldown | services/geminiService.ts:90-113 | While the wait is shorter than the cooldown, the provider is called at most once whatever the retry budget. A rate-limited call with retries left ends in `QUOTA_COOLDOWN`. |
| Retry.DefaultRetryFailsFast | services/geminiService.ts:90-113 | With the defaults (one retry after 2000 ms), a rate-limited first call is the only call. The caller sees `QUOTA_COOLDOWN`, and the cooldown ends ten seconds after the error. |
| Retry.LongWaitRetries | services/geminiService.ts:105-111 | With a wait of at least the cooldown, a rate-limited call followed by a success returns that success after two calls. |
| Services.WebSources | services/geminiService.ts:198-201 | Exactly the sources of the web chunks. |
| Services.OrText | services/geminiService.ts:155 | The reply text unless it is missing or empty, else the fallback. |
| Services.Build | services/geminiService.ts:155-321 | The payload each operation builds from a reply, always of that operation's shape and truthy: (1) the summary text or "Summary unavailable."; (2) the extracted price table or an empty one; (3) the update text; (4) the sentiment and content read as the code writes it (`Sentiment.ParseAsWritten`), with the clock; (5) the strategy text with the clock. Price, update and analysis payloads carry the web sources. |
| Services.AnalysisSentiment | services/geminiService.ts:277-285 | An analysis keeps the tag as the reply spells it: "[bullish]" gives the sentiment "bullish". When the tag is spelled as in the pattern, or there is none, the sentiment is one of Bullish, Bearish or Neutral. |
| Services.Or | services/geminiService.ts:159 | `stale \|\| placeholder`: the stale payload when it is truthy, else the placeholder. |
| Services.Fallback | services/geminiService.ts:158-326 | What a failed call returns: the stale entry when that operation uses it for this kind of error and it is truthy, else the operation's placeholder. The result is always truthy, and of the operation's shape when the stale entry is. |
| Services.Fetch | services/geminiService.ts:139-162 | A call is served from the cache exactly on a fresh hit. Otherwise it joins the in-flight promise exactly when the key is pending. Otherwise it calls the provider, at most once because the single retry always meets the cooldown, and forgets the key when done. A provider answer is stored under the key, stamped at the end of the call, and has the operation's shape. A failure leaves storage as the read left it. |
| Services.SweepKeepsServable | services/geminiService.ts:45 | Every time-to-live is at most a day, so the sweep never removes an entry a lookup would serve. |
| Services.AnswerServedUntilExpiry | services/geminiService.ts:142-157 | A stored answer is served from the cache, without a provider call, by every later call until its time-to-live runs out. |
| Services.CooldownServesFallback | services/geminiService.ts:139-162 | During the cooldown, a call without a fresh entry or a pending request makes no provider call. It returns the rate-limit fallback. |
| Services.PlainFailureFallbacks | services/geminiService.ts:158-326 | On an ordinary error a summary falls back to its stale entry or "...". An analysis ignores the cache and reports a connectivity problem. A strategy always returns its fixed text. |
| Services.GlobalSearch | services/geminiService.ts:334-356 | An empty query makes no call and has no results. It makes at most one provider call. Any results need a provider call. During the cooldown there are no results and no call. A successful first call gives the extracted array, or no results when there is none. |
| Keys.Sort | services/geminiService.ts:167 | `symbols.sort()` gives the same symbols in string order. |
| Keys.SortedUnique | services/geminiService.ts:167 | Two sorted lists with the same symbols are equal. |
| Keys.SameSymbolsSameKey | services/geminiService.ts:167 | The same symbols in any order give the same live-price key. |
| Keys.PricesKeyExample | services/geminiService.ts:167 | ["VNM", "HPG"] gives "live_prices_v4_HPG_VNM". |
| Keys.SummaryKeyInjective | services/geminiService.ts:140 | Summary keys are equal exactly for the same title and language. |
| Keys.QuickSummarySharesInsightEntry | services/geminiService.ts:330-332 | A quick product summary uses the entry of the insight summary titled "title: thesis", and no other. |
| Keys.AnalysisKeyInjective | services/geminiService.ts:254 | Analyses of different symbols or languages never share an entry. |
| Keys.KeysOfDifferentOperationsDiffer | services/geminiService.ts:140-303 | The keys of the five operations never coincide. |
| Sentiment.Find | services/geminiService.ts:281 | The leftmost bracketed tag in any letter case, taking the first alternative that matches there. It is none exactly when no tag occurs. |
| Sentiment.ParseAsWritten | services/geminiService.ts:277-285 | As written: the matched word as spelled in the text, passed through the three exact-case replaces. Without a tag, 'Neutral' and the text unchanged. |
| Sentiment.ReadingsAgreeOnExactCase | services/geminiService.ts:281-284 | The as-written and the corrected reading are equal whenever the matched tag is spelled exactly as in the pattern, or there is no tag. |
| Sentiment.Parse | services/geminiService.ts:277-285 | As intended: always one of Bullish, Bearish or Neutral, namely the English word of the matched tag. Without a tag, 'Neutral' and the text unchanged. |
| Sentiment.RemovesTheMatch | services/geminiService.ts:284 | The first exact copy of the matched tag is the match itself, so the replace cuts out exactly the match. |
| Sentiment.ContentWithoutTag | services/geminiService.ts:284 | The content is the text with the matched tag cut out, trimmed. Both readings agree on it. |
| Sentiment.ExactCaseTranslated | services/geminiService.ts:283 | A tag spelled as in the pattern is translated to its English word. |
| Sentiment.LowerCaseTagKeepsSpelling | services/geminiService.ts:281-283 | "[bullish]" is matched, but as written its sentiment is "bullish", not "Bullish". |
| Market.ApiPrice | components/TradingSection.tsx:172 | The number itself, or the object's price field, possibly missing. |
| Market.ApiMarketCap | components/TradingSection.tsx:173 | Only an object carries a market cap. |
| Market.Refresh | components/TradingSection.tsx:169-190 | (1) A truthy new price different from the shown one reprices the row: change against ref, and the API market cap when truthy. (2) Otherwise a truthy new market cap replaces only the market cap. (3) Otherwise the row is kept. The row changes exactly when there is something to take. |
| Market.Merge | components/TradingSection.tsx:167-193 | Keeps length and order and refreshes each row. `hasChanges` holds exactly when some row changed, exactly when the list differs from the previous one. |
| Market.RefreshSettles | components/TradingSection.tsx:175-190 | A refreshed row has nothing left to take from the same prices. |
| Market.MergeIdempotent | components/TradingSection.tsx:167-193 | Merging the same prices again changes nothing and reports no change. |
| Market.PriceMap | components/TradingSection.tsx:200-203 | One entry per API key, valued as the number itself or its price field. |
| Market.Sync | components/TradingSection.tsx:158-206 | A hidden page does nothing. Otherwise the watchlist is merged and App's prices are updated with the price map. |
| Market.SyncAgreesWithApp | components/TradingSection.tsx:164-205 | After a sync, App's price for every repriced row is that row's new price. |
| Market.Round2 | components/TradingSection.tsx:943-945 | `Number(x.toFixed(2))` lies within half a cent of x. |
| Market.Clamp | components/TradingSection.tsx:936 | Within the band when floor ≤ ceil; a value inside the band is kept. |
| Market.Tick | components/TradingSection.tsx:922-946 | A row that does not move is kept. A ticker step never changes symbol, reference, band or board. |
| Market.TickStaysInBand | components/TradingSection.tsx:931-943 | With a cent-valued band, a ticker step never leaves it. |
| Market.TickPullsBack | components/TradingSection.tsx:931-934 | Outside ±5% of the reference the random draw is ignored. Above the band the price does not rise, and below it the price does not fall. |
| Market.TickRecomputesChange | components/TradingSection.tsx:934-945 | With reference, price, band and draw in whole cents, a moved row's absolute change is exactly its new price minus the reference. Its percentage change is that difference over the reference, ×100, to within half a cent of rounding. |
| Market.OnBoard | components/TradingSection.tsx:954 | Keeps exactly the rows on the board. |
| Market.Containing | components/TradingSection.tsx:957 | Keeps exactly the rows whose lower-cased symbol or name contains the query. |
| Market.FilterByBoard | components/TradingSection.tsx:953-958 | Keeps exactly the rows on the active board that match the query. An empty query keeps the whole board. |
| Market.FilterIgnoresQueryCase | components/TradingSection.tsx:956 | Lower-casing the query first changes nothing. |
| Market.OrderTypeId | components/TradingSection.tsx:690-694 | Limit is LO and Market is MP; any other type is itself. |
| Market.Picked | components/TradingSection.tsx:738 | The dropdown stores Limit for LO, Market for MP, and the value itself otherwise. |
| Market.PickedRoundTrip | components/TradingSection.tsx:738-742 | Picking any dropdown value highlights that same value. |
| Market.FormOrder | components/TradingSection.tsx:665-676 | No order exactly when the quantity is missing or non-positive, or a Limit price does not parse. A Market order takes the live price, any other the parsed price, read after the first comma is removed. buy and sell become Buy and Sell. |
| Market.NegativeLimitOverdraws | components/TradingSection.tsx:665-676 | A Limit Sell typed at -5 passes the form, and the engine accepts it against a valid account, leaving cash -5 and the invariant broken. |
| Market.SafeFormOrder | components/TradingSection.tsx:665-676 | The corrected form emits the form's order exactly when that order's price is positive, and no order otherwise. |
| Market.SafeFormOrderKeepsValid | components/TradingSection.tsx:665-676 | Every order the corrected form emits keeps the account invariant whenever the engine accepts it. |
| Market.FormOrderPlaceable | components/TradingSection.tsx:665-676 | Every emitted order has a positive quantity. A market buy worth exactly the cash is accepted by the engine. |
| Products.Build | components/ProductsSection.tsx:305-334 | Product i takes base row i mod 4, the item's fields winning. |
| Products.BuildAll | components/ProductsSection.tsx:305-334 | One product per item, in order. |
| Products.BaseRowsRepeat | components/ProductsSection.tsx:306-331 | Items without their own figures repeat the base rows every four products. |
| Products.RiskFilter | components/ProductsSection.tsx:337 | 'All' keeps every product. Any other value keeps exactly the products whose label equals it. |
| Products.Sort | components/ProductsSection.tsx:339-344 | Descending by the chosen figure, holding exactly the same products. |
| Products.Shown | components/ProductsSection.tsx:336-347 | The grid is a descending permutation of the filtered products. |
| Products.ShownNoDuplicates | components/ProductsSection.tsx:336-347 | No product is shown more often than it is listed. |
| Products.Catalogue | translations.ts:77-101 | Four products with ids 1 to 4 and that language's risk labels. |
| Products.NoLabelNoProducts | components/ProductsSection.tsx:337 | When no product carries the label, the filter keeps nothing. |
| Products.EnglishHighKeepsTwo | components/ProductsSection.tsx:337 | In English, 'High' keeps products 1 and 4. |
| Products.VietnameseHighKeepsNone | translations.ts:339-357 | In Vietnamese the labels are Cao, Trung bình and Thấp, so 'High' keeps nothing. |
| Products.ChineseLowKeepsNone | translations.ts:596-614 | In Chinese the labels are 高, 中 and 低, so 'Low' keeps nothing. |
| Products.RiskButtonsMatchOnlyEnglish | components/ProductsSection.tsx:337 | The English buttons find products only in English. |
| Products.LevelFilter | components/ProductsSection.tsx:337 | As intended: keeps exactly the products whose label stands for the button's level. |
| Products.LevelFilterIgnoresLanguage | components/ProductsSection.tsx:337 | With the intended filter each button shows the same products in every language. In English it agrees with the filter as written. |
| Products.AiClick | components/ProductsSection.tsx:161-175 | A summary is requested exactly when it is hidden and none is loaded. A failure stores "Analysis unavailable.", and every click toggles the summary. |
| Products.LoadedStays | components/ProductsSection.tsx:163 | Once loaded, no click asks again and the summary stays. |
| Products.SummaryRequestedOnce | components/ProductsSection.tsx:161-175 | With non-empty answers, a card asks for its summary at most once. |
| Guard.Protect | ProtectedRoute.tsx:23-42 | Renders exactly for an authorised user and then navigates nowhere. No user goes to 'auth'; a role mismatch goes to the fallback. |
| Guard.Route | App.tsx:230-295 | Marketing and auth render for everyone. |
| Guard.AnyUserPassesOpenGuard | ProtectedRoute.tsx:31-38 | With no role required, any signed-in user sees the view. |
| Guard.RedirectsSettle | App.tsx:245-295 | Wherever a guard sends the user, that view renders without navigating again. |
| Guard.AdminViewByRole | App.tsx:280-283 | A plain user opening the admin view is sent to the dashboard; an admin sees it. |
| Auth.MockUser | components/AuthView.tsx:25-32 | The role is admin exactly when the lower-cased e-mail contains "admin". Registration uses the entered name. Login uses "Master Admin" or "Premium Investor". The e-mail is copied, KYC is 'none', and the id is the given one. |
| Auth.SignIn | App.tsx:173-177 | The user is signed in and the dashboard opens. |
| Auth.SignOut | App.tsx:179-182 | Nobody is signed in and the marketing page opens. |
| Auth.SignedInAccess | components/AuthView.tsx:24-35 | A freshly signed-in user sees the dashboard. They see the admin view exactly when their e-mail mentions "admin". |
| Auth.UpperCaseAdminEmail | components/AuthView.tsx:25 | "ADMIN@upbo.vn" makes a test admin. |
| Auth.SignedOutIsSentToAuth | ProtectedRoute.tsx:25-28 | After signing out, every protected view sends the visitor to 'auth'. |
| Kyc.NextStep | components/KYCView.tsx:48-56 | Stops an active camera. Below step 3 it goes one step on. At step 3 it stays, starts loading and schedules completion. |
| Kyc.Primary | components/KYCView.tsx:217 | Disabled while loading, otherwise `nextStep`. |
| Kyc.Back | components/KYCView.tsx:214 | Step 1 cancels; a later step goes one back. |
| Kyc.TransitionsKeepStepInRange | components/KYCView.tsx:48-56 | Every press keeps the step within 1 to 3. |
| Kyc.LoadingIsFinal | components/KYCView.tsx:217 | Once loading, nothing schedules completion again and loading stays. |
| Kyc.CompletesAtMostOnce | components/KYCView.tsx:48-56 | Whatever is pressed, completion is scheduled at most once and the step stays within 1 to 3. |
| Kyc.ThreePressesSubmit | components/KYCView.tsx:18-56 | Three primary presses from the start reach step 3, loading, with one completion. |
| Admin.Remove | components/AdminView.tsx:24 | Keeps exactly the applicants with another id. |
| Admin.Approve | components/AdminView.tsx:23-26 | The queue without the id, and the user as `onVerifyUser` with the same id leaves it. |
| Admin.PendingCount | components/AdminView.tsx:49 | The count shown is the queue's length. |
| Admin.InitialQueue | components/AdminView.tsx:17-21 | Three applicants, distinct ids, all pending. |
| Admin.RemoveAbsent | components/AdminView.tsx:24 | Removing an id not queued changes nothing. |
| Admin.RemoveUnique | components/AdminView.tsx:24 | Removing the only entry with the id drops exactly it and keeps the rest in order. The count drops by one. |
| Admin.ApproveIdempotent | components/AdminView.tsx:23-26 | Approving twice is approving once. |
| Admin.ApproveSecondApplicant | components/AdminView.tsx:17-26 | Approving "2" leaves "1" and "3". A signed-in user ends up verified exactly when their id is "2" or they already were. |
| Language.InitialLang | LanguageContext.tsx:16-26 | A stored 'en', 'vn' or 'zh' is restored. Anything else, nothing stored, and a storage failure give Vietnamese. |
| Language.SaveThenRestore | LanguageContext.tsx:16-34 | The language written back is the language read on the next start. |
| Language.DefaultIsVietnamese | LanguageContext.tsx:19-25 | An unknown code, a missing item and a storage failure all give Vietnamese. |
| Navbar.QueryChanged | components/Navbar.tsx:55-74 | A query whose trimmed length exceeds two starts the timer and shows the spinner. Any other clears results and spinner. |
| Navbar.TimerFired | components/Navbar.tsx:60-69 | The waiting query's results are shown and the spinner stops. |
| Navbar.OnlyLastQuerySearched | components/Navbar.tsx:55-74 | After a burst of typing only the last query waits, and only when it is searchable. |
| Navbar.ShortQueryNotSearched | components/Navbar.tsx:58 | " ab " starts no search. |
| Navbar.ResultClick | components/Navbar.tsx:76-86 | A missing, non-string or blank link does nothing. Any other link closes the overlay and clears the query. A '#' link navigates to the link without its first '#'; any other link opens a tab. |
| Navbar.ClickClearsSearch | components/Navbar.tsx:55-86 | After a click that is not ignored, the search effect that the emptied query triggers clears the pending timer, the results and the spinner, so no search result arrives afterwards. |
| Navbar.ViewAfter | App.tsx:184-187 | A navigation stores the name it is given; anything else keeps the view. |
| Navbar.ViewLinkNavigates | components/Navbar.tsx:80-82 | "#name" for any view takes the user to that view. |
| Navbar.GenericLinkBlanksPage | components/Navbar.tsx:80-82 | The generic link "#" navigates to the empty name, which renders no view. |
| Navbar.SafeViewAfter | components/Navbar.tsx:80-82 | As intended: a '#' link navigates only when it names a view. |
| Navbar.SafeClickKeepsAView | components/Navbar.tsx:80-82 | With the intended click, a rendering view keeps rendering whatever is clicked, and every view link still works. |

## Left out

- Rendering, styling, animation, charts and the order book: no statable logic.
- The chatbot and `createChatSession`: a foreign chat session with no logic of its own.
- The prompts and the provider itself: the provider is a parameter.
- `extractJson`, `JSON.parse` and `JSON.stringify`: parsing is a parameter returning an optional value. Malformed storage is the `Corrupt` case.
- Browser storage writes and their errors: stored items are values passed in and handed back. A failing write (quota) is not modelled.
- Timers, visibility events and promise interleaving: de-duplication and the cooldown are sequential steps over an explicit clock.
- Promises are ids, and a retry wait lasts exactly its delay.
- `Math.random`, `Date.now()` and `toLocaleString`: ids, draws, the clock and date strings are parameters.
- The ticker's random magnitude and the 30% draw: both are parameters of `Market.Tick`.
- Floating point: prices are exact reals. `toFixed(2)` is exact decimal rounding, half away from zero. NaN and Infinity do not arise.
- useStockData.ts: it wraps an edge function that is not part of this model.
- `getInsightSentiment`, `getSymbolsByGroup` and `getMarketListing`: fixed placeholder returns with no logic.
- ProductModal's `handleAiAnalyze`: a single call to `analyzeProductStrategy`, which is modelled.
- The translation table: only the four products' risk labels per language are modelled (`Products.RiskLabels`). `translations[lang]` is a table lookup.
- The search effect re-running on a language change: it restarts the same timer. `Navbar.QueryChanged` models one change.
- Lower-casing covers ASCII letters only, in `Text.Lower`, the admin e-mail test and the watchlist search. Other letters are kept as they are.
- The sentiment pattern's case folding covers ASCII and the four accented letters of the tag words, which decides exactly the matches of these tags.
- Strings are sequences of code points, not UTF-16 units.
- Quantities are whole numbers. Fractional JavaScript numbers are not modelled.
- Portfolio.PlaceOrder: requires a positive order quantity. `handlePlaceOrder` itself does not check it; only the order form does (`Market.FormOrder`).
- Portfolio.PlaceOrder: requires every held quantity to be positive. This is the invariant the engine keeps, and it keeps the averaging denominator non-zero.
- Portfolio.PlaceOrderKeepsValid: requires a non-negative price. The engine does not check the price, and the order form passes a typed negative Limit price on to it (the order-form row of "## Findings"). A Sell at such a price lowers the cash and can take it below zero, so the invariant then fails.
- Market.Refresh, Market.Merge, Market.Sync and Market.Tick: require a non-zero reference price. JavaScript would produce Infinity or NaN for a zero reference.
- Market.FormOrder: requires a parsable price for order types other than Limit and Market. For those types the price box is refilled from the live price and disabled (components/TradingSection.tsx:661-663), so it always parses.
- Products.Sort: the insertion keeps products with equal figures in their input order, like JavaScript's stable sort, but the contract states only order and permutation, not this stability.
- Products.Shown: sorts a copy. The source sorts the filtered array in place, which has no other observer.
- Market.Stock: volume, open, high and low are display-only and are not modelled.

## Findings

| source | as written | input that shows it | evidently intended | confidence | as-written member | corrected member |
|---|---|---|---|---|---|---|
| services/geminiService.ts:281-283 | The tag is matched in any letter case, but the sentiment is the word as spelled in the text, translated by exact-case replaces | An analysis reading "[bullish] ..." gets sentiment "bullish", which is not one of Bullish, Bearish or Neutral | The English sentiment of the matched tag, whatever its case | not executed | Sentiment.LowerCaseTagKeepsSpelling | Sentiment.Parse |
| components/Navbar.tsx:80-82 | Any link starting with '#' navigates to the rest of the link | The search prompt asks for the link "#" for generic results; clicking one stores the empty view name, and App renders no view | Navigate only when the link names a view, otherwise stay | not executed | Navbar.GenericLinkBlanksPage | Navbar.SafeClickKeepsAView |
| components/ProductsSection.tsx:337 | The risk filter compares the label with the English button words | In Vietnamese (the default language) 'High' keeps no product, because the labels are 'Cao', 'Trung bình' and 'Thấp' | Keep the products whose label stands for the button's level | not executed | Products.RiskButtonsMatchOnlyEnglish | Products.LevelFilterIgnoresLanguage |
| components/TradingSection.tsx:666-668 | The free-text Limit price box refuses only a price that does not parse, and the engine does not check the price either | A Limit Sell of 1 share typed at "-5", against 0 cash and one held share, is accepted and leaves the cash at -5 | Refuse an order whose price is not positive | not executed | Market.NegativeLimitOverdraws | Market.SafeFormOrderKeepsValid |

=== FILE: admin.dfy ===
/** components/AdminView.tsx: the KYC approval queue. Approving removes the
    applicant from the queue and asks App to verify that id. */
module Admin {
  import opened Wrappers
  import opened App
  import Seqs

  /** One applicant waiting for KYC approval. */
  datatype Applicant = Applicant(id: string, name: string, email: string, kycStatus: KycStatus, timestamp: string)

  /** The queue the view starts with. */
  const InitialPending: seq<Applicant> := [
    Applicant("1", "Trần Thị B", "investorB@gmail.com", KycPending, "1h ago"),
    Applicant("2", "Lê Văn C", "levanc@outlook.com", KycPending, "4h ago"),
    Applicant("3", "Hoàng Minh D", "dminh@company.com", KycPending, "1d ago")
  ]

  /** `pendingUsers.filter(u => u.id !== id)`. */
  function Remove(pending: seq<Applicant>, id: string): (r: seq<Applicant>)
    ensures |r| <= |pending|
    ensures forall a :: a in r <==> a in pending && a.id != id
    decreases |pending|
  {
    if |pending| == 0 then []
    else if pending[0].id == id then Remove(pending[1..], id)
    else [pending[0]] + Remove(pending[1..], id)
  }

  /** `handleApprove(id)`: the queue without that id, and the signed-in user
      as App's `onVerifyUser(id)` leaves it. */
  function Approve(pending: seq<Applicant>, user: Option<User>, id: string): (r: (seq<Applicant>, Option<User>))
    ensures r.0 == Remove(pending, id)
    ensures r.1 == VerifyUser(user, id)
  {
    (Remove(pending, id), VerifyUser(user, id))
  }

  /** The count shown as pending KYC. */
  function PendingCount(pending: seq<Applicant>): (n: nat)
    ensures n == |pending|
  {
    |pending|
  }

  /** The initial queue: three applicants with distinct ids, all pending. */
  lemma InitialQueue()
    ensures PendingCount(InitialPending) == 3
    ensures forall i :: 0 <= i < |InitialPending| ==> InitialPending[i].kycStatus == KycPending
    ensures forall i, j :: 0 <= i < j < |InitialPending| ==> InitialPending[i].id != InitialPending[j].id
  {
  }

  /** Removing an id that is not queued changes nothing. */
  lemma {:induction false} RemoveAbsent(pending: seq<Applicant>, id: string)
    requires forall i :: 0 <= i < |pending| ==> pending[i].id != id
    ensures Remove(pending, id) == pending
    decreases |pending|
  {
    if |pending| > 0 {
      RemoveAbsent(pending[1..], id);
      assert [pending[0]] + pending[1..] == pending;
    }
  }

  /** Removing the only entry with this id (at index `k`) drops exactly that
      entry and keeps the others in order; the count drops by one. */
  lemma {:induction false} RemoveUnique(pending: seq<Applicant>, id: string, k: nat)
    requires k < |pending| && pending[k].id == id
    requires forall i :: 0 <= i < |pending| && i != k ==> pending[i].id != id
    ensures Remove(pending, id) == pending[..k] + pending[k + 1..]
    ensures PendingCount(Remove(pending, id)) == PendingCount(pending) - 1
    decreases |pending|
  {
    if k == 0 {
      RemoveHeadOnly(pending, id);
    } else {
      var tail := pending[1..];
      forall i | 0 <= i < |tail| && i != k - 1 ensures tail[i].id != id {
        assert tail[i] == pending[i + 1];
      }
      RemoveUnique(tail, id, k - 1);
      Seqs.DropAfterHead(pending, k);
      calc {
        Remove(pending, id);
        { assert pending[0].id != id; }
        [pending[0]] + Remove(tail, id);
        [pending[0]] + (tail[..k - 1] + tail[k..]);
        pending[..k] + pending[k + 1..];
      }
    }
  }

  /** The only entry with the id is the first: removing it leaves the tail. */
  lemma RemoveHeadOnly(pending: seq<Applicant>, id: string)
    requires 0 < |pending| && pending[0].id == id
    requires forall i :: 0 < i < |pending| ==> pending[i].id != id
    ensures Remove(pending, id) == pending[1..]
  {
    var tail := pending[1..];
    forall i | 0 <= i < |tail| ensures tail[i].id != id {
      assert tail[i] == pending[i + 1];
    }
    RemoveAbsent(tail, id);
  }

  /** Approving twice is approving once. */
  lemma {:induction false} ApproveIdempotent(pending: seq<Applicant>, user: Option<User>, id: string)
    ensures var (q, u) := Approve(pending, user, id);
            Approve(q, u, id) == (q, u)
  {
    var q := Remove(pending, id);
    assert forall i :: 0 <= i < |q| ==> q[i].id != id by {
      forall i | 0 <= i < |q| ensures q[i].id != id {
        assert q[i] in q;
      }
    }
    RemoveAbsent(q, id);
  }

  /** Approving applicant "2" from the initial queue leaves "1" and "3", and
      verifies a signed-in user exactly when their id is "2". */
  lemma ApproveSecondApplicant(user: Option<User>)
    ensures Approve(InitialPending, user, "2").0 == [InitialPending[0], InitialPending[2]]
    ensures Approve(InitialPending, user, "2").1.Some? ==>
              (Approve(InitialPending, user, "2").1.value.kycStatus == KycVerified
               <==> user.value.id == "2" || user.value.kycStatus == KycVerified)
  {
    RemoveUnique(InitialPending, "2", 1);
  }
}

=== FILE: app.dfy ===
/** The top-level state container of App.tsx, apart from the order engine:
    the view kept in the URL fragment, the signed-in user and the KYC
    verification callback, the global price map, and the start-up values of
    the portfolio read back from browser storage. */
module App {
  import opened Wrappers
  import opened Text
  import opened Portfolio

  /** 'marketing' | 'auth' | 'dashboard' | 'kyc' | 'admin'. */
  datatype View = Marketing | AuthPage | DashboardPage | KycPage | AdminPage

  function ViewName(v: View): string {
    match v
    case Marketing => "marketing"
    case AuthPage => "auth"
    case DashboardPage => "dashboard"
    case KycPage => "kyc"
    case AdminPage => "admin"
  }

  datatype Role = UserRole | AdminRole
  datatype KycStatus = KycNone | KycPending | KycVerified | KycRejected
  datatype User = User(id: string, name: string, email: string, role: Role, kycStatus: KycStatus)

  /** The view named by a string, if any. */
  function ViewNamed(name: string): (r: Option<View>)
    ensures r.Some? ==> ViewName(r.value) == name
    ensures r.None? ==> forall v :: ViewName(v) != name
  {
    if name == "marketing" then Some(Marketing)
    else if name == "auth" then Some(AuthPage)
    else if name == "dashboard" then Some(DashboardPage)
    else if name == "kyc" then Some(KycPage)
    else if name == "admin" then Some(AdminPage)
    else None
  }

  /** The initial view: the location hash with its first '#' removed, when it
      names one of the five views, and 'marketing' otherwise. */
  function ViewFromHash(hash: string): (v: View)
    ensures ViewName(v) == ReplaceFirst(hash, "#", "")
            || (v == Marketing && forall w :: ViewName(w) != ReplaceFirst(hash, "#", ""))
  {
    ViewNamed(ReplaceFirst(hash, "#", "")).GetOr(Marketing)
  }

  /** The view written to the hash is the view read back from it. */
  lemma ViewHashRoundTrip(v: View)
    ensures ViewFromHash("#" + ViewName(v)) == v
  {
    var h := "#" + ViewName(v);
    assert OccursAt(h, "#", 0);
    assert IndexOf(h, "#") == Some(0);
    assert ReplaceFirst(h, "#", "") == ViewName(v);
  }

  /** `updateKYCStatus`: only a signed-in user's status changes. */
  function UpdateKycStatus(user: Option<User>, status: KycStatus): (r: Option<User>)
    ensures r.Some? <==> user.Some?
    ensures r.Some? ==> r.value == user.value.(kycStatus := status)
  {
    match user
    case None => None
    case Some(u) => Some(u.(kycStatus := status))
  }

  /** The admin view's `onVerifyUser(uid)`: the signed-in user becomes
      verified exactly when the id matches; otherwise nothing changes. */
  function VerifyUser(user: Option<User>, uid: string): (r: Option<User>)
    ensures user.Some? && user.value.id == uid ==> r == Some(user.value.(kycStatus := KycVerified))
    ensures !(user.Some? && user.value.id == uid) ==> r == user
  {
    if user.Some? && user.value.id == uid then UpdateKycStatus(user, KycVerified) else user
  }

  /** `updateGlobalPrices`: `{ ...prev, ...prices }`. A symbol's price may be
      `undefined` when the feed forwarded an object without a price. */
  function UpdateGlobalPrices(prev: map<string, Option<real>>, prices: map<string, Option<real>>)
    : (r: map<string, Option<real>>)
    ensures r.Keys == prev.Keys + prices.Keys
    ensures forall k :: k in prices ==> r[k] == prices[k]
    ensures forall k :: k in prev && k !in prices ==> r[k] == prev[k]
  {
    prev + prices
  }

  /** Forwarding the same prices twice is the same as forwarding them once. */
  lemma UpdateGlobalPricesIdempotent(prev: map<string, Option<real>>, prices: map<string, Option<real>>)
    ensures UpdateGlobalPrices(UpdateGlobalPrices(prev, prices), prices) == UpdateGlobalPrices(prev, prices)
  {
  }

  /** `saved ? parse(saved) : default` for one stored item: a missing or empty
      string falls back to the default. Parsing is a parameter. */
  function Restore<T>(saved: Option<string>, parse: string -> T, default: T): (r: T)
    ensures saved.None? || saved == Some("") ==> r == default
    ensures saved.Some? && saved.value != "" ==> r == parse(saved.value)
  {
    if saved.Some? && saved.value != "" then parse(saved.value) else default
  }

  /** The portfolio at start-up, from the three stored items. */
  function StartupAccount(
    savedCash: Option<string>, savedPositions: Option<string>, savedTransactions: Option<string>,
    parseFloat: string -> real, parsePositions: string -> seq<Position>,
    parseTransactions: string -> seq<Transaction>): (a: Account)
    ensures a.cash == Restore(savedCash, parseFloat, InitialCash)
    ensures a.positions == Restore(savedPositions, parsePositions, [])
    ensures a.transactions == Restore(savedTransactions, parseTransactions, [])
  {
    Account(Restore(savedCash, parseFloat, InitialCash),
            Restore(savedPositions, parsePositions, []),
            Restore(savedTransactions, parseTransactions, []))
  }

  /** With nothing stored, the account starts with 100 million in cash, no
      positions and an empty ledger. */
  lemma FreshStart(parseFloat: string -> real, parsePositions: string -> seq<Position>,
                   parseTransactions: string -> seq<Transaction>)
    ensures StartupAccount(None, None, None, parseFloat, parsePositions, parseTransactions)
            == Account(100000000.0, [], [])
  {
  }
}

=== FILE: auth.dfy ===
/** components/AuthView.tsx: the mock sign-in. No credentials are checked;
    the user is built from the form, and App.tsx signs them in and opens
    the dashboard. The random id is a parameter. */
module Auth {
  import opened Wrappers
  import opened Text
  import opened App
  import opened Guard

  datatype Mode = Login | Register

  /** `email.toLowerCase().includes('admin')`. */
  predicate IsTestAdmin(email: string) {
    Contains(Lower(email), "admin")
  }

  /** The user `handleSubmit` hands to `onAuthSuccess`. */
  function MockUser(mode: Mode, email: string, name: string, id: string): (u: User)
    ensures u.role == AdminRole <==> IsTestAdmin(email)
    ensures mode == Register ==> u.name == name
    ensures mode == Login ==> u.name == (if IsTestAdmin(email) then "Master Admin" else "Premium Investor")
    ensures u.email == email && u.kycStatus == KycNone && u.id == id
  {
    var admin := IsTestAdmin(email);
    User(id,
         if mode == Register then name else if admin then "Master Admin" else "Premium Investor",
         email,
         if admin then AdminRole else UserRole,
         KycNone)
  }

  /** `handleAuthSuccess`: the user is signed in and the dashboard opens. */
  function SignIn(u: User): (r: (Option<User>, View))
    ensures r.0 == Some(u) && r.1 == DashboardPage
  {
    (Some(u), DashboardPage)
  }

  /** `logout`: nobody is signed in and the marketing page opens. */
  function SignOut(): (r: (Option<User>, View))
    ensures r.0.None? && r.1 == Marketing
  {
    (None, Marketing)
  }

  /** A freshly signed-in user sees the dashboard, and sees the admin view
      exactly when the e-mail mentions "admin" in any ASCII letter case. */
  lemma SignedInAccess(mode: Mode, email: string, name: string, id: string)
    ensures var (user, view) := SignIn(MockUser(mode, email, name, id));
            && Route(view, user) == Decision(None, true)
            && (Route(AdminPage, user).render <==> IsTestAdmin(email))
  {
  }

  /** Upper-case letters in the e-mail still make a test admin. */
  lemma UpperCaseAdminEmail()
    ensures IsTestAdmin("ADMIN@upbo.vn")
  {
    var low := Lower("ADMIN@upbo.vn");
    assert low[0..5] == "admin";
    assert OccursAt(low, "admin", 0);
  }

  /** After signing out, every protected view sends the visitor to 'auth'. */
  lemma SignedOutIsSentToAuth(v: View)
    requires v in {DashboardPage, KycPage, AdminPage}
    ensures Route(v, SignOut().0) == Decision(Some(AuthPage), false)
  {
  }
}

=== FILE: cache.dfy ===
/** The persistent AI-response cache of services/geminiService.ts: one stored
    object of timestamped entries, swept of day-old entries on every read, and
    the table of in-flight requests that lets concurrent callers share one
    provider call. Browser storage is a value passed in and handed back;
    `Date.now()` is the parameter `now`. */
module Cache {
  import opened Wrappers

  /** Entries older than a day are dropped on read. */
  const DayMs: int := 86400000

  /** A cached response and the time it was stored. */
  datatype Entry<D> = Entry(data: D, timestamp: int)

  type Store<D> = map<string, Entry<D>>

  /** What the storage item holds: nothing (or the empty string), text that
      does not parse as an object of entries, or the entries themselves. */
  datatype Saved<D> = Missing | Corrupt | Stored(entries: Store<D>)

  /** The entry is younger than `ttl` at time `now`. */
  predicate YoungerThan<D>(e: Entry<D>, now: int, ttl: int) {
    now - e.timestamp < ttl
  }

  /** Some entry is at least a day old. */
  predicate HasStale<D>(s: Store<D>, now: int) {
    exists k :: k in s && !YoungerThan(s[k], now, DayMs)
  }

  /** The entries kept by the sweep: those younger than a day. */
  function Sweep<D>(s: Store<D>, now: int): (r: Store<D>)
    ensures forall k :: k in r <==> k in s && YoungerThan(s[k], now, DayMs)
    ensures forall k :: k in r ==> r[k] == s[k]
  {
    map k | k in s && YoungerThan(s[k], now, DayMs) :: s[k]
  }

  /** The sweep drops something exactly when some entry is stale. */
  lemma SweepChangesIffStale<D>(s: Store<D>, now: int)
    ensures Sweep(s, now).Keys != s.Keys <==> HasStale(s, now)
  {
    if HasStale(s, now) {
      var k :| k in s && !YoungerThan(s[k], now, DayMs);
      assert k !in Sweep(s, now);
    } else {
      assert Sweep(s, now).Keys == s.Keys;
    }
  }

  /** When nothing is stale, the sweep returns the entries as they were. */
  lemma SweepKeepsFresh<D>(s: Store<D>, now: int)
    requires !HasStale(s, now)
    ensures Sweep(s, now) == s
  {
  }

  /** A second sweep at the same time drops nothing more. */
  lemma SweepIdempotent<D>(s: Store<D>, now: int)
    ensures Sweep(Sweep(s, now), now) == Sweep(s, now)
    ensures !HasStale(Sweep(s, now), now)
  {
  }

  /** The outcome of `getPersistentCache`: the entries the caller sees, and
      the new content of the storage item when it is rewritten. */
  datatype Read<D> = Read(view: Store<D>, rewrite: Option<Store<D>>)

  /** `getPersistentCache`: sweep the stored entries, rewriting the item only
      when something was dropped; a missing or unparsable item reads as empty
      and is left alone. */
  function GetPersistentCache<D>(saved: Saved<D>, now: int): (r: Read<D>)
    ensures saved.Stored? ==> r.view == Sweep(saved.entries, now)
    ensures !saved.Stored? ==> r.view == map[] && r.rewrite.None?
    ensures r.rewrite.Some? <==> saved.Stored? && HasStale(saved.entries, now)
    ensures r.rewrite.Some? ==> r.rewrite.value == r.view
    ensures forall k :: k in r.view ==> YoungerThan(r.view[k], now, DayMs)
  {
    match saved
    case Stored(s) =>
      var kept := Sweep(s, now);
      SweepChangesIffStale(s, now);
      Read(kept, if kept.Keys != s.Keys then Some(kept) else None)
    case _ => Read(map[], None)
  }

  /** `saveToPersistentCache`: the swept entries with `key` set to the new
      data stamped `now`; this is the storage item's new content. */
  function SaveToPersistentCache<D>(saved: Saved<D>, key: string, data: D, now: int): (r: Store<D>)
    ensures key in r && r[key] == Entry(data, now)
    ensures forall k :: k != key ==> (k in r <==> k in GetPersistentCache(saved, now).view)
    ensures forall k :: k != key && k in r ==> r[k] == GetPersistentCache(saved, now).view[k]
  {
    GetPersistentCache(saved, now).view[key := Entry(data, now)]
  }

  /** An entry saved at `now` is served by a lookup at the same time for any
      positive time-to-live, and reading it back keeps it. */
  lemma SaveThenRead<D>(saved: Saved<D>, key: string, data: D, now: int, ttl: int)
    requires ttl > 0
    ensures var s := SaveToPersistentCache(saved, key, data, now);
            && Lookup(GetPersistentCache(Stored(s), now).view, key, now, ttl) == Some(data)
            && GetPersistentCache(Stored(s), now).rewrite.None?
  {
    var s := SaveToPersistentCache(saved, key, data, now);
    assert forall k :: k in s ==> YoungerThan(s[k], now, DayMs);
  }

  /** `cache[key] && now - cache[key].timestamp < ttl ? cache[key].data`:
      the data of a present entry younger than `ttl`. */
  function Lookup<D>(view: Store<D>, key: string, now: int, ttl: int): (r: Option<D>)
    ensures r.Some? <==> key in view && now - view[key].timestamp < ttl
    ensures r.Some? ==> r.value == view[key].data
  {
    if key in view && YoungerThan(view[key], now, ttl) then Some(view[key].data) else None
  }

  /** `cache[key]?.data`: the entry's data whatever its age (the view has
      already lost day-old entries). */
  function Stale<D>(view: Store<D>, key: string): (r: Option<D>)
    ensures r.Some? <==> key in view
    ensures r.Some? ==> r.value == view[key].data
  {
    if key in view then Some(view[key].data) else None
  }

  /** A lookup hit is always also a stale hit, with the same data. */
  lemma LookupImpliesStale<D>(view: Store<D>, key: string, now: int, ttl: int)
    ensures Lookup(view, key, now, ttl).Some? ==> Stale(view, key) == Lookup(view, key, now, ttl)
  {
  }

  /** A longer time-to-live serves everything a shorter one does. */
  lemma LookupMonotone<D>(view: Store<D>, key: string, now: int, ttl: int, ttl': int)
    requires ttl <= ttl'
    ensures Lookup(view, key, now, ttl).Some? ==> Lookup(view, key, now, ttl') == Lookup(view, key, now, ttl)
  {
  }

  // ---- In-flight requests ----

  /** `pendingRequests`: key -> the promise (by id) of the running request. */
  type Pending = map<string, nat>

  /** What `deduplicate` does with a call: share the running promise, or
      start `fn` as promise `newId` and record it. */
  datatype Join = Join(promise: nat, started: bool, pending: Pending)

  /** `deduplicate(key, fn)`: a pending key returns the same promise without
      running `fn`; otherwise `fn` starts as the new promise `newId`. */
  function Deduplicate(pending: Pending, key: string, newId: nat): (r: Join)
    ensures key in pending ==> r == Join(pending[key], false, pending)
    ensures key !in pending ==> r.started && r.promise == newId && r.pending == pending[key := newId]
    ensures key in r.pending && r.pending[key] == r.promise
  {
    if key in pending then Join(pending[key], false, pending)
    else Join(newId, true, pending[key := newId])
  }

  /** The `finally` of the promise: forget the key, whatever the outcome. */
  function Settle(pending: Pending, key: string): (r: Pending)
    ensures key !in r
    ensures forall k :: k != key ==> (k in r <==> k in pending)
    ensures forall k :: k in r ==> r[k] == pending[k]
  {
    pending - {key}
  }

  /** Two calls with the same key while the first is in flight share one
      promise and start `fn` once. */
  lemma SecondCallJoins(pending: Pending, key: string, id1: nat, id2: nat)
    ensures var first := Deduplicate(pending, key, id1);
            var second := Deduplicate(first.pending, key, id2);
            && second.promise == first.promise
            && !second.started
            && second.pending == first.pending
  {
  }

  /** Once the request settles, the next call with that key starts afresh. */
  lemma SettledKeyStartsAgain(pending: Pending, key: string, id1: nat, id2: nat)
    ensures var first := Deduplicate(pending, key, id1);
            var next := Deduplicate(Settle(first.pending, key), key, id2);
            next.started && next.promise == id2
  {
  }
}

=== FILE: dashboard.dfy ===
/** DashboardView.tsx: the portfolio valuation shown on the dashboard (a
    projection of the account and the global price map, never stored) and
    the personal task list. */
module Dashboard {
  import opened Wrappers
  import opened Portfolio
  import opened App
  import Seqs

  /** The global price map, as forwarded by the market feed. */
  type Quotes = map<string, Option<real>>

  /** The position has a usable live quote: present, defined and non-zero. */
  predicate Quoted(m: Quotes, p: Position) {
    p.symbol in m && m[p.symbol].Some? && m[p.symbol].value != 0.0
  }

  /** `marketPrices[pos.symbol] || pos.entry`. */
  function MarkPrice(m: Quotes, p: Position): real {
    if Quoted(m, p) then m[p.symbol].value else p.entry
  }

  /** `positions.reduce((sum, pos) => sum + MarkPrice * pos.qty, 0)`,
      folding from the left as `reduce` does. */
  function Invested(ps: seq<Position>, m: Quotes): real {
    if |ps| == 0 then 0.0
    else Invested(ps[..|ps| - 1], m) + MarkPrice(m, ps[|ps| - 1]) * ps[|ps| - 1].qty as real
  }

  /** The value of `qty` units at `price`. */
  function Worth(price: real, qty: int): real {
    price * qty as real
  }

  /** What a position cost: entry × qty. */
  function CostOf(p: Position): real {
    Worth(p.entry, p.qty)
  }

  /** `positions.reduce((sum, pos) => sum + pos.entry * pos.qty, 0)`. */
  function Cost(ps: seq<Position>): real {
    if |ps| == 0 then 0.0
    else Cost(ps[..|ps| - 1]) + CostOf(ps[|ps| - 1])
  }

  datatype Valuation = Valuation(invested: real, cost: real, profit: real, total: real, ratio: real)

  /** The dashboard's five figures: invested value at live quotes, cost
      basis, unrealised P/L, total portfolio value, and the invested share of
      the total in percent (0 when the total is not positive). */
  function Value(cash: real, ps: seq<Position>, m: Quotes): (v: Valuation)
    ensures v.invested == Invested(ps, m) && v.cost == Cost(ps)
    ensures v.profit == v.invested - v.cost
    ensures v.total == cash + v.invested
    ensures |ps| == 0 ==> v.total == cash && v.profit == 0.0 && v.ratio == 0.0
    ensures v.total > 0.0 ==> v.ratio * v.total == 100.0 * v.invested
    ensures v.total <= 0.0 ==> v.ratio == 0.0
    ensures cash >= 0.0 && v.invested >= 0.0 ==> 0.0 <= v.ratio <= 100.0
  {
    var invested := Invested(ps, m);
    var cost := Cost(ps);
    var total := cash + invested;
    var ratio := if total > 0.0 then (invested / total) * 100.0 else 0.0;
    RatioWithin(cash, invested);
    Valuation(invested, cost, invested - cost, total, ratio)
  }

  /** A non-negative share of a positive total is at most the whole. */
  lemma RatioWithin(cash: real, invested: real)
    ensures cash >= 0.0 && invested >= 0.0 && cash + invested > 0.0
            ==> 0.0 <= (invested / (cash + invested)) * 100.0 <= 100.0
  {
    if cash >= 0.0 && invested >= 0.0 && cash + invested > 0.0 {
      var q := invested / (cash + invested);
      assert q * (cash + invested) == invested;
      assert q <= 1.0;
    }
  }

  /** With no usable quote for any position, every position is valued at its
      entry, so the invested value equals the cost basis and P/L is zero. */
  lemma {:induction false} UnquotedInvestedIsCost(ps: seq<Position>, m: Quotes)
    requires forall i :: 0 <= i < |ps| ==> !Quoted(m, ps[i])
    ensures Invested(ps, m) == Cost(ps)
    ensures Value(0.0, ps, m).profit == 0.0
    decreases |ps|
  {
    if |ps| > 0 {
      UnquotedInvestedIsCost(ps[..|ps| - 1], m);
    }
  }

  /** Non-negative entries, quotes and quantities give a non-negative
      invested value, so the investment ratio lies in [0, 100] whenever the
      cash is not negative. */
  lemma {:induction false} InvestedNonNegative(ps: seq<Position>, m: Quotes)
    requires forall i :: 0 <= i < |ps| ==> ps[i].entry >= 0.0 && ps[i].qty >= 0
    requires forall k :: k in m && m[k].Some? ==> m[k].value >= 0.0
    ensures Invested(ps, m) >= 0.0
    decreases |ps|
  {
    if |ps| > 0 {
      InvestedNonNegative(ps[..|ps| - 1], m);
      var p := ps[|ps| - 1];
      assert MarkPrice(m, p) >= 0.0;
      assert MarkPrice(m, p) * p.qty as real >= 0.0;
    }
  }

  /** The cost basis of a concatenation is the sum of the cost bases. */
  lemma {:induction false} CostAppend(ps: seq<Position>, qs: seq<Position>)
    ensures Cost(ps + qs) == Cost(ps) + Cost(qs)
    decreases |qs|
  {
    if |qs| == 0 {
      assert ps + qs == ps;
    } else {
      var qs0 := qs[..|qs| - 1];
      var all := ps + qs;
      assert all[..|all| - 1] == ps + qs0;
      assert all[|all| - 1] == qs[|qs| - 1];
      CostAppend(ps, qs0);
    }
  }

  /** The cost basis as the sum of the three parts around index `k`. */
  lemma CostAround(ps: seq<Position>, k: nat)
    requires k < |ps|
    ensures Cost(ps) == Cost(ps[..k]) + CostOf(ps[k]) + Cost(ps[k + 1..])
  {
    var left := ps[..k] + [ps[k]];
    assert ps == left + ps[k + 1..];
    CostAppend(left, ps[k + 1..]);
    assert left[..|left| - 1] == ps[..k];
  }

  /** Replacing one position changes the cost basis by the difference of
      the two positions' costs. */
  lemma CostReplaceAt(ps: seq<Position>, qs: seq<Position>, k: nat)
    requires |qs| == |ps| && k < |ps|
    requires forall j :: 0 <= j < |ps| && j != k ==> qs[j] == ps[j]
    ensures Cost(qs) == Cost(ps) - CostOf(ps[k]) + CostOf(qs[k])
  {
    assert qs[..k] == ps[..k];
    assert qs[k + 1..] == ps[k + 1..];
    CostAround(ps, k);
    CostAround(qs, k);
  }

  /** Dropping index `k` lowers the cost basis by that position's cost. */
  lemma CostDropAt(ps: seq<Position>, k: nat)
    requires k < |ps|
    ensures Cost(ps[..k] + ps[k + 1..]) == Cost(ps) - CostOf(ps[k])
  {
    CostAround(ps, k);
    CostAppend(ps[..k], ps[k + 1..]);
  }

  /** Averaging a fill into a position adds the fill's value to its cost. */
  lemma AverageCost(e: Position, e': Position, price: real, qty: nat)
    requires e.qty + qty != 0
    requires e' == e.(qty := e.qty + qty, entry := AverageEntry(e.entry, e.qty, price, qty))
    ensures CostOf(e') == CostOf(e) + Worth(price, qty)
  {
    var total := (e.qty + qty) as real;
    var paid := e.entry * e.qty as real + price * qty as real;
    assert (paid / total) * total == paid;
  }

  /** An order's value is the worth of its quantity at its price. */
  lemma OrderValueIsWorth(o: Order)
    ensures OrderValue(o) == Worth(o.price, o.qty)
  {
  }

  /** Selling `n` of a position at its entry lowers its cost by `entry × n`. */
  lemma PartialSaleCost(e: Position, e': Position, n: int)
    requires e' == e.(qty := e.qty - n)
    ensures CostOf(e') == CostOf(e) - Worth(e.entry, n)
  {
  }

  /** Buying into the position held at `k` adds the fill's worth to the
      cost basis. */
  lemma BuyHeldCost(ps: seq<Position>, o: Order, k: nat)
    requires UniqueSymbols(ps) && k < |ps| && ps[k].symbol == o.symbol && ps[k].qty + o.qty != 0
    ensures Cost(AverageInto(ps, k, o)) == Cost(ps) + Worth(o.price, o.qty)
  {
    var e := ps[k];
    var r := AverageInto(ps, k, o);
    forall j | 0 <= j < |ps| && j != k ensures r[j] == ps[j] {
      assert ps[j].symbol != o.symbol;
    }
    CostReplaceAt(ps, r, k);
    AverageCost(e, r[k], o.price, o.qty);
  }

  /** Appending a new position adds its cost to the cost basis. */
  lemma AppendCost(ps: seq<Position>, q: Position)
    ensures Cost(ps + [q]) == Cost(ps) + CostOf(q)
  {
    assert (ps + [q])[..|ps|] == ps;
  }

  /** The Buy update adds exactly the order value to the cost basis. */
  lemma BuyUpsertCost(ps: seq<Position>, o: Order, posId: string)
    requires o.qty > 0 && PositiveHoldings(ps) && UniqueSymbols(ps)
    ensures Cost(BuyUpsert(ps, o, posId)) == Cost(ps) + OrderValue(o)
  {
    OrderValueIsWorth(o);
    match FindIndex(ps, o.symbol) {
      case Some(k) => BuyHeldUpsertCost(ps, o, posId, k);
      case None =>
        var q := Position(posId, o.symbol, o.price, o.qty, Buy);
        assert BuyUpsert(ps, o, posId) == ps + [q];
        AppendCost(ps, q);
    }
  }

  lemma BuyHeldUpsertCost(ps: seq<Position>, o: Order, posId: string, k: nat)
    requires o.qty > 0 && PositiveHoldings(ps) && UniqueSymbols(ps)
    requires FindIndex(ps, o.symbol) == Some(k)
    ensures Cost(BuyUpsert(ps, o, posId)) == Cost(ps) + Worth(o.price, o.qty)
  {
    BuyUpsertHeld(ps, o, posId, k);
    BuyHeldCost(ps, o, k);
  }

  lemma BuyUpsertHeld(ps: seq<Position>, o: Order, posId: string, k: nat)
    requires o.qty > 0 && PositiveHoldings(ps)
    requires FindIndex(ps, o.symbol) == Some(k)
    ensures BuyUpsert(ps, o, posId) == AverageInto(ps, k, o)
  {
  }

  /** Removing a sold-out position lowers the cost basis by its full cost. */
  lemma SellAllCost(ps: seq<Position>, o: Order, k: nat)
    requires UniqueSymbols(ps)
    requires k < |ps| && ps[k].symbol == o.symbol && ps[k].qty == o.qty
    ensures Cost(Without(ps, o.symbol)) == Cost(ps) - Worth(ps[k].entry, o.qty)
  {
    WithoutUnique(ps, o.symbol, k);
    CostDropAt(ps, k);
  }

  /** Lowering a held quantity lowers the cost basis by the sold part. */
  lemma SellPartCost(ps: seq<Position>, o: Order, k: nat)
    requires UniqueSymbols(ps)
    requires k < |ps| && ps[k].symbol == o.symbol
    ensures Cost(Decrement(ps, o.symbol, o.qty)) == Cost(ps) - Worth(ps[k].entry, o.qty)
  {
    var r := Decrement(ps, o.symbol, o.qty);
    forall j | 0 <= j < |ps| && j != k ensures r[j] == ps[j] {
      assert ps[j].symbol != o.symbol;
    }
    CostReplaceAt(ps, r, k);
    assert Cost(r) == Cost(ps) - CostOf(ps[k]) + CostOf(r[k]);
    PartialSaleCost(ps[k], r[k], o.qty);
  }

  /** The Sell update lowers the cost basis by the sold quantity at the
      position's entry price. */
  lemma SellReduceCost(ps: seq<Position>, o: Order, k: nat)
    requires UniqueSymbols(ps)
    requires k < |ps| && ps[k].symbol == o.symbol && ps[k].qty >= o.qty
    ensures Cost(SellReduce(ps, ps[k].qty, o)) == Cost(ps) - Worth(ps[k].entry, o.qty)
  {
    if ps[k].qty == o.qty {
      SellAllCost(ps, o, k);
    } else {
      SellPartCost(ps, o, k);
    }
  }

  /** A filled Buy raises the cost basis by exactly the order value: the
      average-entry rule keeps entry × qty equal to what was paid. */
  lemma BuyRaisesCostBasis(a: Account, o: Order, txId: string, date: string, posId: string)
    requires o.qty > 0 && o.side == Buy && PositiveHoldings(a.positions) && UniqueSymbols(a.positions)
    requires PlaceOrder(a, o, txId, date, posId).Ok?
    ensures Cost(PlaceOrder(a, o, txId, date, posId).value.positions) == Cost(a.positions) + OrderValue(o)
  {
    assert PlaceOrder(a, o, txId, date, posId).value.positions == BuyUpsert(a.positions, o, posId);
    BuyUpsertCost(a.positions, o, posId);
  }

  /** A filled Sell lowers the cost basis by the sold quantity at the
      position's entry price (realised P/L is not tracked separately). */
  lemma SellLowersCostBasis(a: Account, o: Order, txId: string, date: string, posId: string, k: nat)
    requires o.qty > 0 && o.side == Sell && PositiveHoldings(a.positions) && UniqueSymbols(a.positions)
    requires k < |a.positions| && a.positions[k].symbol == o.symbol && a.positions[k].qty >= o.qty
    ensures PlaceOrder(a, o, txId, date, posId).Ok?
    ensures Cost(PlaceOrder(a, o, txId, date, posId).value.positions)
            == Cost(a.positions) - Worth(a.positions[k].entry, o.qty)
  {
    assert FindIndex(a.positions, o.symbol) == Some(k);
    assert PlaceOrder(a, o, txId, date, posId).value.positions
           == SellReduce(a.positions, a.positions[k].qty, o);
    SellReduceCost(a.positions, o, k);
  }

  // ---- Task list ----

  datatype Task = Task(id: string, title: string, description: string, completed: bool, createdAt: int)

  /** `addTask`: a new open task in front of the others; its id and the clock
      are parameters. */
  function AddTask(ts: seq<Task>, id: string, title: string, description: string, now: int): (r: seq<Task>)
    ensures |r| == |ts| + 1 && r[1..] == ts
    ensures r[0].id == id && r[0].title == title && r[0].description == description
    ensures !r[0].completed && r[0].createdAt == now
  {
    [Task(id, title, description, false, now)] + ts
  }

  /** `toggleTask`: flip `completed` of the tasks with this id. */
  function ToggleTask(ts: seq<Task>, id: string): (r: seq<Task>)
    ensures |r| == |ts|
    ensures forall i :: 0 <= i < |ts| ==> r[i].id == ts[i].id && r[i].title == ts[i].title
                                          && r[i].description == ts[i].description
                                          && r[i].createdAt == ts[i].createdAt
    ensures forall i :: 0 <= i < |ts| ==> (r[i].completed <==> (ts[i].completed != (ts[i].id == id)))
  {
    if |ts| == 0 then []
    else [if ts[0].id == id then ts[0].(completed := !ts[0].completed) else ts[0]] + ToggleTask(ts[1..], id)
  }

  /** `deleteTask`: drop the tasks with this id, keeping the order of the rest. */
  function DeleteTask(ts: seq<Task>, id: string): (r: seq<Task>)
    ensures |r| <= |ts|
    ensures forall t :: t in r <==> t in ts && t.id != id
  {
    if |ts| == 0 then []
    else if ts[0].id == id then DeleteTask(ts[1..], id)
    else [ts[0]] + DeleteTask(ts[1..], id)
  }

  /** Toggling the same id twice restores the list. */
  lemma ToggleTwice(ts: seq<Task>, id: string)
    ensures ToggleTask(ToggleTask(ts, id), id) == ts
  {
    var r := ToggleTask(ToggleTask(ts, id), id);
    assert forall i :: 0 <= i < |ts| ==> r[i] == ts[i];
  }

  /** Deleting a task just added (under a fresh id) gives back the old list. */
  lemma {:induction false} DeleteUndoesAdd(ts: seq<Task>, id: string, title: string, description: string, now: int)
    requires forall t :: t in ts ==> t.id != id
    ensures DeleteTask(AddTask(ts, id, title, description, now), id) == ts
  {
    assert AddTask(ts, id, title, description, now)[1..] == ts;
    DeleteKeepsOthers(ts, id);
  }

  /** Deleting an id no task has changes nothing. */
  lemma {:induction false} DeleteKeepsOthers(ts: seq<Task>, id: string)
    requires forall t :: t in ts ==> t.id != id
    ensures DeleteTask(ts, id) == ts
    decreases |ts|
  {
    if |ts| > 0 {
      assert ts[0] in ts;
      DeleteKeepsOthers(ts[1..], id);
      assert [ts[0]] + ts[1..] == ts;
    }
  }

  /** Deleting the one task with the id removes exactly its index; the
      other tasks keep their order. */
  lemma {:induction false} DeleteUnique(ts: seq<Task>, id: string, k: nat)
    requires k < |ts| && ts[k].id == id
    requires forall i :: 0 <= i < |ts| && i != k ==> ts[i].id != id
    ensures DeleteTask(ts, id) == ts[..k] + ts[k + 1..]
    decreases |ts|
  {
    var tail := ts[1..];
    if k == 0 {
      forall t | t in tail ensures t.id != id {
        var i :| 0 <= i < |tail| && tail[i] == t;
        assert tail[i] == ts[i + 1];
      }
      DeleteKeepsOthers(tail, id);
    } else {
      forall i | 0 <= i < |tail| && i != k - 1 ensures tail[i].id != id {
        assert tail[i] == ts[i + 1];
      }
      DeleteUnique(tail, id, k - 1);
      Seqs.DropAfterHead(ts, k);
      assert ts[0].id != id;
    }
  }

  /** The two default tasks for a user without saved tasks; the first (eKYC)
      is already done exactly when the user is verified. */
  function DefaultTasks(status: KycStatus, now: int): (r: seq<Task>)
    ensures |r| == 2 && r[0].id == "1" && r[1].id == "2"
    ensures r[0].completed <==> status == KycVerified
    ensures !r[1].completed
    ensures r[0].createdAt == now && r[1].createdAt == now
  {
    [Task("1", "Hoàn thành hồ sơ eKYC", "Tải lên CMND/CCCD và quét khuôn mặt.", status == KycVerified, now),
     Task("2", "Phân tích VN30", "Đánh giá tỷ trọng các mã lớn trong rổ VN30.", false, now)]
  }

  /** The task list at mount: the stored list when there is one, else the defaults. */
  function LoadTasks(saved: Option<string>, parse: string -> seq<Task>, status: KycStatus, now: int)
    : (r: seq<Task>)
    ensures saved.None? || saved == Some("") ==> r == DefaultTasks(status, now)
    ensures saved.Some? && saved.value != "" ==> r == parse(saved.value)
  {
    Restore(saved, parse, DefaultTasks(status, now))
  }
}

=== FILE: guard.dfy ===
/** ProtectedRoute.tsx: whether a protected view is shown, and where the
    guard's effect sends the user when it is not. */
module Guard {
  import opened Wrappers
  import opened App

  /** The guard's verdict: the view its effect navigates to, if any, and
      whether the children are rendered. */
  datatype Decision = Decision(navigate: Option<View>, render: bool)

  /** The user may see a view that requires `required` (if anything). */
  predicate Authorized(user: Option<User>, required: Option<Role>) {
    user.Some? && (required.None? || user.value.role == required.value)
  }

  /** `ProtectedRoute`: no user goes to 'auth'; a role mismatch goes to the
      fallback view; otherwise the children render and nothing navigates. */
  function Protect(user: Option<User>, required: Option<Role>, fallback: View): (d: Decision)
    ensures d.render <==> Authorized(user, required)
    ensures d.render ==> d.navigate.None?
    ensures user.None? ==> d.navigate == Some(AuthPage)
    ensures user.Some? && !Authorized(user, required) ==> d.navigate == Some(fallback)
  {
    if user.None? then Decision(Some(AuthPage), false)
    else if required.Some? && user.value.role != required.value then Decision(Some(fallback), false)
    else Decision(None, true)
  }

  /** The guard App puts around each view: dashboard and KYC need a user
      (falling back to marketing and dashboard), admin needs the admin role
      (falling back to dashboard); marketing and auth are open. */
  function Route(view: View, user: Option<User>): (d: Decision)
    ensures view == Marketing || view == AuthPage ==> d == Decision(None, true)
  {
    match view
    case DashboardPage => Protect(user, None, Marketing)
    case KycPage => Protect(user, None, DashboardPage)
    case AdminPage => Protect(user, Some(AdminRole), DashboardPage)
    case _ => Decision(None, true)
  }

  /** With no role required, any signed-in user is shown the view. */
  lemma AnyUserPassesOpenGuard(u: User, fallback: View)
    ensures Protect(Some(u), None, fallback) == Decision(None, true)
  {
  }

  /** Redirects settle after one step: wherever App's guards send a user,
      the view reached renders without navigating again. */
  lemma RedirectsSettle(view: View, user: Option<User>)
    ensures var d := Route(view, user);
            d.navigate.Some? ==> Route(d.navigate.value, user) == Decision(None, true)
  {
  }

  /** A signed-in user without the admin role who opens the admin view is
      sent to the dashboard, and an admin sees it. */
  lemma AdminViewByRole(u: User)
    ensures u.role == UserRole ==> Route(AdminPage, Some(u)) == Decision(Some(DashboardPage), false)
    ensures u.role == AdminRole ==> Route(AdminPage, Some(u)) == Decision(None, true)
  {
  }
}

=== FILE: keys.dfy ===
/** The cache keys of services/geminiService.ts. Every response of every
    operation is stored in one cache object, so the keys decide which calls
    share an entry and which never collide. The live-price key lists the
    symbols in the order of JavaScript's default `sort()`: string order by
    character code. */
module Keys {
  import Language

  // ---- String order ----

  /** `a` sorts no later than `b`: the default `Array.prototype.sort` order,
      character by character, a proper prefix first. */
  predicate Below(a: string, b: string)
    decreases |a|
  {
    |a| == 0 || (|b| > 0 && (a[0] < b[0] || (a[0] == b[0] && Below(a[1..], b[1..]))))
  }

  lemma {:induction false} BelowTotal(a: string, b: string)
    ensures Below(a, b) || Below(b, a)
    decreases |a|
  {
    if |a| > 0 && |b| > 0 && a[0] == b[0] {
      BelowTotal(a[1..], b[1..]);
    }
  }

  lemma {:induction false} BelowAntisymmetric(a: string, b: string)
    requires Below(a, b) && Below(b, a)
    ensures a == b
    decreases |a|
  {
    if |a| > 0 {
      BelowAntisymmetric(a[1..], b[1..]);
      assert a == [a[0]] + a[1..] && b == [b[0]] + b[1..];
    }
  }

  lemma {:induction false} BelowTransitive(a: string, b: string, c: string)
    requires Below(a, b) && Below(b, c)
    ensures Below(a, c)
    decreases |a|
  {
    if |a| > 0 && a[0] == b[0] && b[0] == c[0] {
      BelowTransitive(a[1..], b[1..], c[1..]);
    }
  }

  // ---- Sorting ----

  ghost predicate Sorted(s: seq<string>) {
    forall i, j :: 0 <= i < j < |s| ==> Below(s[i], s[j])
  }

  /** Inserts `x` before the first element it sorts no later than. */
  function Insert(x: string, s: seq<string>): (r: seq<string>)
    ensures multiset(r) == multiset(s) + multiset{x}
    ensures Sorted(s) ==> Sorted(r)
    decreases |s|
  {
    if |s| == 0 then [x]
    else if Below(x, s[0]) then
      SortedCons(x, s);
      [x] + s
    else
      var rest := Insert(x, s[1..]);
      assert s == [s[0]] + s[1..];
      InsertBehindHead(x, s, rest);
      [s[0]] + rest
  }

  /** When `x` goes after the head, the head still comes first. */
  lemma InsertBehindHead(x: string, s: seq<string>, rest: seq<string>)
    requires |s| > 0 && !Below(x, s[0])
    requires multiset(rest) == multiset(s[1..]) + multiset{x}
    requires Sorted(s[1..]) ==> Sorted(rest)
    ensures Sorted(s) ==> Sorted([s[0]] + rest)
  {
    if Sorted(s) {
      assert s == [s[0]] + s[1..];
      BelowTotal(x, s[0]);
      forall e | e in multiset(rest) ensures Below(s[0], e) {
        if e != x {
          assert e in multiset(s[1..]);
          assert e in s[1..];
        }
      }
      SortedCons(s[0], rest);
    }
  }

  /** Putting a lower bound in front of a sorted sequence keeps it sorted. */
  lemma SortedCons(x: string, s: seq<string>)
    requires |s| > 0 ==> Below(x, s[0]) || forall e | e in multiset(s) :: Below(x, e)
    ensures Sorted(s) ==> Sorted([x] + s)
  {
    if Sorted(s) && |s| > 0 {
      var r := [x] + s;
      forall i, j | 0 <= i < j < |r| ensures Below(r[i], r[j]) {
        if i == 0 {
          assert r[j] == s[j - 1];
          if Below(x, s[0]) {
            if j > 1 {
              BelowTransitive(x, s[0], s[j - 1]);
            }
          } else {
            assert s[j - 1] in multiset(s);
          }
        }
      }
    }
  }

  /** `symbols.sort()`: insertion sort in string order; the result is sorted
      and holds the same symbols. */
  function Sort(s: seq<string>): (r: seq<string>)
    ensures Sorted(r)
    ensures multiset(r) == multiset(s)
    decreases |s|
  {
    if |s| == 0 then []
    else
      assert s == [s[0]] + s[1..];
      Insert(s[0], Sort(s[1..]))
  }

  /** Two sorted sequences with the same elements are equal. */
  lemma {:induction false} SortedUnique(a: seq<string>, b: seq<string>)
    requires Sorted(a) && Sorted(b) && multiset(a) == multiset(b)
    ensures a == b
    decreases |a|
  {
    assert |a| == |multiset(a)| == |b|;
    if |a| > 0 {
      SameHead(a, b);
      SameTail(a, b);
      SortedTail(a);
      SortedTail(b);
      SortedUnique(a[1..], b[1..]);
      assert a == [a[0]] + a[1..] && b == [b[0]] + b[1..];
    }
  }

  /** Sorted sequences with the same elements start with the same one. */
  lemma SameHead(a: seq<string>, b: seq<string>)
    requires Sorted(a) && Sorted(b) && multiset(a) == multiset(b) && |a| > 0 && |b| > 0
    ensures a[0] == b[0]
  {
    assert a[0] in multiset(b);
    var k :| 0 <= k < |b| && b[k] == a[0];
    assert b[0] in multiset(a);
    var m :| 0 <= m < |a| && a[m] == b[0];
    if k > 0 && m > 0 {
      BelowAntisymmetric(a[0], b[0]);
    }
  }

  /** Taking the same head off both leaves the same elements. */
  lemma SameTail(a: seq<string>, b: seq<string>)
    requires multiset(a) == multiset(b) && |a| > 0 && |b| > 0 && a[0] == b[0]
    ensures multiset(a[1..]) == multiset(b[1..])
  {
    assert a == [a[0]] + a[1..] && b == [b[0]] + b[1..];
    assert multiset(a) == multiset{a[0]} + multiset(a[1..]);
    assert multiset(b) == multiset{b[0]} + multiset(b[1..]);
    forall e ensures multiset(a[1..])[e] == multiset(b[1..])[e] {
      assert multiset(a)[e] == multiset(b)[e];
    }
  }

  lemma SortedTail(a: seq<string>)
    requires Sorted(a) && |a| > 0
    ensures Sorted(a[1..])
  {
    var t := a[1..];
    forall i, j | 0 <= i < j < |t| ensures Below(t[i], t[j]) {
      assert t[i] == a[i + 1] && t[j] == a[j + 1];
    }
  }

  // ---- Keys ----

  /** `array.join(sep)`. */
  function JoinWith(parts: seq<string>, sep: string): string
    decreases |parts|
  {
    if |parts| == 0 then ""
    else if |parts| == 1 then parts[0]
    else parts[0] + sep + JoinWith(parts[1..], sep)
  }

  function SummaryKey(title: string, lang: Language.Lang): string {
    "summary_" + title + "_" + Language.Code(lang)
  }

  /** `getQuickProductSummary` asks for the summary of "title: thesis". */
  function QuickSummaryKey(title: string, thesis: string, lang: Language.Lang): string {
    SummaryKey(title + ": " + thesis, lang)
  }

  function PricesKey(symbols: seq<string>): string {
    "live_prices_v4_" + JoinWith(Sort(symbols), "_")
  }

  function MarketKey(lang: Language.Lang): string {
    "market_update_v2_" + Language.Code(lang)
  }

  /** The analysis key leaves out the price the caller passes. */
  function AnalysisKey(symbol: string, lang: Language.Lang): string {
    "analysis_v2_" + symbol + "_" + Language.Code(lang)
  }

  function StrategyKey(title: string, lang: Language.Lang): string {
    "prod_strat_" + title + "_" + Language.Code(lang)
  }

  /** The same symbols in any order give the same live-price key, so the
      calls share one cache entry and one request in flight. */
  lemma SameSymbolsSameKey(a: seq<string>, b: seq<string>)
    requires multiset(a) == multiset(b)
    ensures PricesKey(a) == PricesKey(b)
  {
    SortedUnique(Sort(a), Sort(b));
  }

  /** `prefix + x + "_" + code` determines `x` and `code` when codes have one length. */
  lemma SuffixedInjective(prefix: string, x: string, y: string, c: string, d: string)
    requires |c| == |d|
    ensures prefix + x + "_" + c == prefix + y + "_" + d <==> x == y && c == d
  {
    var l, r := prefix + x + "_" + c, prefix + y + "_" + d;
    if l == r {
      assert |x| == |y|;
      assert x == l[|prefix|..|prefix| + |x|] == r[|prefix|..|prefix| + |y|] == y;
      assert c == l[|l| - |c|..] == r[|r| - |d|..] == d;
    }
  }

  lemma CodeLength(lang: Language.Lang)
    ensures |Language.Code(lang)| == 2
  {
  }

  /** Summary keys are equal exactly for the same title and language. */
  lemma SummaryKeyInjective(a: string, b: string, l: Language.Lang, m: Language.Lang)
    ensures SummaryKey(a, l) == SummaryKey(b, m) <==> a == b && l == m
  {
    CodeLength(l);
    CodeLength(m);
    SuffixedInjective("summary_", a, b, Language.Code(l), Language.Code(m));
  }

  /** A quick product summary is served from, and stored in, the entry of the
      insight summary whose title is "title: thesis", and no other. */
  lemma QuickSummarySharesInsightEntry(title: string, thesis: string, other: string, lang: Language.Lang)
    ensures QuickSummaryKey(title, thesis, lang) == SummaryKey(other, lang) <==> other == title + ": " + thesis
  {
    SummaryKeyInjective(title + ": " + thesis, other, lang, lang);
  }

  /** Analyses of different symbols or languages never share an entry. */
  lemma AnalysisKeyInjective(a: string, b: string, l: Language.Lang, m: Language.Lang)
    ensures AnalysisKey(a, l) == AnalysisKey(b, m) <==> a == b && l == m
  {
    CodeLength(l);
    CodeLength(m);
    SuffixedInjective("analysis_v2_", a, b, Language.Code(l), Language.Code(m));
  }

  /** The five operations' keys start with different letters, so no entry of
      one is ever read by another. */
  lemma KeysOfDifferentOperationsDiffer(title: string, symbols: seq<string>, symbol: string, product: string,
                                        l1: Language.Lang, l2: Language.Lang, l3: Language.Lang, l4: Language.Lang)
    ensures var keys := [SummaryKey(title, l1), PricesKey(symbols), MarketKey(l2),
                         AnalysisKey(symbol, l3), StrategyKey(product, l4)];
            forall i, j :: 0 <= i < j < 5 ==> keys[i] != keys[j]
  {
    var keys := [SummaryKey(title, l1), PricesKey(symbols), MarketKey(l2),
                 AnalysisKey(symbol, l3), StrategyKey(product, l4)];
    assert keys[0][0] == 's' && keys[1][0] == 'l' && keys[2][0] == 'm' && keys[3][0] == 'a' && keys[4][0] == 'p';
  }

  /** Sorting fixes the order, e.g. ["VNM", "HPG"] and ["HPG", "VNM"] both
      give "live_prices_v4_HPG_VNM". */
  lemma PricesKeyExample()
    ensures PricesKey(["VNM", "HPG"]) == "live_prices_v4_HPG_VNM"
  {
    assert "VNM"[0] > "HPG"[0];
    SortTwo("VNM", "HPG");
    JoinTwo("HPG", "VNM", "_");
  }

  lemma JoinTwo(a: string, b: string, sep: string)
    ensures JoinWith([a, b], sep) == a + sep + b
  {
    assert [a, b][1..] == [b];
  }

  /** Two symbols, the second sorting strictly first. */
  lemma SortTwo(a: string, b: string)
    requires !Below(a, b)
    ensures Sort([a, b]) == [b, a]
  {
    assert [a, b][1..] == [b];
    assert Sort([b]) == [b];
    assert Insert(a, [b]) == [b] + Insert(a, []);
  }
}

=== FILE: kyc.dfy ===
/** components/KYCView.tsx: the three-step identity wizard. The camera
    stream, the two-second timer and the callbacks are effects named in the
    result of each transition. */
module Kyc {

  /** The wizard's state: the step shown, whether the final submission is
      running, and whether the camera is on. */
  datatype Wizard = Wizard(step: int, loading: bool, camera: bool)

  /** What a transition asks of the outside world. */
  datatype Effect = NoEffect | ScheduleComplete | Cancel

  /** A transition's new state, its effect, and whether it stopped the camera. */
  datatype Transition = Transition(next: Wizard, effect: Effect, stoppedCamera: bool)

  const Start: Wizard := Wizard(1, false, false)

  predicate Valid(w: Wizard) {
    1 <= w.step <= 3
  }

  /** `nextStep`: stop an active camera; then go one step on, or on the last
      step start loading and schedule `onComplete`. */
  function NextStep(w: Wizard): (t: Transition)
    ensures !t.next.camera && t.stoppedCamera == w.camera
    ensures w.step < 3 ==> t.next == Wizard(w.step + 1, w.loading, false) && t.effect == NoEffect
    ensures w.step >= 3 ==> t.next == Wizard(w.step, true, false) && t.effect == ScheduleComplete
  {
    var w' := w.(camera := false);
    if w.step < 3 then Transition(w'.(step := w.step + 1), NoEffect, w.camera)
    else Transition(w'.(loading := true), ScheduleComplete, w.camera)
  }

  /** The primary button: disabled while loading, otherwise `nextStep`. */
  function Primary(w: Wizard): (t: Transition)
    ensures w.loading ==> t == Transition(w, NoEffect, false)
    ensures !w.loading ==> t == NextStep(w)
  {
    if w.loading then Transition(w, NoEffect, false) else NextStep(w)
  }

  /** The secondary button: 'Discard' on step 1 calls `onCancel`, 'Back'
      goes one step back. It is not disabled while loading. */
  function Back(w: Wizard): (t: Transition)
    ensures w.step == 1 ==> t == Transition(w, Cancel, false)
    ensures w.step != 1 ==> t == Transition(w.(step := w.step - 1), NoEffect, false)
  {
    if w.step == 1 then Transition(w, Cancel, false)
    else Transition(w.(step := w.step - 1), NoEffect, false)
  }

  datatype Press = PrimaryButton | BackButton

  function Apply(w: Wizard, p: Press): Transition {
    match p
    case PrimaryButton => Primary(w)
    case BackButton => Back(w)
  }

  /** Every transition keeps the step within 1..3. */
  lemma TransitionsKeepStepInRange(w: Wizard, p: Press)
    requires Valid(w)
    ensures Valid(Apply(w, p).next)
  {
  }

  /** The result of pressing buttons in turn: the final state and how many
      times `onComplete` was scheduled. */
  datatype Session = Session(last: Wizard, completions: nat)

  function Replay(w: Wizard, presses: seq<Press>): (s: Session)
    decreases |presses|
  {
    if |presses| == 0 then Session(w, 0)
    else
      var t := Apply(w, presses[0]);
      var rest := Replay(t.next, presses[1..]);
      rest.(completions := rest.completions + (if t.effect == ScheduleComplete then 1 else 0))
  }

  /** Once loading, nothing schedules `onComplete` again and loading stays on. */
  lemma {:induction false} LoadingIsFinal(w: Wizard, presses: seq<Press>)
    requires w.loading
    ensures Replay(w, presses).completions == 0 && Replay(w, presses).last.loading
    decreases |presses|
  {
    if |presses| > 0 {
      LoadingIsFinal(Apply(w, presses[0]).next, presses[1..]);
    }
  }

  /** Whatever buttons are pressed, `onComplete` is scheduled at most once,
      and the step stays within 1..3. */
  lemma {:induction false} CompletesAtMostOnce(w: Wizard, presses: seq<Press>)
    requires Valid(w)
    ensures Replay(w, presses).completions <= 1
    ensures Valid(Replay(w, presses).last)
    decreases |presses|
  {
    if |presses| > 0 {
      var t := Apply(w, presses[0]);
      if t.effect == ScheduleComplete {
        LoadingIsFinal(t.next, presses[1..]);
      }
      CompletesAtMostOnce(t.next, presses[1..]);
    }
  }

  /** Three presses of the primary button from the start reach the final
      submission: step 3, loading, `onComplete` scheduled once. */
  lemma ThreePressesSubmit()
    ensures Replay(Start, [PrimaryButton, PrimaryButton, PrimaryButton]) == Session(Wizard(3, true, false), 1)
  {
    var ps := [PrimaryButton, PrimaryButton, PrimaryButton];
    assert ps[1..] == [PrimaryButton, PrimaryButton];
    assert ps[1..][1..] == [PrimaryButton];
  }
}

=== FILE: language.dfy ===
/** LanguageContext.tsx: the interface language, restored from browser
    storage at start-up and written back whenever it changes. */
module Language {
  import opened Wrappers

  datatype Lang = En | Vn | Zh

  /** The code stored under 'upbot-lang'. */
  function Code(l: Lang): string {
    match l
    case En => "en"
    case Vn => "vn"
    case Zh => "zh"
  }

  /** Reading the stored item: storage may throw, or hold a string or nothing. */
  datatype Stored = Unavailable | Item(value: Option<string>)

  /** The initial language: a stored 'en', 'vn' or 'zh' as is; Vietnamese
      for anything else, for a missing item and when storage throws. */
  function InitialLang(s: Stored): (l: Lang)
    ensures l != Vn ==> s == Item(Some(Code(l)))
    ensures l == Vn <==> s != Item(Some("en")) && s != Item(Some("zh"))
  {
    match s
    case Item(Some(v)) =>
      if v == "en" then En else if v == "vn" then Vn else if v == "zh" then Zh else Vn
    case _ => Vn
  }

  /** The language written back is the language read on the next start. */
  lemma SaveThenRestore(l: Lang)
    ensures InitialLang(Item(Some(Code(l)))) == l
  {
  }

  /** Nothing stored, an unknown code and a storage failure all give Vietnamese. */
  lemma DefaultIsVietnamese(v: string)
    requires v !in {"en", "vn", "zh"}
    ensures InitialLang(Item(Some(v))) == Vn
    ensures InitialLang(Item(None)) == Vn
    ensures InitialLang(Unavailable) == Vn
  {
  }
}

=== FILE: market.dfy ===
/** The trading desk of components/TradingSection.tsx: merging live prices
    into the watchlist, the price map forwarded to App, the simulated
    ticker, the board filter and the order form. Random draws are
    parameters; `toFixed(2)` is rounding to whole cents, half away from
    zero. */
module Market {
  import opened Wrappers
  import opened Text
  import opened Portfolio
  import opened App
  import opened Services

  datatype Board = Hose | Hnx | Upcom

  /** A watchlist row. The display-only volume, open, high and low are not
      modelled; no operation here changes them. */
  datatype Stock = Stock(symbol: string, name: string, ref: real, ceil: real, floor: real, price: real,
                         change: real, absChange: real, board: Board, marketCap: Option<string>)

  /** The change in per cent of the reference price. */
  function Percent(abs: real, ref: real): real
    requires ref != 0.0
  {
    abs / ref * 100.0
  }

  // ---- Merging live prices ----

  /** The API price of an entry: the number itself, or its `price` field. */
  function ApiPrice(e: Option<ApiEntry>): (p: Option<real>)
    ensures e.Some? && e.value.Num? ==> p == Some(e.value.n)
    ensures e.Some? && e.value.Quote? ==> p == e.value.price
    ensures e.None? ==> p.None?
  {
    match e
    case Some(Num(n)) => Some(n)
    case Some(Quote(price, _)) => price
    case None => None
  }

  /** The API market cap of an entry: only an object carries one. */
  function ApiMarketCap(e: Option<ApiEntry>): (m: Option<string>)
    ensures m.Some? ==> e.Some? && e.value.Quote? && e.value.marketCap == m
  {
    match e
    case Some(Quote(_, mc)) => mc
    case _ => None
  }

  function EntryFor(prices: map<string, ApiEntry>, symbol: string): Option<ApiEntry> {
    if symbol in prices then Some(prices[symbol]) else None
  }

  /** A non-zero number is truthy. */
  predicate TruthyNumber(p: Option<real>) {
    p.Some? && p.value != 0.0
  }

  /** A non-empty string is truthy. */
  predicate TruthyString(m: Option<string>) {
    m.Some? && m.value != ""
  }

  /** The row has something to update: a truthy new price, or a truthy new
      market cap, different from what it shows. */
  predicate Changes(s: Stock, prices: map<string, ApiEntry>) {
    var e := EntryFor(prices, s.symbol);
    (TruthyNumber(ApiPrice(e)) && ApiPrice(e).value != s.price)
    || (TruthyString(ApiMarketCap(e)) && ApiMarketCap(e) != s.marketCap)
  }

  /** One row of the merge. */
  function Refresh(s: Stock, prices: map<string, ApiEntry>): (r: Stock)
    requires s.ref != 0.0
    ensures var e := EntryFor(prices, s.symbol);
            var p, mc := ApiPrice(e), ApiMarketCap(e);
            && (TruthyNumber(p) && p.value != s.price ==>
                  r == s.(price := p.value, absChange := p.value - s.ref,
                          change := Percent(p.value - s.ref, s.ref),
                          marketCap := if TruthyString(mc) then mc else s.marketCap))
            && (!(TruthyNumber(p) && p.value != s.price) && TruthyString(mc) && mc != s.marketCap ==>
                  r == s.(marketCap := mc))
    ensures r != s <==> Changes(s, prices)
  {
    var e := EntryFor(prices, s.symbol);
    var p, mc := ApiPrice(e), ApiMarketCap(e);
    if TruthyNumber(p) && p.value != s.price then
      var abs := p.value - s.ref;
      s.(price := p.value, absChange := abs, change := Percent(abs, s.ref),
         marketCap := if TruthyString(mc) then mc else s.marketCap)
    else if TruthyString(mc) && mc != s.marketCap then s.(marketCap := mc)
    else s
  }

  predicate NonZeroRefs(stocks: seq<Stock>) {
    forall i :: 0 <= i < |stocks| ==> stocks[i].ref != 0.0
  }

  /** The merged watchlist and `hasChanges`: when nothing changed, the
      previous list itself is kept and React does not re-render. */
  datatype Merged = Merged(stocks: seq<Stock>, changed: bool)

  /** The `setMarketData` updater of `syncMarketPrices`. */
  function Merge(prev: seq<Stock>, prices: map<string, ApiEntry>): (m: Merged)
    requires NonZeroRefs(prev)
    ensures |m.stocks| == |prev|
    ensures forall i :: 0 <= i < |prev| ==> m.stocks[i] == Refresh(prev[i], prices)
    ensures m.changed <==> exists i :: 0 <= i < |prev| && Changes(prev[i], prices)
    ensures m.changed <==> m.stocks != prev
    decreases |prev|
  {
    if |prev| == 0 then Merged([], false)
    else
      var head := Refresh(prev[0], prices);
      var rest := Merge(prev[1..], prices);
      var stocks := [head] + rest.stocks;
      assert forall i :: 1 <= i < |prev| ==> prev[i] == prev[1..][i - 1] && stocks[i] == rest.stocks[i - 1];
      assert stocks == prev <==> head == prev[0] && rest.stocks == prev[1..];
      Merged(stocks, head != prev[0] || rest.changed)
  }

  /** A merged row has nothing left to take from the same prices. */
  lemma RefreshSettles(s: Stock, prices: map<string, ApiEntry>)
    requires s.ref != 0.0
    ensures !Changes(Refresh(s, prices), prices)
  {
  }

  /** Merging the same prices again changes nothing: the second sync keeps
      the list and does not re-render. */
  lemma MergeIdempotent(prev: seq<Stock>, prices: map<string, ApiEntry>)
    requires NonZeroRefs(prev)
    ensures NonZeroRefs(Merge(prev, prices).stocks)
    ensures var once := Merge(prev, prices).stocks;
            Merge(once, prices) == Merged(once, false)
  {
    var once := Merge(prev, prices).stocks;
    forall i | 0 <= i < |once| ensures !Changes(once[i], prices) {
      RefreshSettles(prev[i], prices);
    }
  }

  // ---- The price map forwarded to App ----

  /** `priceMap`: every key of the API table, valued as the number itself or
      its `price` field (possibly missing). */
  function PriceMap(prices: map<string, ApiEntry>): (r: map<string, Option<real>>)
    ensures r.Keys == prices.Keys
    ensures forall k :: k in r ==> r[k] == ApiPrice(Some(prices[k]))
  {
    map k | k in prices :: ApiPrice(Some(prices[k]))
  }

  /** What one sync leaves behind. */
  datatype Synced = Synced(stocks: seq<Stock>, changed: bool, globals: map<string, Option<real>>, fetched: bool)

  /** `syncMarketPrices` with the service's price table: nothing at all while
      the page is hidden; otherwise the merge and App's price update. */
  function Sync(visible: bool, prev: seq<Stock>, globals: map<string, Option<real>>,
                prices: map<string, ApiEntry>): (r: Synced)
    requires NonZeroRefs(prev)
    ensures !visible ==> r == Synced(prev, false, globals, false)
    ensures visible ==> r.fetched && r.stocks == Merge(prev, prices).stocks
                        && r.globals == UpdateGlobalPrices(globals, PriceMap(prices))
  {
    if !visible then Synced(prev, false, globals, false)
    else
      var m := Merge(prev, prices);
      Synced(m.stocks, m.changed, UpdateGlobalPrices(globals, PriceMap(prices)), true)
  }

  /** After a sync, App's price for every repriced row is the row's new
      price, so the dashboard values that stock at the price shown. */
  lemma SyncAgreesWithApp(prev: seq<Stock>, globals: map<string, Option<real>>,
                          prices: map<string, ApiEntry>, i: int)
    requires NonZeroRefs(prev) && 0 <= i < |prev|
    requires TruthyNumber(ApiPrice(EntryFor(prices, prev[i].symbol)))
    ensures var r := Sync(true, prev, globals, prices);
            prev[i].symbol in r.globals && r.globals[prev[i].symbol] == Some(r.stocks[i].price)
  {
  }

  // ---- The ticker ----

  /** `Number(x.toFixed(2))`: to whole cents, halves away from zero. */
  function Round2(x: real): (r: real)
    ensures -0.005 <= r - x <= 0.005
  {
    if x >= 0.0 then ((x * 100.0 + 0.5).Floor as real) / 100.0
    else -((((-x) * 100.0 + 0.5).Floor as real) / 100.0)
  }

  lemma Round2Monotone(x: real, y: real)
    requires x <= y
    ensures Round2(x) <= Round2(y)
  {
    if x >= 0.0 {
      assert (x * 100.0 + 0.5).Floor <= (y * 100.0 + 0.5).Floor;
    } else if y < 0.0 {
      assert ((-y) * 100.0 + 0.5).Floor <= ((-x) * 100.0 + 0.5).Floor;
    }
  }

  /** A whole number of cents. */
  predicate Cents(x: real) {
    (x * 100.0).Floor as real == x * 100.0
  }

  lemma Round2OfCents(x: real)
    requires Cents(x)
    ensures Round2(x) == x
  {
    var k := (x * 100.0).Floor;
    if x >= 0.0 {
      assert (x * 100.0 + 0.5).Floor == k;
    } else {
      assert ((-x) * 100.0 + 0.5).Floor == -k;
    }
  }

  /** One ticker step for a row. `moves` is the 30% draw; `jitter` the
      signed random change. Outside ±5% of the reference the change is
      forced back towards it; the new price is clamped to the band. */
  function Tick(s: Stock, moves: bool, jitter: real): (r: Stock)
    requires s.ref != 0.0
    ensures !moves ==> r == s
    ensures r.symbol == s.symbol && r.ref == s.ref && r.ceil == s.ceil && r.floor == s.floor && r.board == s.board
  {
    if !moves then s
    else
      var c1 := if s.price > s.ref * 1.05 then -0.05 else jitter;
      var c2 := if s.price < s.ref * 0.95 then 0.05 else c1;
      var next := Clamp(s.price + c2, s.floor, s.ceil);
      s.(price := Round2(next), change := Round2(Percent(next - s.ref, s.ref)), absChange := Round2(next - s.ref))
  }

  /** `Math.max(floor, Math.min(ceil, x))`. */
  function Clamp(x: real, floor: real, ceil: real): (r: real)
    ensures floor <= ceil ==> floor <= r <= ceil
    ensures floor <= x <= ceil ==> r == x
  {
    if ceil < x then (if floor > ceil then floor else ceil)
    else if floor > x then floor
    else x
  }

  /** With a cent-valued band, the ticker never leaves it. */
  lemma TickStaysInBand(s: Stock, moves: bool, jitter: real)
    requires s.ref != 0.0 && s.floor <= s.ceil && Cents(s.floor) && Cents(s.ceil)
    requires s.floor <= s.price <= s.ceil
    ensures s.floor <= Tick(s, moves, jitter).price <= s.ceil
  {
    if moves {
      var c1 := if s.price > s.ref * 1.05 then -0.05 else jitter;
      var c2 := if s.price < s.ref * 0.95 then 0.05 else c1;
      var next := Clamp(s.price + c2, s.floor, s.ceil);
      Round2Monotone(s.floor, next);
      Round2Monotone(next, s.ceil);
      Round2OfCents(s.floor);
      Round2OfCents(s.ceil);
    }
  }

  /** More than 5% above the reference, the random draw is ignored and a
      cent-valued price does not rise; more than 5% below, it does not fall. */
  lemma TickPullsBack(s: Stock, jitter: real, jitter': real)
    requires s.ref > 0.0 && s.floor <= s.price <= s.ceil && Cents(s.price)
    ensures s.price > s.ref * 1.05 ==> Tick(s, true, jitter) == Tick(s, true, jitter')
                                        && Tick(s, true, jitter).price <= s.price
    ensures s.price < s.ref * 0.95 ==> Tick(s, true, jitter) == Tick(s, true, jitter')
                                        && Tick(s, true, jitter).price >= s.price
  {
    Round2OfCents(s.price);
    if s.price > s.ref * 1.05 {
      Round2Monotone(Clamp(s.price - 0.05, s.floor, s.ceil), s.price);
    }
    if s.price < s.ref * 0.95 {
      Round2Monotone(s.price, Clamp(s.price + 0.05, s.floor, s.ceil));
    }
  }

  /** Sums and differences of whole cents are whole cents. */
  lemma CentsClosed(a: real, b: real)
    requires Cents(a) && Cents(b)
    ensures Cents(a + b) && Cents(a - b)
  {
    var k, m := (a * 100.0).Floor, (b * 100.0).Floor;
    assert a * 100.0 == k as real && b * 100.0 == m as real;
    assert (a + b) * 100.0 == (k + m) as real;
    assert (a - b) * 100.0 == (k - m) as real;
    assert ((k + m) as real).Floor == k + m;
    assert ((k - m) as real).Floor == k - m;
  }

  /** The clamp returns one of its arguments, so it keeps whole cents. */
  lemma ClampCents(x: real, floor: real, ceil: real)
    requires Cents(x) && Cents(floor) && Cents(ceil)
    ensures Cents(Clamp(x, floor, ceil))
  {
  }

  /** The price the ticker moves to before rounding is in whole cents. */
  lemma TickTargetCents(s: Stock, jitter: real)
    requires Cents(s.price) && Cents(s.floor) && Cents(s.ceil) && Cents(jitter)
    ensures var c1 := if s.price > s.ref * 1.05 then -0.05 else jitter;
            var c2 := if s.price < s.ref * 0.95 then 0.05 else c1;
            Cents(Clamp(s.price + c2, s.floor, s.ceil))
  {
    var c1 := if s.price > s.ref * 1.05 then -0.05 else jitter;
    var c2 := if s.price < s.ref * 0.95 then 0.05 else c1;
    assert Cents(0.05) && Cents(-0.05);
    CentsClosed(s.price, c2);
    ClampCents(s.price + c2, s.floor, s.ceil);
  }

  /** A moved row's change is recomputed against the reference: with prices,
      band, reference and draw in whole cents, the absolute change is exactly
      the new price minus the reference, and the percentage is that change
      over the reference, to within the rounding of `toFixed(2)`. */
  lemma TickRecomputesChange(s: Stock, jitter: real)
    requires s.ref != 0.0 && Cents(s.ref) && Cents(s.price) && Cents(s.floor) && Cents(s.ceil) && Cents(jitter)
    ensures var r := Tick(s, true, jitter);
            && r.absChange == r.price - s.ref
            && -0.005 <= r.change - Percent(r.price - s.ref, s.ref) <= 0.005
  {
    var c1 := if s.price > s.ref * 1.05 then -0.05 else jitter;
    var c2 := if s.price < s.ref * 0.95 then 0.05 else c1;
    var next := Clamp(s.price + c2, s.floor, s.ceil);
    TickTargetCents(s, jitter);
    assert Tick(s, true, jitter) == s.(price := Round2(next), change := Round2(Percent(next - s.ref, s.ref)),
                                       absChange := Round2(next - s.ref));
    CentsClosed(next, s.ref);
    Round2OfCents(next);
    Round2OfCents(next - s.ref);
  }

  // ---- The watchlist filter ----

  /** The row matches the search box: an empty query matches everything;
      otherwise the lower-cased query occurs in the lower-cased symbol or name. */
  predicate Matches(s: Stock, query: string) {
    query == "" || Contains(Lower(s.symbol), Lower(query)) || Contains(Lower(s.name), Lower(query))
  }

  function OnBoard(stocks: seq<Stock>, board: Board): (r: seq<Stock>)
    ensures |r| <= |stocks|
    ensures forall x :: x in r <==> x in stocks && x.board == board
    decreases |stocks|
  {
    if |stocks| == 0 then []
    else if stocks[0].board == board then [stocks[0]] + OnBoard(stocks[1..], board)
    else OnBoard(stocks[1..], board)
  }

  function Containing(stocks: seq<Stock>, lowered: string): (r: seq<Stock>)
    ensures |r| <= |stocks|
    ensures forall x :: x in r <==> x in stocks && (Contains(Lower(x.symbol), lowered) || Contains(Lower(x.name), lowered))
    decreases |stocks|
  {
    if |stocks| == 0 then []
    else if Contains(Lower(stocks[0].symbol), lowered) || Contains(Lower(stocks[0].name), lowered) then
      [stocks[0]] + Containing(stocks[1..], lowered)
    else Containing(stocks[1..], lowered)
  }

  /** `filteredDataByBoard`: the rows of the active board, narrowed by the
      search box when it is not empty. */
  function FilterByBoard(stocks: seq<Stock>, board: Board, query: string): (r: seq<Stock>)
    ensures forall x :: x in r <==> x in stocks && x.board == board && Matches(x, query)
    ensures query == "" ==> r == OnBoard(stocks, board)
  {
    var base := OnBoard(stocks, board);
    if query == "" then base else Containing(base, Lower(query))
  }

  lemma LowerIdempotent(s: string)
    ensures Lower(Lower(s)) == Lower(s)
  {
  }

  /** The letter case of the query does not matter. */
  lemma FilterIgnoresQueryCase(stocks: seq<Stock>, board: Board, query: string)
    ensures FilterByBoard(stocks, board, Lower(query)) == FilterByBoard(stocks, board, query)
  {
    LowerIdempotent(query);
    assert |Lower(query)| == |query|;
  }

  // ---- The order form ----

  /** The values of the order-type dropdown. */
  const OrderTypeValues: seq<string> := ["LO", "MP", "ATO", "ATC", "MTL", "MAK", "MOK", "PLO"]

  /** `getOrderTypeId`. */
  function OrderTypeId(t: string): (id: string)
    ensures t == "Limit" ==> id == "LO"
    ensures t == "Market" ==> id == "MP"
    ensures t != "Limit" && t != "Market" ==> id == t
  {
    if t == "Limit" then "LO" else if t == "Market" then "MP" else t
  }

  /** The order type the dropdown stores for a picked value. */
  function Picked(value: string): (t: string)
    ensures value == "LO" ==> t == "Limit"
    ensures value == "MP" ==> t == "Market"
    ensures value != "LO" && value != "MP" ==> t == value
  {
    if value == "LO" then "Limit" else if value == "MP" then "Market" else value
  }

  /** Picking any dropdown value highlights that same value. */
  lemma PickedRoundTrip(i: int)
    requires 0 <= i < |OrderTypeValues|
    ensures OrderTypeId(Picked(OrderTypeValues[i])) == OrderTypeValues[i]
  {
  }

  /** `handlePlaceOrderInternal`: no order for a missing or non-positive
      quantity, nor for a Limit order whose price does not parse; a Market
      order takes the live price, any other the parsed price. `priceNum` is
      `parseFloat` of the price box with its first comma removed (None for
      NaN), so "12,5" reads as 125 and "-5" as -5; for types other than
      Limit and Market the box is filled from the live price, so it parses. */
  function FormOrder(quantity: Option<int>, priceNum: Option<real>, orderType: string, buying: bool,
                     active: Stock): (r: Option<Order>)
    requires orderType != "Limit" && orderType != "Market" ==> priceNum.Some?
    ensures r.None? <==> quantity.None? || quantity.value <= 0 || (orderType == "Limit" && priceNum.None?)
    ensures r.Some? ==> r.value.symbol == active.symbol && r.value.qty == quantity.value
                        && r.value.side == (if buying then Buy else Sell)
    ensures r.Some? && orderType == "Market" ==> r.value.price == active.price
    ensures r.Some? && orderType != "Market" ==> r.value.price == priceNum.value
  {
    if quantity.None? || quantity.value <= 0 then None
    else if orderType == "Limit" && priceNum.None? then None
    else
      Some(Order(active.symbol, quantity.value,
                 if orderType == "Market" then active.price else priceNum.value,
                 if buying then Buy else Sell))
  }

  /** Every order the form emits meets the engine's precondition, so a buy
      of the whole cash at the live price is accepted. */
  lemma FormOrderPlaceable(quantity: Option<int>, priceNum: Option<real>, orderType: string, buying: bool,
                           active: Stock, a: Account)
    requires orderType != "Limit" && orderType != "Market" ==> priceNum.Some?
    requires PositiveHoldings(a.positions)
    ensures var r := FormOrder(quantity, priceNum, orderType, buying, active);
            r.Some? ==> r.value.qty > 0
                        && (buying && orderType == "Market" && OrderValue(r.value) == a.cash ==>
                              PlaceOrder(a, r.value, "", "", "").Ok?)
  {
  }

  /** The price box is free text and only NaN is refused, so a typed
      negative Limit price reaches the engine: a Sell at -5 "succeeds" and
      takes the cash below zero, breaking the account invariant. */
  lemma NegativeLimitOverdraws(active: Stock)
    ensures FormOrder(Some(1), Some(-5.0), "Limit", false, active) == Some(Order(active.symbol, 1, -5.0, Sell))
    ensures var a := Account(0.0, [Position("p", active.symbol, 10.0, 1, Buy)], []);
            var r := PlaceOrder(a, Order(active.symbol, 1, -5.0, Sell), "", "", "");
            && Valid(a) && r.Ok? && r.value.cash == -5.0 && !Valid(r.value)
  {
    var a := Account(0.0, [Position("p", active.symbol, 10.0, 1, Buy)], []);
    var o := Order(active.symbol, 1, -5.0, Sell);
    assert FindIndex(a.positions, o.symbol) == Some(0);
    assert OrderValue(o) == -5.0;
  }

  /** The corrected form: as `handlePlaceOrderInternal`, but an order whose
      price is not positive is refused as well. */
  function SafeFormOrder(quantity: Option<int>, priceNum: Option<real>, orderType: string, buying: bool,
                         active: Stock): (r: Option<Order>)
    requires orderType != "Limit" && orderType != "Market" ==> priceNum.Some?
    ensures var f := FormOrder(quantity, priceNum, orderType, buying, active);
            && (r.None? <==> f.None? || f.value.price <= 0.0)
            && (r.Some? ==> r == f && r.value.price > 0.0)
  {
    var f := FormOrder(quantity, priceNum, orderType, buying, active);
    if f.Some? && f.value.price > 0.0 then f else None
  }

  /** Every order the corrected form emits keeps the account invariant
      whenever the engine accepts it. */
  lemma SafeFormOrderKeepsValid(quantity: Option<int>, priceNum: Option<real>, orderType: string, buying: bool,
                                active: Stock, a: Account, txId: string, date: string, posId: string)
    requires orderType != "Limit" && orderType != "Market" ==> priceNum.Some?
    requires Valid(a)
    ensures var r := SafeFormOrder(quantity, priceNum, orderType, buying, active);
            r.Some? && PlaceOrder(a, r.value, txId, date, posId).Ok? ==>
              Valid(PlaceOrder(a, r.value, txId, date, posId).value)
  {
    var r := SafeFormOrder(quantity, priceNum, orderType, buying, active);
    if r.Some? && PlaceOrder(a, r.value, txId, date, posId).Ok? {
      PlaceOrderKeepsValid(a, r.value, txId, date, posId);
    }
  }
}

=== FILE: navbar.dfy ===
/** The global search box of components/Navbar.tsx: a debounced search that
    runs only for queries longer than two characters after trimming, and
    the click on a result, which either navigates inside the app or opens
    a new tab. App's current view is kept as the string the navigation
    callback receives; a view renders only when that string names one. */
module Navbar {
  import opened Wrappers
  import opened Text
  import opened App
  import opened Services

  /** The search box: the query, the results shown, whether a search is
      running, whether the overlay is open, and the query whose search is
      waiting on the 800 ms timer. */
  datatype Box = Box(query: string, results: seq<SearchResult>, searching: bool, open: bool, timer: Option<string>)

  /** Queries longer than two characters, once trimmed, are searched. */
  predicate Searchable(q: string) {
    |Trim(q)| > 2
  }

  /** The effect on a query change: the old timer is cleared; a searchable
      query starts a new one and shows the spinner, any other clears the
      results and the spinner. */
  function QueryChanged(b: Box, q: string): (r: Box)
    ensures r.query == q && r.open == b.open
    ensures Searchable(q) <==> r.timer == Some(q)
    ensures Searchable(q) ==> r.searching && r.results == b.results
    ensures !Searchable(q) ==> r.timer.None? && !r.searching && r.results == []
  {
    if Searchable(q) then b.(query := q, searching := true, timer := Some(q))
    else b.(query := q, results := [], searching := false, timer := None)
  }

  /** The timer fires: the results of the search for the waiting query are
      shown and the spinner stops. `search` is the service's answer. */
  function TimerFired(b: Box, search: string -> seq<SearchResult>): (r: Box)
    ensures b.timer.None? ==> r == b
    ensures b.timer.Some? ==> r == b.(results := search(b.timer.value), searching := false, timer := None)
  {
    match b.timer
    case None => b
    case Some(q) => b.(results := search(q), searching := false, timer := None)
  }

  /** Typing the queries in turn, faster than the timer. */
  function Typed(b: Box, qs: seq<string>): Box
    decreases |qs|
  {
    if |qs| == 0 then b else Typed(QueryChanged(b, qs[0]), qs[1..])
  }

  /** The debounce: after a burst of typing, at most the last query waits
      to be searched, and only when it is searchable. */
  lemma {:induction false} OnlyLastQuerySearched(b: Box, qs: seq<string>)
    requires |qs| > 0
    ensures var r := Typed(b, qs);
            && r.query == qs[|qs| - 1]
            && (Searchable(qs[|qs| - 1]) <==> r.timer == Some(qs[|qs| - 1]))
            && (!Searchable(qs[|qs| - 1]) ==> r.timer.None? && r.results == [])
    decreases |qs|
  {
    if |qs| > 1 {
      OnlyLastQuerySearched(QueryChanged(b, qs[0]), qs[1..]);
    }
  }

  /** A two-letter query, even padded with spaces, starts no search. */
  lemma ShortQueryNotSearched(b: Box)
    ensures QueryChanged(b, " ab ").timer.None?
  {
    var q := " ab ";
    assert IsWhitespace(q[0]) && !IsWhitespace(q[1]) && !IsWhitespace(q[2]) && IsWhitespace(q[3]);
    assert TrimStartFrom(q, 0) == 1;
    assert TrimEndTo(q, 1, 4) == 3;
    assert |Trim(q)| == 2;
  }

  // ---- Clicking a result ----

  /** What a click asks for. */
  datatype Action = Ignore | Navigate(name: string) | OpenTab(url: string)

  /** `handleResultClick` as written: a missing, non-string or blank link
      does nothing; otherwise the overlay closes and the query empties, and
      a link starting with '#' navigates to the link without its first '#',
      any other link opens in a new tab. Emptying the query re-runs the
      search effect, which is `QueryChanged(_, "")`: see
      `ClickClearsSearch`. */
  function ResultClick(b: Box, link: Link): (r: (Box, Action))
    ensures link.NotText? || Trim(link.s) == "" ==> r == (b, Ignore)
    ensures link.LinkText? && Trim(link.s) != "" ==> !r.0.open && r.0.query == ""
    ensures r.1.Navigate? <==> link.LinkText? && Trim(link.s) != "" && StartsWith(link.s, "#")
    ensures r.1.Navigate? ==> "#" + r.1.name == link.s
    ensures r.1.OpenTab? ==> link == LinkText(r.1.url) && !StartsWith(r.1.url, "#")
  {
    match link
    case NotText => (b, Ignore)
    case LinkText(s) =>
      if Trim(s) == "" then (b, Ignore)
      else
        var closed := b.(open := false, query := "");
        if StartsWith(s, "#") then
          HashFirst(s);
          (closed, Navigate(ReplaceFirst(s, "#", "")))
        else (closed, OpenTab(s))
  }

  /** A click that is not ignored empties the query, and the search effect
      that follows clears the pending timer, the results and the spinner,
      so a timer that was waiting no longer fires a search. */
  lemma ClickClearsSearch(b: Box, link: Link, search: string -> seq<SearchResult>)
    requires link.LinkText? && Trim(link.s) != ""
    ensures var c := QueryChanged(ResultClick(b, link).0, "");
            && c.query == "" && !c.open
            && c.timer.None? && c.results == [] && !c.searching
            && TimerFired(c, search) == c
  {
    assert !Searchable("") by {
      assert TrimStartFrom("", 0) == 0;
    }
  }

  /** Removing the first '#' of a string that starts with one drops that character. */
  lemma HashFirst(s: string)
    requires StartsWith(s, "#")
    ensures "#" + ReplaceFirst(s, "#", "") == s
  {
    assert OccursAt(s, "#", 0);
    assert IndexOf(s, "#") == Some(0);
    assert ReplaceFirst(s, "#", "") == s[1..];
  }

  /** App's current view after the click, as the string `navigateTo` stores. */
  function ViewAfter(current: string, a: Action): (v: string)
    ensures a.Navigate? ==> v == a.name
    ensures !a.Navigate? ==> v == current
  {
    if a.Navigate? then a.name else current
  }

  /** A view string renders something only when it names one of the five
      views; App has no route for any other. */
  predicate Renders(view: string) {
    ViewNamed(view).Some?
  }

  /** An in-app link "#name" for any view takes the user to that view. */
  lemma ViewLinkNavigates(b: Box, v: View, current: string)
    ensures var (_, a) := ResultClick(b, LinkText("#" + ViewName(v)));
            ViewNamed(ViewAfter(current, a)) == Some(v)
  {
    var s := "#" + ViewName(v);
    assert s[0] == '#' && !IsWhitespace(s[0]);
    assert Trim(s) != "" by {
      assert TrimStartFrom(s, 0) == 0;
    }
    assert StartsWith(s, "#");
    var a := ResultClick(b, LinkText(s)).1;
    assert "#" + a.name == s;
    assert a.name == s[1..] == ViewName(v);
    NamedRoundTrip(v);
  }

  lemma NamedRoundTrip(v: View)
    ensures ViewNamed(ViewName(v)) == Some(v)
  {
  }

  /** The generic link "#", which the search prompt asks for when there is
      no real URL, navigates to the empty view name: App then renders no
      view at all, though the view before the click rendered. */
  lemma GenericLinkBlanksPage(b: Box)
    ensures ResultClick(b, LinkText("#")).1 == Navigate("")
    ensures Renders("dashboard") && !Renders(ViewAfter("dashboard", ResultClick(b, LinkText("#")).1))
  {
    var s := "#";
    assert !IsWhitespace(s[0]);
    assert TrimStartFrom(s, 0) == 0;
    assert Trim(s) != "";
    assert StartsWith(s, "#");
    HashFirst(s);
  }

  /** The corrected click: a '#' link navigates only when it
      names a view, and otherwise leaves the view as it is. */
  function SafeViewAfter(current: string, a: Action): (v: string)
    ensures a.Navigate? && Renders(a.name) ==> v == a.name
    ensures !(a.Navigate? && Renders(a.name)) ==> v == current
  {
    if a.Navigate? && Renders(a.name) then a.name else current
  }

  /** With the intended click, a view that renders keeps rendering whatever
      result is clicked, and every in-app link to a view still works. */
  lemma SafeClickKeepsAView(b: Box, link: Link, current: string, v: View)
    requires Renders(current)
    ensures Renders(SafeViewAfter(current, ResultClick(b, link).1))
    ensures ViewNamed(SafeViewAfter(current, ResultClick(b, LinkText("#" + ViewName(v))).1)) == Some(v)
  {
    ViewLinkNavigates(b, v, current);
  }
}

=== FILE: portfolio.dfy ===
/** The paper-trading portfolio engine of App.tsx: an account of cash, open
    positions (one per symbol, kept in insertion order) and a ledger of
    transactions (newest first), and `handlePlaceOrder`, which applies one
    order to it atomically or rejects it without touching anything. */
module Portfolio {
  import opened Wrappers
  import Seqs

  /** Order side, and the side a position records ('Buy' | 'Sell'). */
  datatype Side = Buy | Sell

  /** A held quantity of one symbol at a volume-weighted average entry price.
      `qty` is a JavaScript number, so it is an `int` here. */
  datatype Position = Position(id: string, symbol: string, entry: real, qty: int, side: Side)

  /** Ledger entry type: 'MUA' (bought) or 'BÁN' (sold). */
  datatype TxType = Mua | Ban

  /** Ledger status: 'Khớp' (matched), 'Hoàn tất' (done), 'Đang xử lý' (processing). */
  datatype TxStatus = Khop | HoanTat | DangXuLy

  datatype Transaction = Transaction(
    id: string, date: string, symbol: string, kind: TxType, value: real, status: TxStatus)

  datatype Account = Account(cash: real, positions: seq<Position>, transactions: seq<Transaction>)

  /** What the trading desk submits. The desk never submits a non-positive quantity. */
  datatype Order = Order(symbol: string, qty: nat, price: real, side: Side)

  /** The two errors `handlePlaceOrder` throws. */
  datatype OrderError = InsufficientFunds | InsufficientHoldings

  /** The paper-trading endowment, 100 million VND. */
  const InitialCash: real := 100000000.0

  /** `positions.findIndex(p => p.symbol === sym)`, with `None` for -1. */
  function FindIndex(ps: seq<Position>, sym: string): (r: Option<nat>)
    ensures r.Some? ==> r.value < |ps| && ps[r.value].symbol == sym
    ensures r.Some? ==> forall j :: 0 <= j < r.value ==> ps[j].symbol != sym
    ensures r.None? <==> forall j :: 0 <= j < |ps| ==> ps[j].symbol != sym
  {
    if |ps| == 0 then None
    else if ps[0].symbol == sym then Some(0)
    else match FindIndex(ps[1..], sym)
      case None => None
      case Some(i) => Some(i + 1)
  }

  /** `positions.find(p => p.symbol === sym)`. */
  function Find(ps: seq<Position>, sym: string): Option<Position> {
    match FindIndex(ps, sym)
    case None => None
    case Some(i) => Some(ps[i])
  }

  /** The quantity held of `sym`, 0 when there is no position. */
  function Held(ps: seq<Position>, sym: string): int {
    match Find(ps, sym)
    case None => 0
    case Some(p) => p.qty
  }

  /** At most one position per symbol. */
  ghost predicate UniqueSymbols(ps: seq<Position>) {
    forall i, j :: 0 <= i < |ps| && 0 <= j < |ps| && ps[i].symbol == ps[j].symbol ==> i == j
  }

  /** No position is kept at zero or below. */
  predicate PositiveHoldings(ps: seq<Position>) {
    forall i :: 0 <= i < |ps| ==> ps[i].qty > 0
  }

  /** The account invariant the engine keeps. */
  ghost predicate Valid(a: Account) {
    a.cash >= 0.0 && UniqueSymbols(a.positions) && PositiveHoldings(a.positions)
  }

  /** `prev.map(p => p.symbol === sym ? { ...p, qty, entry } : p)`. */
  function Reprice(ps: seq<Position>, sym: string, qty: int, entry: real): (r: seq<Position>)
    ensures |r| == |ps|
    ensures forall i :: 0 <= i < |ps| && ps[i].symbol == sym ==> r[i] == ps[i].(qty := qty, entry := entry)
    ensures forall i :: 0 <= i < |ps| && ps[i].symbol != sym ==> r[i] == ps[i]
  {
    if |ps| == 0 then []
    else [if ps[0].symbol == sym then ps[0].(qty := qty, entry := entry) else ps[0]]
         + Reprice(ps[1..], sym, qty, entry)
  }

  /** `prev.map(p => p.symbol === sym ? { ...p, qty: p.qty - n } : p)`. */
  function Decrement(ps: seq<Position>, sym: string, n: int): (r: seq<Position>)
    ensures |r| == |ps|
    ensures forall i :: 0 <= i < |ps| && ps[i].symbol == sym ==> r[i] == ps[i].(qty := ps[i].qty - n)
    ensures forall i :: 0 <= i < |ps| && ps[i].symbol != sym ==> r[i] == ps[i]
  {
    if |ps| == 0 then []
    else [if ps[0].symbol == sym then ps[0].(qty := ps[0].qty - n) else ps[0]]
         + Decrement(ps[1..], sym, n)
  }

  /** `prev.filter(p => p.symbol !== sym)`. */
  function Without(ps: seq<Position>, sym: string): (r: seq<Position>)
    ensures |r| <= |ps|
    ensures forall p :: p in r <==> p in ps && p.symbol != sym
  {
    if |ps| == 0 then []
    else if ps[0].symbol == sym then Without(ps[1..], sym)
    else [ps[0]] + Without(ps[1..], sym)
  }

  /** The volume-weighted average of an old holding and a new fill. */
  function AverageEntry(oldEntry: real, oldQty: int, price: real, qty: int): real
    requires oldQty + qty != 0
  {
    (oldEntry * oldQty as real + price * qty as real) / (oldQty + qty) as real
  }

  /** Averages the fill into the position held at `k`. */
  function AverageInto(ps: seq<Position>, k: nat, o: Order): seq<Position>
    requires k < |ps| && ps[k].qty + o.qty != 0
  {
    var e := ps[k];
    Reprice(ps, o.symbol, e.qty + o.qty, AverageEntry(e.entry, e.qty, o.price, o.qty))
  }

  /** The position update of a Buy: average into the held position, or append
      a new one at the end. */
  function BuyUpsert(ps: seq<Position>, o: Order, posId: string): seq<Position>
    requires o.qty > 0 && PositiveHoldings(ps)
  {
    match FindIndex(ps, o.symbol)
    case Some(k) => AverageInto(ps, k, o)
    case None => ps + [Position(posId, o.symbol, o.price, o.qty, Buy)]
  }

  /** The position update of a Sell that the holdings cover: remove the
      position when all of it is sold, otherwise lower its quantity. */
  function SellReduce(ps: seq<Position>, held: int, o: Order): seq<Position> {
    if held == o.qty then Without(ps, o.symbol) else Decrement(ps, o.symbol, o.qty)
  }

  /** The order's value, `qty * price`. */
  function OrderValue(o: Order): real {
    o.qty as real * o.price
  }

  /** The ledger entry a filled order produces. */
  function LedgerEntry(o: Order, txId: string, date: string): Transaction {
    Transaction(txId, date, o.symbol, if o.side == Buy then Mua else Ban, OrderValue(o), Khop)
  }

  /** `handlePlaceOrder`: validate first, then move cash, update the
      positions and prepend one ledger entry. The random transaction and
      position ids and the clock's date string are parameters. A rejection
      carries no account: the caller's account stays as it was. */
  function PlaceOrder(a: Account, o: Order, txId: string, date: string, posId: string)
    : (r: Result<Account, OrderError>)
    requires o.qty > 0 && PositiveHoldings(a.positions)
    ensures o.side == Buy ==> (r.Err? <==> OrderValue(o) > a.cash)
    ensures o.side == Sell ==> (r.Err? <==> Held(a.positions, o.symbol) < o.qty)
    ensures r.Err? ==> r.error == (if o.side == Buy then InsufficientFunds else InsufficientHoldings)
    ensures r.Ok? && o.side == Buy ==> r.value.cash == a.cash - OrderValue(o)
    ensures r.Ok? && o.side == Sell ==> r.value.cash == a.cash + OrderValue(o)
    ensures r.Ok? ==> |r.value.transactions| == |a.transactions| + 1
    ensures r.Ok? ==> r.value.transactions[1..] == a.transactions
    ensures r.Ok? ==> var t := r.value.transactions[0];
                      t.value == OrderValue(o) && t.symbol == o.symbol
                      && t.id == txId && t.date == date && t.status == Khop
                      && (t.kind == Mua <==> o.side == Buy)
  {
    var value := OrderValue(o);
    var tx := LedgerEntry(o, txId, date);
    match o.side
    case Buy =>
      if value > a.cash then Err(InsufficientFunds)
      else Ok(Account(a.cash - value, BuyUpsert(a.positions, o, posId), [tx] + a.transactions))
    case Sell =>
      match Find(a.positions, o.symbol)
      case None => Err(InsufficientHoldings)
      case Some(existing) =>
        if existing.qty < o.qty then Err(InsufficientHoldings)
        else Ok(Account(a.cash + value, SellReduce(a.positions, existing.qty, o), [tx] + a.transactions))
  }

  /** A Buy on a held symbol (at index `k`) adds to its quantity and moves its
      entry to the volume-weighted average; every other position is kept. */
  lemma BuyOnHeldSymbol(a: Account, o: Order, txId: string, date: string, posId: string, k: nat)
    requires o.qty > 0 && o.side == Buy && PositiveHoldings(a.positions)
    requires UniqueSymbols(a.positions)
    requires k < |a.positions| && a.positions[k].symbol == o.symbol
    requires PlaceOrder(a, o, txId, date, posId).Ok?
    ensures var ps' := PlaceOrder(a, o, txId, date, posId).value.positions;
            var e := a.positions[k];
            && |ps'| == |a.positions|
            && ps'[k] == e.(qty := e.qty + o.qty, entry := AverageEntry(e.entry, e.qty, o.price, o.qty))
            && ps'[k].entry * ps'[k].qty as real == e.entry * e.qty as real + o.price * o.qty as real
            && forall j :: 0 <= j < |ps'| && j != k ==> ps'[j] == a.positions[j]
  {
    var e := a.positions[k];
    assert FindIndex(a.positions, o.symbol) == Some(k);
    var total := e.qty + o.qty;
    var avg := AverageEntry(e.entry, e.qty, o.price, o.qty);
    assert avg * total as real == e.entry * e.qty as real + o.price * o.qty as real;
  }

  /** A Buy on a symbol not held appends one position, at the given entry
      price and quantity, after all existing ones. */
  lemma BuyOnNewSymbol(a: Account, o: Order, txId: string, date: string, posId: string)
    requires o.qty > 0 && o.side == Buy && PositiveHoldings(a.positions)
    requires forall j :: 0 <= j < |a.positions| ==> a.positions[j].symbol != o.symbol
    requires PlaceOrder(a, o, txId, date, posId).Ok?
    ensures PlaceOrder(a, o, txId, date, posId).value.positions
            == a.positions + [Position(posId, o.symbol, o.price, o.qty, Buy)]
  {
    assert FindIndex(a.positions, o.symbol).None?;
  }

  /** Selling exactly the held quantity removes the position; nothing else
      changes and the order of the rest is kept. */
  lemma SellAllRemovesPosition(a: Account, o: Order, txId: string, date: string, posId: string, k: nat)
    requires o.qty > 0 && o.side == Sell && PositiveHoldings(a.positions)
    requires UniqueSymbols(a.positions)
    requires k < |a.positions| && a.positions[k].symbol == o.symbol && a.positions[k].qty == o.qty
    ensures PlaceOrder(a, o, txId, date, posId).Ok?
    ensures PlaceOrder(a, o, txId, date, posId).value.positions
            == a.positions[..k] + a.positions[k + 1..]
  {
    assert FindIndex(a.positions, o.symbol) == Some(k);
    WithoutUnique(a.positions, o.symbol, k);
  }

  /** Selling part of a holding lowers its quantity by the order quantity and
      keeps its entry price; every other position is kept. */
  lemma SellPartLowersQuantity(a: Account, o: Order, txId: string, date: string, posId: string, k: nat)
    requires o.qty > 0 && o.side == Sell && PositiveHoldings(a.positions)
    requires UniqueSymbols(a.positions)
    requires k < |a.positions| && a.positions[k].symbol == o.symbol && a.positions[k].qty > o.qty
    ensures PlaceOrder(a, o, txId, date, posId).Ok?
    ensures var ps' := PlaceOrder(a, o, txId, date, posId).value.positions;
            && |ps'| == |a.positions|
            && ps'[k] == a.positions[k].(qty := a.positions[k].qty - o.qty)
            && ps'[k].entry == a.positions[k].entry
            && forall j :: 0 <= j < |ps'| && j != k ==> ps'[j] == a.positions[j]
  {
    assert FindIndex(a.positions, o.symbol) == Some(k);
  }

  /** Under unique symbols, filtering out the symbol at `k` is removing index `k`. */
  lemma {:induction false} WithoutUnique(ps: seq<Position>, sym: string, k: nat)
    requires UniqueSymbols(ps)
    requires k < |ps| && ps[k].symbol == sym
    ensures Without(ps, sym) == ps[..k] + ps[k + 1..]
    decreases |ps|
  {
    var tail := ps[1..];
    UniqueTail(ps);
    if k == 0 {
      WithoutHeadOnly(ps, sym);
    } else {
      WithoutUnique(tail, sym, k - 1);
      Seqs.DropAfterHead(ps, k);
      calc {
        Without(ps, sym);
        { assert ps[0].symbol != sym; }
        [ps[0]] + Without(tail, sym);
        [ps[0]] + (tail[..k - 1] + tail[k..]);
        ps[..k] + ps[k + 1..];
      }
    }
  }

  /** The only position of the symbol is the first: filtering leaves the tail. */
  lemma WithoutHeadOnly(ps: seq<Position>, sym: string)
    requires 0 < |ps| && ps[0].symbol == sym && UniqueSymbols(ps)
    ensures Without(ps, sym) == ps[1..]
  {
    var tail := ps[1..];
    forall j | 0 <= j < |tail| ensures tail[j].symbol != sym {
      assert tail[j] == ps[j + 1];
    }
    WithoutAbsent(tail, sym);
  }

  lemma UniqueTail(ps: seq<Position>)
    requires |ps| > 0 && UniqueSymbols(ps)
    ensures UniqueSymbols(ps[1..])
  {
    var tail := ps[1..];
    forall i, j | 0 <= i < |tail| && 0 <= j < |tail| && tail[i].symbol == tail[j].symbol ensures i == j {
      assert tail[i] == ps[i + 1] && tail[j] == ps[j + 1];
    }
  }

  /** Filtering out a symbol that is not there changes nothing. */
  lemma {:induction false} WithoutAbsent(ps: seq<Position>, sym: string)
    requires forall j :: 0 <= j < |ps| ==> ps[j].symbol != sym
    ensures Without(ps, sym) == ps
    decreases |ps|
  {
    if |ps| > 0 {
      WithoutAbsent(ps[1..], sym);
      assert [ps[0]] + ps[1..] == ps;
    }
  }

  /** A successful order keeps the account invariant, provided the price is
      not negative (the engine itself does not check the sign of the price). */
  lemma PlaceOrderKeepsValid(a: Account, o: Order, txId: string, date: string, posId: string)
    requires o.qty > 0 && o.price >= 0.0 && Valid(a)
    requires PlaceOrder(a, o, txId, date, posId).Ok?
    ensures Valid(PlaceOrder(a, o, txId, date, posId).value)
  {
    assert OrderValue(o) >= 0.0;
    if o.side == Buy {
      BuyUpsertKeepsInvariant(a.positions, o, posId);
    } else {
      var k := FindIndex(a.positions, o.symbol).value;
      SellReduceKeepsInvariant(a.positions, o, k);
    }
  }

  /** The Buy position update keeps symbols unique and quantities positive. */
  lemma BuyUpsertKeepsInvariant(ps: seq<Position>, o: Order, posId: string)
    requires o.qty > 0 && UniqueSymbols(ps) && PositiveHoldings(ps)
    ensures UniqueSymbols(BuyUpsert(ps, o, posId)) && PositiveHoldings(BuyUpsert(ps, o, posId))
  {
    var ps' := BuyUpsert(ps, o, posId);
    if FindIndex(ps, o.symbol).Some? {
      forall i, j | 0 <= i < |ps'| && 0 <= j < |ps'| && ps'[i].symbol == ps'[j].symbol
        ensures i == j
      {
        assert ps'[i].symbol == ps[i].symbol && ps'[j].symbol == ps[j].symbol;
      }
    } else {
      assert ps' == ps + [Position(posId, o.symbol, o.price, o.qty, Buy)];
    }
  }

  /** The Sell position update, for the position at `k` covering the order,
      keeps symbols unique and quantities positive. */
  lemma SellReduceKeepsInvariant(ps: seq<Position>, o: Order, k: nat)
    requires o.qty > 0 && UniqueSymbols(ps) && PositiveHoldings(ps)
    requires k < |ps| && ps[k].symbol == o.symbol && ps[k].qty >= o.qty
    ensures UniqueSymbols(SellReduce(ps, ps[k].qty, o)) && PositiveHoldings(SellReduce(ps, ps[k].qty, o))
  {
    if ps[k].qty == o.qty {
      WithoutUnique(ps, o.symbol, k);
      DropKeepsInvariant(ps, k);
    } else {
      DecrementKeepsInvariant(ps, o, k);
    }
  }

  /** Dropping one position keeps the rest unique and positive. */
  lemma DropKeepsInvariant(ps: seq<Position>, k: nat)
    requires UniqueSymbols(ps) && PositiveHoldings(ps) && k < |ps|
    ensures UniqueSymbols(ps[..k] + ps[k + 1..]) && PositiveHoldings(ps[..k] + ps[k + 1..])
  {
    var ps' := ps[..k] + ps[k + 1..];
    forall i | 0 <= i < |ps'| ensures ps'[i] == ps[if i < k then i else i + 1] {
    }
  }

  /** Lowering the quantity of the position at `k` by less than it holds
      keeps symbols unique and quantities positive. */
  lemma DecrementKeepsInvariant(ps: seq<Position>, o: Order, k: nat)
    requires UniqueSymbols(ps) && PositiveHoldings(ps)
    requires k < |ps| && ps[k].symbol == o.symbol && ps[k].qty > o.qty
    ensures UniqueSymbols(Decrement(ps, o.symbol, o.qty)) && PositiveHoldings(Decrement(ps, o.symbol, o.qty))
  {
    var ps' := Decrement(ps, o.symbol, o.qty);
    forall i | 0 <= i < |ps'| ensures ps'[i].symbol == ps[i].symbol {
    }
  }

  /** A worked example: from the endowment, buying 100 VNM at
      78.5 leaves 99,992,150 in cash and one position; then selling 50 at 80
      leaves 99,996,150, the position halved at the same entry, two ledger
      entries. */
  lemma BuyThenSellExample()
    ensures var a0 := Account(InitialCash, [], []);
            var r1 := PlaceOrder(a0, Order("VNM", 100, 78.5, Buy), "TR-1", "d1", "p1");
            && r1.Ok?
            && r1.value.cash == 99992150.0
            && r1.value.positions == [Position("p1", "VNM", 78.5, 100, Buy)]
            && r1.value.transactions == [Transaction("TR-1", "d1", "VNM", Mua, 7850.0, Khop)]
            && var r2 := PlaceOrder(r1.value, Order("VNM", 50, 80.0, Sell), "TR-2", "d2", "p2");
               && r2.Ok?
               && r2.value.cash == 99996150.0
               && r2.value.positions == [Position("p1", "VNM", 78.5, 50, Buy)]
               && |r2.value.transactions| == 2
               && r2.value.transactions[0] == Transaction("TR-2", "d2", "VNM", Ban, 4000.0, Khop)
  {
    var a0 := Account(InitialCash, [], []);
    var r1 := PlaceOrder(a0, Order("VNM", 100, 78.5, Buy), "TR-1", "d1", "p1");
    assert r1.value.positions == [Position("p1", "VNM", 78.5, 100, Buy)];
    var a1 := r1.value;
    assert FindIndex(a1.positions, "VNM") == Some(0);
    var r2 := PlaceOrder(a1, Order("VNM", 50, 80.0, Sell), "TR-2", "d2", "p2");
    assert r2.value.positions == Decrement(a1.positions, "VNM", 50);
  }

  // ---- Repeated buys ----

  /** The total quantity of the fills. */
  function Filled(os: seq<Order>): nat
    decreases |os|
  {
    if |os| == 0 then 0 else os[0].qty + Filled(os[1..])
  }

  /** What the fills cost together: the sum of their order values. */
  function Spent(os: seq<Order>): real
    decreases |os|
  {
    if |os| == 0 then 0.0 else OrderValue(os[0]) + Spent(os[1..])
  }

  /** Every order is a Buy of `sym` for a positive quantity. */
  predicate BuysOf(os: seq<Order>, sym: string) {
    forall i :: 0 <= i < |os| ==> os[i].side == Buy && os[i].symbol == sym && os[i].qty > 0
  }

  /** Places the Buy orders one after the other, stopping at the first
      rejection; ids and dates play no part and are left empty. */
  function BuyAll(a: Account, os: seq<Order>, sym: string): (r: Result<Account, OrderError>)
    requires UniqueSymbols(a.positions) && PositiveHoldings(a.positions) && BuysOf(os, sym)
    ensures r.Ok? ==> r.value.cash == a.cash - Spent(os)
    ensures r.Err? ==> r.error == InsufficientFunds
    decreases |os|
  {
    if |os| == 0 then Ok(a)
    else
      match PlaceOrder(a, os[0], "", "", "")
      case Err(e) => Err(e)
      case Ok(b) =>
        assert b.positions == BuyUpsert(a.positions, os[0], "");
        BuyUpsertKeepsInvariant(a.positions, os[0], "");
        assert BuysOf(os[1..], sym) by {
          forall i | 0 <= i < |os| - 1 ensures os[1..][i] == os[i + 1] { }
        }
        BuyAll(b, os[1..], sym)
  }

  /** What a position's shares cost at its entry price, entry × qty. */
  function Book(p: Position): real {
    p.entry * p.qty as real
  }

  lemma ValueCommutes(o: Order)
    ensures o.price * o.qty as real == OrderValue(o)
  {
  }

  /** Chaining two additions; kept apart so the products stay opaque terms. */
  lemma AddChain(x: real, y: real, z: real, u: real, w: real, s: real)
    requires x == y + w && y == z + u && s == u + w
    ensures x == z + s
  {
  }

  /** One Buy on a held symbol, stated on `Book`. */
  lemma BuyStepBook(a: Account, o: Order, k: nat)
    requires o.qty > 0 && o.side == Buy && PositiveHoldings(a.positions) && UniqueSymbols(a.positions)
    requires k < |a.positions| && a.positions[k].symbol == o.symbol
    requires PlaceOrder(a, o, "", "", "").Ok?
    ensures var ps := PlaceOrder(a, o, "", "", "").value.positions;
            && |ps| == |a.positions| && ps[k].symbol == o.symbol
            && ps[k].qty == a.positions[k].qty + o.qty
            && Book(ps[k]) == Book(a.positions[k]) + OrderValue(o)
            && (forall j :: 0 <= j < |ps| && j != k ==> ps[j] == a.positions[j])
            && UniqueSymbols(ps) && PositiveHoldings(ps)
  {
    BuyOnHeldSymbol(a, o, "", "", "", k);
    ValueCommutes(o);
    assert PlaceOrder(a, o, "", "", "").value.positions == BuyUpsert(a.positions, o, "");
    BuyUpsertKeepsInvariant(a.positions, o, "");
  }

  /** Dropping the first order of a run of buys leaves a run of buys. */
  lemma BuysOfTail(os: seq<Order>, sym: string)
    requires BuysOf(os, sym) && |os| > 0
    ensures BuysOf(os[1..], sym)
  {
    forall i | 0 <= i < |os| - 1 ensures os[1..][i] == os[i + 1] { }
  }

  /** Buys on a held symbol keep it at its place, add up the quantities and
      add each fill's value to entry × qty; the other positions stay. */
  lemma {:induction false} BuysOnHeldSymbol(a: Account, os: seq<Order>, sym: string, k: nat)
    requires UniqueSymbols(a.positions) && PositiveHoldings(a.positions) && BuysOf(os, sym)
    requires k < |a.positions| && a.positions[k].symbol == sym
    requires BuyAll(a, os, sym).Ok?
    ensures var ps := BuyAll(a, os, sym).value.positions;
            && |ps| == |a.positions| && ps[k].symbol == sym
            && ps[k].qty == a.positions[k].qty + Filled(os)
            && Book(ps[k]) == Book(a.positions[k]) + Spent(os)
            && forall j :: 0 <= j < |ps| && j != k ==> ps[j] == a.positions[j]
    decreases |os|
  {
    if |os| > 0 {
      var o := os[0];
      BuyStepBook(a, o, k);
      var b := PlaceOrder(a, o, "", "", "").value;
      BuysOfTail(os, sym);
      assert BuyAll(a, os, sym) == BuyAll(b, os[1..], sym);
      BuysOnHeldSymbol(b, os[1..], sym, k);
      var ps := BuyAll(a, os, sym).value.positions;
      AddChain(Book(ps[k]), Book(b.positions[k]), Book(a.positions[k]), OrderValue(o), Spent(os[1..]), Spent(os));
    }
  }

  /** Any sequence of Buy fills on a symbol not yet held ends in one new
      position at the end whose quantity is the sum of the fills and whose
      entry is their volume-weighted average price, whatever their order;
      the earlier positions stay as they were. */
  lemma RepeatedBuysAverage(a: Account, os: seq<Order>, sym: string)
    requires UniqueSymbols(a.positions) && PositiveHoldings(a.positions) && BuysOf(os, sym) && |os| > 0
    requires forall j :: 0 <= j < |a.positions| ==> a.positions[j].symbol != sym
    requires BuyAll(a, os, sym).Ok?
    ensures var ps := BuyAll(a, os, sym).value.positions;
            var n := |a.positions|;
            && |ps| == n + 1 && ps[..n] == a.positions
            && ps[n].symbol == sym && ps[n].qty == Filled(os)
            && Book(ps[n]) == Spent(os)
            && ps[n].entry == Spent(os) / Filled(os) as real
  {
    var o := os[0];
    var n := |a.positions|;
    var b := PlaceOrder(a, o, "", "", "").value;
    BuyOnNewSymbol(a, o, "", "", "");
    assert b.positions == BuyUpsert(a.positions, o, "");
    BuyUpsertKeepsInvariant(a.positions, o, "");
    BuysOfTail(os, sym);
    assert BuyAll(a, os, sym) == BuyAll(b, os[1..], sym);
    BuysOnHeldSymbol(b, os[1..], sym, n);
    var ps := BuyAll(a, os, sym).value.positions;
    assert b.positions[n] == Position("", sym, o.price, o.qty, Buy);
    FreshPositionBook(o, sym);
    AddChain(Book(ps[n]), Book(b.positions[n]), 0.0, OrderValue(o), Spent(os[1..]), Spent(os));
    assert ps[..n] == a.positions by {
      forall j | 0 <= j < n ensures ps[j] == a.positions[j] {
        assert ps[j] == b.positions[j];
      }
    }
    EntryIsAverage(ps[n], Spent(os));
  }

  /** A position opened by a fill is booked at the fill's value. */
  lemma FreshPositionBook(o: Order, sym: string)
    ensures Book(Position("", sym, o.price, o.qty, Buy)) == OrderValue(o)
  {
    ValueCommutes(o);
  }

  /** entry × qty == total with a positive quantity makes entry the average. */
  lemma EntryIsAverage(p: Position, total: real)
    requires p.qty > 0 && Book(p) == total
    ensures p.entry == total / p.qty as real
  {
  }
}

=== FILE: products.dfy ===
/** The product grid of components/ProductsSection.tsx: products built from
    the translated items and four rows of base figures, filtered by risk
    profile, sorted by a chosen figure, and the card's AI-summary toggle. */
module Products {
  import opened Wrappers
  import Language

  /** A translated product item. The items carry no figures of their own;
      an override here stands for a field of the item that the spread
      `{ ...baseData, ...item }` would let win. */
  datatype Item = Item(id: int, title: string, thesis: string, riskProfile: string,
                       aum: Option<real>, vol: Option<real>, perf: Option<real>)

  /** A row of base figures: AUM in billions, volatility and performance. */
  datatype Figures = Figures(aumValue: real, volValue: real, perfValue: real)

  const BaseFigures: seq<Figures> := [
    Figures(2.4, 75.0, 12.4),
    Figures(1.8, 40.0, 8.2),
    Figures(3.1, 20.0, 4.5),
    Figures(1.2, 65.0, 15.6)
  ]

  datatype Product = Product(id: int, title: string, thesis: string, riskProfile: string, figures: Figures)

  /** Item `i` over base row `i mod 4`, the item's fields winning. */
  function Build(item: Item, i: nat): (p: Product)
    ensures p.id == item.id && p.title == item.title && p.thesis == item.thesis && p.riskProfile == item.riskProfile
    ensures p.figures.aumValue == item.aum.GetOr(BaseFigures[i % 4].aumValue)
    ensures p.figures.volValue == item.vol.GetOr(BaseFigures[i % 4].volValue)
    ensures p.figures.perfValue == item.perf.GetOr(BaseFigures[i % 4].perfValue)
  {
    var base := BaseFigures[i % 4];
    Product(item.id, item.title, item.thesis, item.riskProfile,
            Figures(item.aum.GetOr(base.aumValue), item.vol.GetOr(base.volValue), item.perf.GetOr(base.perfValue)))
  }

  /** `t.productsData.map(...)`. */
  function BuildAll(items: seq<Item>): (ps: seq<Product>)
    ensures |ps| == |items|
    ensures forall i :: 0 <= i < |items| ==> ps[i] == Build(items[i], i)
  {
    seq(|items|, i requires 0 <= i < |items| => Build(items[i], i))
  }

  /** Items without overrides repeat the base rows every four products. */
  lemma BaseRowsRepeat(items: seq<Item>, i: int)
    requires 0 <= i && i + 4 < |items|
    requires items[i].aum.None? && items[i].vol.None? && items[i].perf.None?
    requires items[i + 4].aum.None? && items[i + 4].vol.None? && items[i + 4].perf.None?
    ensures BuildAll(items)[i].figures == BuildAll(items)[i + 4].figures
  {
    assert (i + 4) % 4 == i % 4;
  }

  // ---- Risk filter ----

  /** Keeps the products the risk filter lets through: 'All' keeps every
      product, any other value those whose profile is that exact string. */
  function RiskFilter(ps: seq<Product>, risk: string): (r: seq<Product>)
    ensures |r| <= |ps|
    ensures forall p :: p in r <==> p in ps && (risk == "All" || p.riskProfile == risk)
    ensures risk == "All" ==> r == ps
    decreases |ps|
  {
    if |ps| == 0 then []
    else
      var rest := RiskFilter(ps[1..], risk);
      assert ps == [ps[0]] + ps[1..];
      if risk == "All" || ps[0].riskProfile == risk then [ps[0]] + rest else rest
  }

  // ---- Sorting ----

  datatype SortBy = ByAum | ByPerformance | ByVolatility

  function Key(p: Product, order: SortBy): real {
    match order
    case ByAum => p.figures.aumValue
    case ByPerformance => p.figures.perfValue
    case ByVolatility => p.figures.volValue
  }

  ghost predicate Descending(s: seq<Product>, order: SortBy) {
    forall i, j :: 0 <= i < j < |s| ==> Key(s[i], order) >= Key(s[j], order)
  }

  /** Places `p` before the first product whose key is not larger. */
  function Insert(p: Product, s: seq<Product>, order: SortBy): (r: seq<Product>)
    ensures multiset(r) == multiset(s) + multiset{p}
    ensures Descending(s, order) ==> Descending(r, order)
    decreases |s|
  {
    if |s| == 0 then [p]
    else if Key(s[0], order) <= Key(p, order) then
      FrontKeepsDescending(p, s, order);
      [p] + s
    else
      var rest := Insert(p, s[1..], order);
      assert s == [s[0]] + s[1..];
      HeadKeepsDescending(p, s, rest, order);
      [s[0]] + rest
  }

  lemma FrontKeepsDescending(p: Product, s: seq<Product>, order: SortBy)
    requires |s| > 0 && Key(s[0], order) <= Key(p, order)
    ensures Descending(s, order) ==> Descending([p] + s, order)
  {
    if Descending(s, order) {
      var r := [p] + s;
      forall i, j | 0 <= i < j < |r| ensures Key(r[i], order) >= Key(r[j], order) {
        if i == 0 {
          assert r[j] == s[j - 1];
          assert Key(s[0], order) >= Key(s[j - 1], order);
        } else {
          assert r[i] == s[i - 1] && r[j] == s[j - 1];
        }
      }
    }
  }

  lemma HeadKeepsDescending(p: Product, s: seq<Product>, rest: seq<Product>, order: SortBy)
    requires |s| > 0 && Key(s[0], order) > Key(p, order)
    requires multiset(rest) == multiset(s[1..]) + multiset{p}
    requires Descending(s[1..], order) ==> Descending(rest, order)
    ensures Descending(s, order) ==> Descending([s[0]] + rest, order)
  {
    if Descending(s, order) {
      assert s == [s[0]] + s[1..];
      var r := [s[0]] + rest;
      forall i, j | 0 <= i < j < |r| ensures Key(r[i], order) >= Key(r[j], order) {
        if i == 0 {
          var e := r[j];
          assert e == rest[j - 1];
          assert e in multiset(rest);
          if e != p {
            assert e in multiset(s[1..]);
            var k :| 0 <= k < |s[1..]| && s[1..][k] == e;
            assert s[k + 1] == e;
          }
        } else {
          assert r[i] == rest[i - 1] && r[j] == rest[j - 1];
        }
      }
    }
  }

  /** `result.sort((a, b) => b.x - a.x)`: descending by the chosen figure,
      holding exactly the same products. */
  function Sort(s: seq<Product>, order: SortBy): (r: seq<Product>)
    ensures Descending(r, order)
    ensures multiset(r) == multiset(s)
    decreases |s|
  {
    if |s| == 0 then []
    else
      assert s == [s[0]] + s[1..];
      Insert(s[0], Sort(s[1..], order), order)
  }

  /** `filteredAndSortedProducts`. */
  function Shown(ps: seq<Product>, risk: string, order: SortBy): (r: seq<Product>)
    ensures Descending(r, order)
    ensures multiset(r) == multiset(RiskFilter(ps, risk))
    ensures forall p :: p in r <==> p in ps && (risk == "All" || p.riskProfile == risk)
  {
    var r := Sort(RiskFilter(ps, risk), order);
    assert forall p :: p in r <==> p in multiset(r);
    r
  }

  /** A product shown is never shown twice unless it was listed twice. */
  lemma ShownNoDuplicates(ps: seq<Product>, risk: string, order: SortBy, p: Product)
    ensures multiset(Shown(ps, risk, order))[p] <= multiset(ps)[p]
  {
    FilterCount(ps, risk, p);
  }

  lemma {:induction false} FilterCount(ps: seq<Product>, risk: string, p: Product)
    ensures multiset(RiskFilter(ps, risk))[p] <= multiset(ps)[p]
    decreases |ps|
  {
    if |ps| > 0 {
      FilterCount(ps[1..], risk, p);
      assert ps == [ps[0]] + ps[1..];
    }
  }

  // ---- Risk labels per language ----

  /** The risk profiles of the four products as the translation table
      spells them in each language. */
  function RiskLabels(lang: Language.Lang): seq<string> {
    match lang
    case En => ["High", "Medium", "Low", "High"]
    case Vn => ["Cao", "Trung bình", "Thấp", "Cao"]
    case Zh => ["高", "中", "低", "高"]
  }

  /** The four products in a language, with their translated risk labels. */
  function Catalogue(lang: Language.Lang): (ps: seq<Product>)
    ensures |ps| == 4
    ensures forall i :: 0 <= i < 4 ==> ps[i].id == i + 1 && ps[i].riskProfile == RiskLabels(lang)[i]
  {
    var labels := RiskLabels(lang);
    BuildAll(seq(4, i requires 0 <= i < 4 => Item(i + 1, "", "", labels[i], None, None, None)))
  }

  /** No product carries the label: the filter keeps nothing. */
  lemma NoLabelNoProducts(ps: seq<Product>, risk: string)
    requires risk != "All"
    requires forall i :: 0 <= i < |ps| ==> ps[i].riskProfile != risk
    ensures RiskFilter(ps, risk) == []
  {
  }

  lemma EnglishHighKeepsTwo()
    ensures RiskFilter(Catalogue(Language.En), "High") == [Catalogue(Language.En)[0], Catalogue(Language.En)[3]]
  {
    var e := Catalogue(Language.En);
    assert e[3..][1..] == [];
    assert RiskFilter(e[3..], "High") == [e[3]];
    assert e[2..][1..] == e[3..];
    assert RiskFilter(e[2..], "High") == [e[3]];
    assert e[1..][1..] == e[2..];
    assert RiskFilter(e[1..], "High") == [e[3]];
  }

  /** The filter buttons are the English words 'High', 'Medium' and 'Low',
      so in Vietnamese (the default language) and Chinese every button but
      'All' empties the grid, though in English 'High' keeps two products. */
  lemma RiskButtonsMatchOnlyEnglish()
    ensures |RiskFilter(Catalogue(Language.En), "High")| == 2
    ensures RiskFilter(Catalogue(Language.Vn), "High") == []
    ensures RiskFilter(Catalogue(Language.Zh), "Low") == []
  {
    EnglishHighKeepsTwo();
    VietnameseHighKeepsNone();
    ChineseLowKeepsNone();
  }

  lemma VietnameseHighKeepsNone()
    ensures RiskFilter(Catalogue(Language.Vn), "High") == []
  {
    var l := RiskLabels(Language.Vn);
    assert forall i :: 0 <= i < 4 ==> l[i] != "High";
    NoLabelNoProducts(Catalogue(Language.Vn), "High");
  }

  lemma ChineseLowKeepsNone()
    ensures RiskFilter(Catalogue(Language.Zh), "Low") == []
  {
    var l := RiskLabels(Language.Zh);
    assert forall i :: 0 <= i < 4 ==> l[i] != "Low";
    NoLabelNoProducts(Catalogue(Language.Zh), "Low");
  }

  /** The risk level a label stands for, in any of the three languages. */
  datatype Level = HighRisk | MediumRisk | LowRisk | Unknown

  function LevelOf(name: string): (l: Level)
    ensures l == HighRisk <==> name in {"High", "Cao", "高"}
    ensures l == MediumRisk <==> name in {"Medium", "Trung bình", "中"}
    ensures l == LowRisk <==> name in {"Low", "Thấp", "低"}
  {
    if name in {"High", "Cao", "高"} then HighRisk
    else if name in {"Medium", "Trung bình", "中"} then MediumRisk
    else if name in {"Low", "Thấp", "低"} then LowRisk
    else Unknown
  }

  /** The intended filter: a button keeps the products whose
      label, in whatever language, stands for the button's level. */
  function LevelFilter(ps: seq<Product>, risk: string): (r: seq<Product>)
    ensures forall p :: p in r <==> p in ps && (risk == "All" || LevelOf(p.riskProfile) == LevelOf(risk))
    decreases |ps|
  {
    if |ps| == 0 then []
    else
      var rest := LevelFilter(ps[1..], risk);
      assert ps == [ps[0]] + ps[1..];
      if risk == "All" || LevelOf(ps[0].riskProfile) == LevelOf(risk) then [ps[0]] + rest else rest
  }

  /** The ids a filtered grid shows. */
  function Ids(ps: seq<Product>): (ids: seq<int>)
    ensures |ids| == |ps|
    ensures forall i :: 0 <= i < |ps| ==> ids[i] == ps[i].id
  {
    seq(|ps|, i requires 0 <= i < |ps| => ps[i].id)
  }

  /** With the intended filter every button shows the same products in
      every language, and in English it agrees with the filter as written. */
  lemma LevelFilterIgnoresLanguage(lang: Language.Lang, risk: string)
    requires risk in {"All", "High", "Medium", "Low"}
    ensures Ids(LevelFilter(Catalogue(lang), risk)) == Ids(LevelFilter(Catalogue(Language.En), risk))
    ensures LevelFilter(Catalogue(Language.En), risk) == RiskFilter(Catalogue(Language.En), risk)
  {
    var c, e := Catalogue(lang), Catalogue(Language.En);
    SameLevels(lang);
    LevelFilterIds(c, e, risk);
    EnglishLabels();
    EnglishLevelsAgree(e, risk);
  }

  /** Each product's label stands for the same level in every language. */
  lemma SameLevels(lang: Language.Lang)
    ensures forall i :: 0 <= i < 4 ==>
              LevelOf(Catalogue(lang)[i].riskProfile) == LevelOf(Catalogue(Language.En)[i].riskProfile)
              && Catalogue(lang)[i].id == Catalogue(Language.En)[i].id
  {
    var l, e := RiskLabels(lang), RiskLabels(Language.En);
    assert LevelOf(l[0]) == LevelOf(e[0]) == HighRisk;
    assert LevelOf(l[1]) == LevelOf(e[1]) == MediumRisk;
    assert LevelOf(l[2]) == LevelOf(e[2]) == LowRisk;
    assert LevelOf(l[3]) == LevelOf(e[3]) == HighRisk;
  }

  lemma EnglishLabels()
    ensures forall i :: 0 <= i < |Catalogue(Language.En)| ==> Catalogue(Language.En)[i].riskProfile in {"High", "Medium", "Low"}
  {
    var e := RiskLabels(Language.En);
    assert forall i :: 0 <= i < 4 ==> e[i] in {"High", "Medium", "Low"};
  }

  lemma {:induction false} LevelFilterIds(c: seq<Product>, e: seq<Product>, risk: string)
    requires |c| == |e|
    requires forall i :: 0 <= i < |c| ==> LevelOf(c[i].riskProfile) == LevelOf(e[i].riskProfile) && c[i].id == e[i].id
    ensures Ids(LevelFilter(c, risk)) == Ids(LevelFilter(e, risk))
    decreases |c|
  {
    if |c| > 0 {
      LevelFilterIds(c[1..], e[1..], risk);
      var rc, re := LevelFilter(c[1..], risk), LevelFilter(e[1..], risk);
      var keep := risk == "All" || LevelOf(c[0].riskProfile) == LevelOf(risk);
      assert keep <==> risk == "All" || LevelOf(e[0].riskProfile) == LevelOf(risk);
      assert LevelFilter(c, risk) == if keep then [c[0]] + rc else rc;
      assert LevelFilter(e, risk) == if keep then [e[0]] + re else re;
      IdsCons(c[0], rc);
      IdsCons(e[0], re);
    }
  }

  lemma IdsCons(p: Product, r: seq<Product>)
    ensures Ids([p] + r) == [p.id] + Ids(r)
  {
    var a, b := Ids([p] + r), [p.id] + Ids(r);
    assert |a| == |b|;
    forall i | 0 <= i < |a| ensures a[i] == b[i] {
      if i > 0 {
        assert ([p] + r)[i] == r[i - 1];
      }
    }
  }

  lemma {:induction false} EnglishLevelsAgree(e: seq<Product>, risk: string)
    requires risk in {"All", "High", "Medium", "Low"}
    requires forall i :: 0 <= i < |e| ==> e[i].riskProfile in {"High", "Medium", "Low"}
    ensures LevelFilter(e, risk) == RiskFilter(e, risk)
    decreases |e|
  {
    if |e| > 0 {
      EnglishLevelsAgree(e[1..], risk);
    }
  }

  // ---- The card's AI summary ----

  /** A card: whether the summary is shown and the summary loaded, if any. */
  datatype Card = Card(showSummary: bool, summary: Option<string>)

  /** Whether the card holds a truthy summary. */
  predicate Loaded(c: Card) {
    c.summary.Some? && c.summary.value != ""
  }

  /** A click's new card and whether it asked for a summary. */
  datatype Clicked = Clicked(card: Card, requested: bool)

  /** `handleAiClick`: fetch only when the summary is hidden and nothing is
      loaded (a failure stores "Analysis unavailable."), then toggle. The
      answer is the service's reply, None when it threw. */
  function AiClick(c: Card, answer: Option<string>): (r: Clicked)
    ensures r.requested <==> !c.showSummary && !Loaded(c)
    ensures r.card.showSummary == !c.showSummary
    ensures r.requested ==> r.card.summary == Some(answer.GetOr("Analysis unavailable."))
    ensures !r.requested ==> r.card.summary == c.summary
  {
    if !c.showSummary && !Loaded(c) then
      Clicked(Card(true, Some(answer.GetOr("Analysis unavailable."))), true)
    else Clicked(c.(showSummary := !c.showSummary), false)
  }

  /** Clicking in turn with the given answers: the last card and the
      number of requests made. */
  function Clicks(c: Card, answers: seq<Option<string>>): (Card, nat)
    decreases |answers|
  {
    if |answers| == 0 then (c, 0)
    else
      var r := AiClick(c, answers[0]);
      var (last, n) := Clicks(r.card, answers[1..]);
      (last, n + if r.requested then 1 else 0)
  }

  /** Once a summary is loaded, no click asks again and it stays. */
  lemma {:induction false} LoadedStays(c: Card, answers: seq<Option<string>>)
    requires Loaded(c)
    ensures Clicks(c, answers).1 == 0 && Clicks(c, answers).0.summary == c.summary
    decreases |answers|
  {
    if |answers| > 0 {
      LoadedStays(AiClick(c, answers[0]).card, answers[1..]);
    }
  }

  /** With non-empty answers, a card asks for its summary at most once,
      however often it is clicked. */
  lemma {:induction false} SummaryRequestedOnce(c: Card, answers: seq<Option<string>>)
    requires forall i :: 0 <= i < |answers| ==> answers[i] != Some("")
    ensures Clicks(c, answers).1 <= 1
    decreases |answers|
  {
    if |answers| > 0 {
      var r := AiClick(c, answers[0]);
      if r.requested {
        LoadedStays(r.card, answers[1..]);
      } else {
        SummaryRequestedOnce(r.card, answers[1..]);
      }
    }
  }
}

=== FILE: retry.dfy ===
/** Error classification and the retry wrapper of services/geminiService.ts.
    The provider (`fn`) is a function from the attempt number to its outcome
    and how long it took; the global `rateLimitCooldownUntil` is threaded
    through as a value; the `setTimeout` wait is taken to last exactly
    `delay` milliseconds. */
module Retry {
  import opened Wrappers
  import opened Text

  /** A thrown value's `message`: absent or falsy, a string, or some other
      truthy value (with what `toString` gives for it). */
  datatype Message = NoMessage | Str(s: string) | Other(shown: string)

  /** The parts of a thrown value the classifiers read; a `status` or `code`
      that is not a number is `None`. */
  datatype ErrorInfo = ErrorInfo(message: Message, status: Option<int>, code: Option<int>)

  /** `new Error(text)`. */
  function Error(text: string): ErrorInfo {
    ErrorInfo(Str(text), None, None)
  }

  /** The error `withRetry` throws during the cooldown. */
  const QuotaCooldown: ErrorInfo := Error("QUOTA_COOLDOWN")

  /** The milliseconds a rate-limit error blocks further calls for. */
  const CooldownMs: int := 10000

  /** `isRateLimitError`. */
  predicate IsRateLimit(e: ErrorInfo) {
    || e.message == Str("QUOTA_COOLDOWN")
    || e.status == Some(429)
    || e.code == Some(429)
    || (e.message.Str? && (Contains(e.message.s, "429") || Contains(e.message.s, "quota")
                           || Contains(e.message.s, "resource_exhausted")))
  }

  /** `(error?.message || '').toString()`. */
  function MessageText(e: ErrorInfo): string {
    match e.message
    case NoMessage => ""
    case Str(s) => s
    case Other(shown) => shown
  }

  /** `isInvalidKeyError`. */
  predicate IsInvalidKey(e: ErrorInfo) {
    var msg := MessageText(e);
    || Contains(msg, "API key not valid")
    || Contains(msg, "API_KEY_INVALID")
    || (e.status == Some(400) && Contains(msg, "API key"))
  }

  /** What makes an error a rate limit: a 429 in `status` or `code`, or a
      string message with "429", "quota" or "resource_exhausted" in it. A
      message that is not a string is never searched, and the search is
      case-sensitive, so "RESOURCE_EXHAUSTED" alone does not count. */
  lemma RateLimitSignals(e: ErrorInfo, text: string)
    ensures e.status == Some(429) || e.code == Some(429) ==> IsRateLimit(e)
    ensures Contains(text, "quota") ==> IsRateLimit(Error(text))
    ensures !e.message.Str? ==> (IsRateLimit(e) <==> e.status == Some(429) || e.code == Some(429))
    ensures !IsRateLimit(Error("RESOURCE_EXHAUSTED"))
  {
    var m := "RESOURCE_EXHAUSTED";
    NotContainsChar(m, "429", '4');
    NotContainsChar(m, "quota", 'q');
    NotContainsChar(m, "resource_exhausted", 'r');
  }

  /** What makes an error an invalid key: "API key not valid" or
      "API_KEY_INVALID" in the message text, whatever the status, or a bare
      "API key" under status 400 only. Unlike the rate-limit test, the text
      of a non-string message is read too. */
  lemma InvalidKeySignals(e: ErrorInfo)
    ensures Contains(MessageText(e), "API_KEY_INVALID") ==> IsInvalidKey(e)
    ensures e.status == Some(400) && Contains(MessageText(e), "API key") ==> IsInvalidKey(e)
    ensures IsInvalidKey(ErrorInfo(Other("API_KEY_INVALID"), None, None))
    ensures !IsInvalidKey(ErrorInfo(Str("API key expired"), Some(403), None))
  {
    assert OccursAt("API_KEY_INVALID", "API_KEY_INVALID", 0);
    var m := "API key expired";
    NotContainsChar(m, "API key not valid", 'n');
    NotContainsChar(m, "API_KEY_INVALID", '_');
  }

  /** The error thrown during the cooldown is itself a rate-limit error, and
      not an invalid-key one. */
  lemma CooldownErrorClassified()
    ensures IsRateLimit(QuotaCooldown)
    ensures !IsInvalidKey(QuotaCooldown)
  {
    assert !Contains("QUOTA_COOLDOWN", "API key") by { NotContainsChar("QUOTA_COOLDOWN", "API key", ' '); }
    assert !Contains("QUOTA_COOLDOWN", "API_KEY_INVALID") by {
      NotContainsChar("QUOTA_COOLDOWN", "API_KEY_INVALID", 'P');
    }
    assert !Contains("QUOTA_COOLDOWN", "API key not valid") by {
      NotContainsChar("QUOTA_COOLDOWN", "API key not valid", ' ');
    }
  }

  /** Every invalid-key error names the key: its message mentions "API key"
      or "API_KEY_INVALID". */
  lemma InvalidKeyMentionsKey(e: ErrorInfo)
    ensures IsInvalidKey(e) ==> Contains(MessageText(e), "API key") || Contains(MessageText(e), "API_KEY_INVALID")
  {
    var msg := MessageText(e);
    if Contains(msg, "API key not valid") {
      assert OccursAt("API key not valid", "API key", 0);
      ContainsTransitive(msg, "API key not valid", "API key");
    }
  }

  /** What a provider call produced. */
  datatype Outcome<D> = Success(data: D) | Failure(error: ErrorInfo)

  /** A provider call's outcome and how many milliseconds it took. */
  datatype Response<D> = Response(outcome: Outcome<D>, latency: nat)

  /** What `withRetry` returned or threw. */
  datatype Attempt<D> = Value(data: D) | Thrown(error: ErrorInfo)

  /** One run of `withRetry`: its result, the cooldown it leaves behind, the
      number of provider calls made, the number of `upbot-invalid-api-key`
      events dispatched, and the time it settled. */
  datatype Run<D> = Run(result: Attempt<D>, cooldownUntil: int, calls: nat, keyEvents: nat, end: int)

  /** `withRetry(fn, retries, delay)` started at `now` with the cooldown at
      `cooldownUntil`; `attempt` numbers the provider calls made so far. */
  function WithRetry<D>(now: int, cooldownUntil: int, provider: nat -> Response<D>,
                        attempt: nat, retries: nat, delay: nat): (r: Run<D>)
    ensures now < cooldownUntil ==> r == Run(Thrown(QuotaCooldown), cooldownUntil, 0, 0, now)
    ensures r.calls <= retries + 1
    ensures r.keyEvents <= 1 && (r.keyEvents == 1 ==> r.result.Thrown? && IsInvalidKey(r.result.error))
    ensures r.result.Value? ==> r.calls >= 1
    ensures r.cooldownUntil == cooldownUntil || r.cooldownUntil >= now + CooldownMs
    ensures r.end >= now
    decreases retries
  {
    if now < cooldownUntil then Run(Thrown(QuotaCooldown), cooldownUntil, 0, 0, now)
    else
      var resp := provider(attempt);
      var t := now + resp.latency;
      match resp.outcome
      case Success(d) => Run(Value(d), cooldownUntil, 1, 0, t)
      case Failure(e) =>
        if IsInvalidKey(e) then Run(Thrown(e), cooldownUntil, 1, 1, t)
        else if IsRateLimit(e) then
          var cd := t + CooldownMs;
          if retries > 0 then
            var rest := WithRetry(t + delay, cd, provider, attempt + 1, retries - 1, delay * 2);
            rest.(calls := rest.calls + 1)
          else Run(Thrown(e), cd, 1, 0, t)
        else Run(Thrown(e), cooldownUntil, 1, 0, t)
  }

  /** The first provider call decides: success returns its data; an invalid
      key is rethrown with one event and the cooldown untouched; any other
      error that is not a rate limit is rethrown without retry. */
  lemma FirstCallOutcome<D>(now: int, cooldownUntil: int, provider: nat -> Response<D>,
                            attempt: nat, retries: nat, delay: nat)
    requires cooldownUntil <= now
    ensures var r := WithRetry(now, cooldownUntil, provider, attempt, retries, delay);
            var resp := provider(attempt);
            && (resp.outcome.Success? ==>
                  r == Run(Value(resp.outcome.data), cooldownUntil, 1, 0, now + resp.latency))
            && (resp.outcome.Failure? && IsInvalidKey(resp.outcome.error) ==>
                  r == Run(Thrown(resp.outcome.error), cooldownUntil, 1, 1, now + resp.latency))
            && (resp.outcome.Failure? && !IsInvalidKey(resp.outcome.error) && !IsRateLimit(resp.outcome.error) ==>
                  r == Run(Thrown(resp.outcome.error), cooldownUntil, 1, 0, now + resp.latency))
  {
  }

  /** A rate-limit error sets the cooldown to ten seconds after it arrived. */
  lemma RateLimitStartsCooldown<D>(now: int, cooldownUntil: int, provider: nat -> Response<D>,
                                   attempt: nat, delay: nat)
    requires cooldownUntil <= now
    requires provider(attempt).outcome.Failure?
    requires var e := provider(attempt).outcome.error; IsRateLimit(e) && !IsInvalidKey(e)
    ensures var r := WithRetry(now, cooldownUntil, provider, attempt, 0, delay);
            r == Run(Thrown(provider(attempt).outcome.error), now + provider(attempt).latency + CooldownMs,
                     1, 0, now + provider(attempt).latency)
  {
  }

  /** While the retry wait is shorter than the cooldown, the retry always
      hits the cooldown: the provider is called at most once, whatever the
      retry budget, and a rate-limited call that had retries left ends in
      `QUOTA_COOLDOWN`. */
  lemma {:induction false} RetryNeverOutlastsCooldown<D>(now: int, cooldownUntil: int, provider: nat -> Response<D>,
                                                         attempt: nat, retries: nat, delay: nat)
    requires delay < CooldownMs
    ensures var r := WithRetry(now, cooldownUntil, provider, attempt, retries, delay);
            && r.calls <= 1
            && (cooldownUntil <= now && retries > 0 && provider(attempt).outcome.Failure?
                && IsRateLimit(provider(attempt).outcome.error) && !IsInvalidKey(provider(attempt).outcome.error)
                ==> r.result == Thrown(QuotaCooldown) && r.calls == 1)
  {
    if cooldownUntil <= now && provider(attempt).outcome.Failure? {
      var e := provider(attempt).outcome.error;
      var t := now + provider(attempt).latency;
      if !IsInvalidKey(e) && IsRateLimit(e) && retries > 0 {
        var rest := WithRetry(t + delay, t + CooldownMs, provider, attempt + 1, retries - 1, delay * 2);
        assert rest.calls == 0 && rest.result == Thrown(QuotaCooldown);
      }
    }
  }

  /** With the defaults (one retry after 2000 ms), a rate-limited first call
      is the only provider call and the caller sees `QUOTA_COOLDOWN`. */
  lemma DefaultRetryFailsFast<D>(now: int, cooldownUntil: int, provider: nat -> Response<D>)
    requires cooldownUntil <= now
    requires provider(0).outcome.Failure?
    requires IsRateLimit(provider(0).outcome.error) && !IsInvalidKey(provider(0).outcome.error)
    ensures var r := WithRetry(now, cooldownUntil, provider, 0, 1, 2000);
            r.result == Thrown(QuotaCooldown) && r.calls == 1
            && r.cooldownUntil == now + provider(0).latency + CooldownMs
  {
    RetryNeverOutlastsCooldown(now, cooldownUntil, provider, 0, 1, 2000);
  }

  /** A wait of at least the cooldown does reach the provider again: a
      rate-limited call followed by a success returns that success. */
  lemma LongWaitRetries<D>(now: int, cooldownUntil: int, provider: nat -> Response<D>, delay: nat)
    requires cooldownUntil <= now && delay >= CooldownMs
    requires provider(0).outcome.Failure?
    requires IsRateLimit(provider(0).outcome.error) && !IsInvalidKey(provider(0).outcome.error)
    requires provider(1).outcome.Success?
    ensures var r := WithRetry(now, cooldownUntil, provider, 0, 1, delay);
            r.result == Value(provider(1).outcome.data) && r.calls == 2
  {
  }
}

=== FILE: sentiment.dfy ===
/** Reading the sentiment tag out of a symbol analysis (getSymbolAnalysis in
    services/geminiService.ts): the first `[Bullish]`, `[Bearish]`,
    `[Neutral]`, `[Tích cực]`, `[Tiêu cực]` or `[Trung lập]`, in any letter
    case, gives the sentiment and is cut out of the text. */
module Sentiment {
  import opened Wrappers
  import opened Text

  /** The alternatives of the tag pattern, in the pattern's order. */
  const Tags: seq<string> := ["Bullish", "Bearish", "Neutral", "Tích cực", "Tiêu cực", "Trung lập"]

  /** The English sentiment each tag stands for. */
  const English: seq<string> := ["Bullish", "Bearish", "Neutral", "Bullish", "Bearish", "Neutral"]

  /** The case folding of a case-insensitive, non-Unicode pattern, for the
      letters that can meet a tag letter: ASCII letters and í, ự, ê, ậ map
      to their upper case; everything else is kept. */
  function Fold(c: char): (d: char)
    ensures 'a' <= c <= 'z' ==> 'A' <= d <= 'Z'
    ensures !('a' <= c <= 'z') && c !in "\U{00ED}\U{1EF1}\U{00EA}\U{1EAD}" ==> d == c
  {
    if 'a' <= c <= 'z' then (c as int - 32) as char
    else if c == '\U{00ED}' then '\U{00CD}'
    else if c == '\U{1EF1}' then '\U{1EF0}'
    else if c == '\U{00EA}' then '\U{00CA}'
    else if c == '\U{1EAD}' then '\U{1EAC}'
    else c
  }

  /** Equal up to letter case. */
  predicate FoldEq(a: string, b: string) {
    |a| == |b| && forall i :: 0 <= i < |a| ==> Fold(a[i]) == Fold(b[i])
  }

  /** Tag `t`, in brackets, occurs in `s` at index `i` (up to letter case). */
  predicate MatchesAt(s: string, i: int, t: int) {
    && 0 <= t < |Tags|
    && 0 <= i
    && i + |Tags[t]| + 2 <= |s|
    && s[i] == '['
    && FoldEq(s[i + 1..i + 1 + |Tags[t]|], Tags[t])
    && s[i + 1 + |Tags[t]|] == ']'
  }

  /** A match of the pattern: where it starts and which alternative it took. */
  datatype Match = Match(at: nat, tag: nat)

  /** The first alternative from `t` on that matches at `i`. */
  function TagAt(s: string, i: nat, t: nat): (r: Option<nat>)
    requires t <= |Tags|
    ensures r.Some? ==> t <= r.value && MatchesAt(s, i, r.value)
    ensures r.Some? ==> forall u :: t <= u < r.value ==> !MatchesAt(s, i, u)
    ensures r.None? ==> forall u :: t <= u ==> !MatchesAt(s, i, u)
    decreases |Tags| - t
  {
    if t == |Tags| then None
    else if MatchesAt(s, i, t) then Some(t)
    else TagAt(s, i, t + 1)
  }

  /** The leftmost match at or after index `k`, knowing there is none before. */
  function SearchFrom(s: string, k: nat): (r: Option<Match>)
    requires forall j, t :: 0 <= j < k ==> !MatchesAt(s, j, t)
    ensures r.Some? ==> k <= r.value.at && MatchesAt(s, r.value.at, r.value.tag)
    ensures r.Some? ==> forall j, t :: 0 <= j < r.value.at ==> !MatchesAt(s, j, t)
    ensures r.Some? ==> forall t :: 0 <= t < r.value.tag ==> !MatchesAt(s, r.value.at, t)
    ensures r.None? ==> forall j, t :: !MatchesAt(s, j, t)
    decreases |s| - k
  {
    if k >= |s| then None
    else match TagAt(s, k, 0)
      case Some(t) => Some(Match(k, t))
      case None => SearchFrom(s, k + 1)
  }

  /** `content.match(/\[(Bullish|…|Trung lập)\]/i)`. */
  function Find(s: string): (r: Option<Match>)
    ensures r.Some? ==> MatchesAt(s, r.value.at, r.value.tag)
    ensures r.Some? ==> forall j, t :: 0 <= j < r.value.at ==> !MatchesAt(s, j, t)
    ensures r.None? <==> forall j, t :: !MatchesAt(s, j, t)
  {
    SearchFrom(s, 0)
  }

  /** `match[0]`: the bracketed tag as written in the text. */
  function Whole(s: string, m: Match): (w: string)
    requires MatchesAt(s, m.at, m.tag)
    ensures |w| == |Tags[m.tag]| + 2 && OccursAt(s, w, m.at)
  {
    s[m.at..m.at + |Tags[m.tag]| + 2]
  }

  /** `match[1]`: the tag word as written in the text. */
  function Group(s: string, m: Match): (g: string)
    requires MatchesAt(s, m.at, m.tag)
    ensures FoldEq(g, Tags[m.tag])
  {
    s[m.at + 1..m.at + 1 + |Tags[m.tag]|]
  }

  /** The three `.replace` calls that turn the Vietnamese tag words into
      English ones; like all string-pattern replaces they match exact case. */
  function Translated(g: string): string {
    ReplaceFirst(ReplaceFirst(ReplaceFirst(g, "Tích cực", "Bullish"), "Tiêu cực", "Bearish"), "Trung lập", "Neutral")
  }

  /** A sentiment and the analysis text shown beside it. */
  datatype Reading = Reading(sentiment: string, content: string)

  /** The code as written: the tag word as it appears, translated by
      exact-case replaces; the text without the tag, trimmed. */
  function ParseAsWritten(text: string): (r: Reading)
    ensures Find(text).None? ==> r == Reading("Neutral", text)
    ensures Find(text).Some? ==> r.sentiment == Translated(Group(text, Find(text).value))
  {
    match Find(text)
    case None => Reading("Neutral", text)
    case Some(m) => Reading(Translated(Group(text, m)), Trim(ReplaceFirst(text, Whole(text, m), "")))
  }

  /** The sentiment the tag stands for, whatever its letter case, and the
      text without the tag, trimmed; without a tag, `Neutral` and the text
      as is. */
  function Parse(text: string): (r: Reading)
    ensures r.sentiment in {"Bullish", "Bearish", "Neutral"}
    ensures Find(text).None? ==> r == Reading("Neutral", text)
    ensures Find(text).Some? ==> r.sentiment == English[Find(text).value.tag]
  {
    match Find(text)
    case None => Reading("Neutral", text)
    case Some(m) => Reading(English[m.tag], Trim(ReplaceFirst(text, Whole(text, m), "")))
  }

  /** An exact-case copy of the matched tag anywhere is itself a match. */
  lemma ExactCopyMatches(s: string, m: Match, j: int)
    requires MatchesAt(s, m.at, m.tag)
    ensures OccursAt(s, Whole(s, m), j) ==> MatchesAt(s, j, m.tag)
  {
    var w := Whole(s, m);
    var n := |Tags[m.tag]|;
    if OccursAt(s, w, j) {
      forall k | 0 <= k < |w| ensures s[j + k] == w[k] {
        assert s[j..j + |w|][k] == s[j + k];
      }
      forall k | 0 <= k < |w| ensures w[k] == s[m.at + k] {
      }
      assert s[j] == w[0] == '[';
      assert s[j + 1 + n] == w[1 + n] == ']';
      var g := Group(s, m);
      forall k | 0 <= k < n ensures s[j + 1..j + 1 + n][k] == g[k] {
        assert s[j + 1 + k] == w[1 + k];
      }
      assert s[j + 1..j + 1 + n] == g;
    }
  }

  /** The replace cuts out the matched tag itself: no exact copy of it comes
      earlier, since that copy would have been the leftmost match. */
  lemma RemovesTheMatch(s: string, m: Match)
    requires Find(s) == Some(m)
    ensures IndexOf(s, Whole(s, m)) == Some(m.at)
    ensures ReplaceFirst(s, Whole(s, m), "") == s[..m.at] + s[m.at + |Tags[m.tag]| + 2..]
  {
    var w := Whole(s, m);
    forall j | 0 <= j < m.at ensures !OccursAt(s, w, j) {
      ExactCopyMatches(s, m, j);
    }
    assert Contains(s, w);
  }

  /** After a tag the content is the text with the tag cut out, trimmed. */
  lemma ContentWithoutTag(s: string, m: Match)
    requires Find(s) == Some(m)
    ensures Parse(s).content == Trim(s[..m.at] + s[m.at + |Tags[m.tag]| + 2..])
    ensures ParseAsWritten(s).content == Parse(s).content
  {
    ParsedContent(s, m);
    RemovesTheMatch(s, m);
  }

  /** Both parses keep the text with its first exact copy of the matched tag
      replaced by nothing, trimmed. */
  lemma ParsedContent(s: string, m: Match)
    requires Find(s) == Some(m)
    ensures Parse(s).content == Trim(ReplaceFirst(s, Whole(s, m), ""))
    ensures ParseAsWritten(s).content == Trim(ReplaceFirst(s, Whole(s, m), ""))
  {
  }

  /** A tag written exactly as in the pattern is translated as intended, so
      the code as written and the corrected parse agree on it. */
  lemma ExactCaseTranslated(t: nat)
    requires t < |Tags|
    ensures Translated(Tags[t]) == English[t]
  {
    if t == 3 {
      TichCucTranslated();
    } else if t == 4 {
      TieuCucTranslated();
    } else if t == 5 {
      TrungLapTranslated();
    } else {
      var g := Tags[t];
      NotContainsChar(g, "Tích cực", ' ');
      NotContainsChar(g, "Tiêu cực", ' ');
      NotContainsChar(g, "Trung lập", ' ');
    }
  }

  lemma TichCucTranslated()
    ensures Translated(Tags[3]) == English[3]
  {
    var g := Tags[3];
    AtStart(g, "Tích cực");
    assert ReplaceFirst(g, "Tích cực", "Bullish") == "Bullish";
    NotContainsChar("Bullish", "Tiêu cực", ' ');
    NotContainsChar("Bullish", "Trung lập", ' ');
  }

  lemma TieuCucTranslated()
    ensures Translated(Tags[4]) == English[4]
  {
    var g := Tags[4];
    NotContainsChar(g, "Tích cực", '\U{00ED}');
    AtStart(g, "Tiêu cực");
    assert ReplaceFirst(g, "Tiêu cực", "Bearish") == "Bearish";
    NotContainsChar("Bearish", "Trung lập", ' ');
  }

  lemma TrungLapTranslated()
    ensures Translated(Tags[5]) == English[5]
  {
    var g := Tags[5];
    NotContainsChar(g, "Tích cực", '\U{00ED}');
    NotContainsChar(g, "Tiêu cực", '\U{00EA}');
    AtStart(g, "Trung lập");
    assert ReplaceFirst(g, "Trung lập", "Neutral") == "Neutral";
  }

  /** A pattern at the very start is the one `indexOf` finds. */
  lemma AtStart(s: string, pat: string)
    requires OccursAt(s, pat, 0)
    ensures IndexOf(s, pat) == Some(0)
  {
    assert Contains(s, pat);
  }

  /** `[bullish]` matches the first alternative at the start. */
  lemma LowerCaseBullishFound()
    ensures Find("[bullish]") == Some(Match(0, 0))
  {
    var s := "[bullish]";
    assert s[1..8] == "bullish";
    assert FoldEq("bullish", Tags[0]);
    assert MatchesAt(s, 0, 0);
  }

  /** A lower-case tag is recognised but, as written, keeps its lower-case
      spelling, which the trading views' `includes('Bullish')` colouring
      does not recognise; the corrected parse reports `Bullish`. */
  lemma LowerCaseTagKeepsSpelling()
    ensures ParseAsWritten("[bullish]").sentiment == "bullish"
    ensures !Contains("bullish", "Bullish")
    ensures Parse("[bullish]").sentiment == "Bullish"
  {
    LowerCaseBullishFound();
    assert Group("[bullish]", Match(0, 0)) == "bullish";
    LowerCaseUntranslated();
    NotContainsChar("bullish", "Bullish", 'B');
  }

  /** No Vietnamese tag word occurs in "bullish", so the replaces keep it. */
  lemma LowerCaseUntranslated()
    ensures Translated("bullish") == "bullish"
  {
    NotContainsChar("bullish", "Tích cực", ' ');
    NotContainsChar("bullish", "Tiêu cực", ' ');
    NotContainsChar("bullish", "Trung lập", ' ');
  }

  /** The two readings agree whenever the tag is written exactly as in the
      pattern, or there is none: the finding only concerns other spellings. */
  lemma ReadingsAgreeOnExactCase(text: string)
    requires Find(text).Some? ==> Group(text, Find(text).value) == Tags[Find(text).value.tag]
    ensures ParseAsWritten(text) == Parse(text)
  {
    if Find(text).Some? {
      var m := Find(text).value;
      ExactCaseTranslated(m.tag);
      ContentWithoutTag(text, m);
    }
  }
}

=== FILE: seqs.dfy ===
/** Facts about sequences that the filters of several views share. */
module Seqs {
  /** Dropping index `k` of the tail and putting the head back drops index `k`. */
  lemma DropAfterHead<T>(s: seq<T>, k: nat)
    requires 0 < k < |s|
    ensures [s[0]] + (s[1..][..k - 1] + s[1..][k..]) == s[..k] + s[k + 1..]
  {
    assert s[1..][..k - 1] == s[1..k] && s[1..][k..] == s[k + 1..];
    assert [s[0]] + s[1..k] == s[..k];
  }
}

=== FILE: services.dfy ===
/** The AI-backed operations of services/geminiService.ts: each reads the
    persistent cache, shares a request already in flight, calls the
    provider through `withRetry`, stores what it got and, when the call
    fails, falls back to the stale entry or a fixed placeholder. The
    provider, the JSON extraction and the clock are parameters. */
module Services {
  import opened Wrappers
  import opened Cache
  import opened Retry
  import Sentiment

  /** The five cached operations. */
  datatype Api = InsightSummary | LivePrices | MarketUpdate | SymbolAnalysis | ProductStrategy

  /** How long each operation serves its cached answer, in milliseconds. */
  function Ttl(api: Api): (ms: int)
    ensures 0 < ms <= DayMs
  {
    match api
    case InsightSummary => 14400000
    case LivePrices => 120000
    case MarketUpdate => 1800000
    case SymbolAnalysis => 3600000
    case ProductStrategy => 86400000
  }

  // ---- Provider replies ----

  datatype Source = Source(title: string, uri: string)

  /** A grounding chunk; only web chunks name a source. */
  datatype Chunk = Chunk(web: Option<Source>)

  /** A provider reply: its text, if any, and its grounding chunks (none
      when the reply carries no grounding metadata). */
  datatype Reply = Reply(text: Option<string>, chunks: seq<Chunk>)

  /** The sources of the web chunks, in order. */
  function WebSources(chunks: seq<Chunk>): (r: seq<Source>)
    ensures |r| <= |chunks|
    ensures forall s :: s in r <==> exists i :: 0 <= i < |chunks| && chunks[i].web == Some(s)
    decreases |chunks|
  {
    if |chunks| == 0 then []
    else
      var rest := WebSources(chunks[1..]);
      assert forall i :: 1 <= i < |chunks| ==> chunks[i] == chunks[1..][i - 1];
      match chunks[0].web
      case Some(s) => [s] + rest
      case None => rest
  }

  /** `text || fallback`: the reply text unless it is missing or empty. */
  function OrText(text: Option<string>, fallback: string): (r: string)
    ensures text.Some? && text.value != "" ==> r == text.value
    ensures text.None? || text.value == "" ==> r == fallback
  {
    if text.Some? && text.value != "" then text.value else fallback
  }

  // ---- Payloads ----

  /** One entry of the price table: a bare number, or an object with a
      price and a market-capitalisation label (either may be missing). */
  datatype ApiEntry = Num(n: real) | Quote(price: Option<real>, marketCap: Option<string>)

  /** What each operation returns and caches. */
  datatype Payload =
    | Summary(text: string)
    | Prices(prices: map<string, ApiEntry>, sources: seq<Source>)
    | Update(update: Option<string>, sources: seq<Source>)
    | Analysis(sentiment: string, content: string, sources: seq<Source>, time: string)
    | Strategy(analysis: Option<string>, analysedAt: Option<string>)

  /** JavaScript truthiness of a payload: the empty string is the only
      falsy one; all objects are truthy. */
  predicate Truthy(p: Payload) {
    !(p.Summary? && p.text == "")
  }

  /** The shape each operation returns. */
  predicate Shaped(api: Api, p: Payload) {
    match api
    case InsightSummary => p.Summary?
    case LivePrices => p.Prices?
    case MarketUpdate => p.Update?
    case SymbolAnalysis => p.Analysis?
    case ProductStrategy => p.Strategy?
  }

  /** The payload built from a successful reply. `extract` is `extractJson`
      on the price table (None for null or a falsy value); `clock` is the
      local time of day. */
  function Build(api: Api, reply: Reply, clock: string, extract: string -> Option<map<string, ApiEntry>>): (p: Payload)
    ensures Shaped(api, p) && Truthy(p)
    ensures api == InsightSummary ==> p.text == OrText(reply.text, "Summary unavailable.")
    ensures api == LivePrices ==> p.prices == extract(OrText(reply.text, "{}")).GetOr(map[])
    ensures api == MarketUpdate ==> p.update == reply.text
    ensures api == SymbolAnalysis ==>
              Sentiment.Reading(p.sentiment, p.content) == Sentiment.ParseAsWritten(OrText(reply.text, "")) && p.time == clock
    ensures api == ProductStrategy ==> p == Strategy(reply.text, Some(clock))
    ensures p.Prices? || p.Update? || p.Analysis? ==> p.sources == WebSources(reply.chunks)
  {
    match api
    case InsightSummary => Summary(OrText(reply.text, "Summary unavailable."))
    case LivePrices => Prices(extract(OrText(reply.text, "{}")).GetOr(map[]), WebSources(reply.chunks))
    case MarketUpdate => Update(reply.text, WebSources(reply.chunks))
    case SymbolAnalysis =>
      var r := Sentiment.ParseAsWritten(OrText(reply.text, ""));
      Analysis(r.sentiment, r.content, WebSources(reply.chunks), clock)
    case ProductStrategy => Strategy(reply.text, Some(clock))
  }

  /** The analysis keeps the tag as the reply spells it: "[bullish]" gives the
      sentiment "bullish". A tag spelled as in the pattern gives the same
      reading as the corrected parse, one of the three English words. */
  lemma AnalysisSentiment(reply: Reply, clock: string, extract: string -> Option<map<string, ApiEntry>>)
    ensures reply.text == Some("[bullish]") ==> Build(SymbolAnalysis, reply, clock, extract).sentiment == "bullish"
    ensures var text := OrText(reply.text, "");
            var m := Sentiment.Find(text);
            (m.Some? ==> Sentiment.Group(text, m.value) == Sentiment.Tags[m.value.tag]) ==>
              Build(SymbolAnalysis, reply, clock, extract).sentiment in {"Bullish", "Bearish", "Neutral"}
  {
    if reply.text == Some("[bullish]") {
      Sentiment.LowerCaseTagKeepsSpelling();
    }
    var text := OrText(reply.text, "");
    var m := Sentiment.Find(text);
    if m.Some? ==> Sentiment.Group(text, m.value) == Sentiment.Tags[m.value.tag] {
      Sentiment.ReadingsAgreeOnExactCase(text);
    }
  }

  // ---- Fallbacks ----

  /** `stale || placeholder`. */
  function Or(stale: Option<Payload>, placeholder: Payload): (r: Payload)
    ensures Truthy(placeholder) ==> Truthy(r)
    ensures r == placeholder || (stale.Some? && r == stale.value)
  {
    if stale.Some? && Truthy(stale.value) then stale.value else placeholder
  }

  /** The placeholder each operation falls back to. */
  function Placeholder(api: Api, rateLimited: bool): Payload {
    match api
    case InsightSummary => Summary(if rateLimited then "Summary temporarily unavailable." else "...")
    case LivePrices => Prices(map[], [])
    case MarketUpdate => Update(None, [])
    case SymbolAnalysis =>
      Analysis("Neutral",
               if rateLimited then "Analysis delayed due to traffic." else "Analysis temporarily unavailable due to connectivity.",
               [], "--:--")
    case ProductStrategy => Strategy(Some("Deep analysis unavailable."), None)
  }

  /** Whether the failure path tries the stale cache entry first. */
  predicate UsesStale(api: Api, rateLimited: bool) {
    api != ProductStrategy && (api != SymbolAnalysis || rateLimited)
  }

  /** The `catch` blocks: what a failed call returns, given whether the error
      was a rate limit and the entry the cache held when the call began. */
  function Fallback(api: Api, rateLimited: bool, stale: Option<Payload>): (p: Payload)
    ensures Truthy(p)
    ensures UsesStale(api, rateLimited) && stale.Some? && Truthy(stale.value) ==> p == stale.value
    ensures !(UsesStale(api, rateLimited) && stale.Some? && Truthy(stale.value)) ==> p == Placeholder(api, rateLimited)
    ensures (stale.Some? ==> Shaped(api, stale.value)) ==> Shaped(api, p)
  {
    match api
    case InsightSummary =>
      if rateLimited then Or(stale, Summary("Summary temporarily unavailable."))
      else Or(stale, Summary("..."))
    case LivePrices => Or(stale, Prices(map[], []))
    case MarketUpdate => Or(stale, Update(None, []))
    case SymbolAnalysis =>
      if rateLimited then Or(stale, Analysis("Neutral", "Analysis delayed due to traffic.", [], "--:--"))
      else Analysis("Neutral", "Analysis temporarily unavailable due to connectivity.", [], "--:--")
    case ProductStrategy => Strategy(Some("Deep analysis unavailable."), None)
  }

  // ---- One call ----

  /** What the caller gets: a cached answer, the promise of the request
      already in flight, or the answer of the call it made. */
  datatype Served = FromCache(data: Payload) | Joined(promise: nat) | Fetched(data: Payload)

  /** One call's result together with its effects: the storage item's new
      content (None when it was not written), the in-flight table once the
      call has settled, the cooldown, the number of provider calls and of
      invalid-key events, whether the data came from the provider, and the
      time the call settled. */
  datatype Call = Call(served: Served, storage: Option<Store<Payload>>, pending: Pending,
                       cooldownUntil: int, calls: nat, keyEvents: nat, provided: bool, end: int)

  /** The common body of the five operations, started at `now` with the
      stored cache item `saved`, the in-flight table `pending` and the global
      cooldown; `newId` names the promise if one is started. Retries use the
      defaults: one retry after 2000 ms. */
  function Fetch(api: Api, key: string, saved: Saved<Payload>, now: int, pending: Pending, newId: nat,
                 cooldownUntil: int, provider: nat -> Response<Reply>, clock: string,
                 extract: string -> Option<map<string, ApiEntry>>): (c: Call)
    ensures var view := GetPersistentCache(saved, now).view;
            && (c.served.FromCache? <==> Lookup(view, key, now, Ttl(api)).Some?)
            && (c.served.FromCache? ==> c.served.data == view[key].data)
            && (c.served.Joined? <==> Lookup(view, key, now, Ttl(api)).None? && key in pending)
            && (c.served.Joined? ==> c.served.promise == pending[key])
            && (c.served.Fetched? ==> key !in c.pending && Truthy(c.served.data))
    ensures !c.served.Fetched? ==> c.pending == pending && c.calls == 0 && c.cooldownUntil == cooldownUntil
    ensures forall k :: k != key ==> (k in c.pending <==> k in pending)
    ensures c.calls <= 1 && c.end >= now
    ensures c.provided ==> c.served.Fetched? && Shaped(api, c.served.data) && c.storage.Some?
                           && key in c.storage.value && c.storage.value[key] == Entry(c.served.data, c.end)
    ensures !c.provided ==> c.storage == GetPersistentCache(saved, now).rewrite
  {
    var read := GetPersistentCache(saved, now);
    match Lookup(read.view, key, now, Ttl(api))
    case Some(d) => Call(FromCache(d), read.rewrite, pending, cooldownUntil, 0, 0, false, now)
    case None =>
      var j := Deduplicate(pending, key, newId);
      if !j.started then Call(Joined(j.promise), read.rewrite, pending, cooldownUntil, 0, 0, false, now)
      else
        var run := WithRetry(now, cooldownUntil, provider, 0, 1, 2000);
        RetryNeverOutlastsCooldown(now, cooldownUntil, provider, 0, 1, 2000);
        var settled := Settle(j.pending, key);
        match run.result
        case Value(reply) =>
          var d := Build(api, reply, clock, extract);
          var current := if read.rewrite.Some? then Stored(read.rewrite.value) else saved;
          Call(Fetched(d), Some(SaveToPersistentCache(current, key, d, run.end)), settled,
               run.cooldownUntil, run.calls, run.keyEvents, true, run.end)
        case Thrown(e) =>
          Call(Fetched(Fallback(api, IsRateLimit(e), Stale(read.view, key))), read.rewrite, settled,
               run.cooldownUntil, run.calls, run.keyEvents, false, run.end)
  }

  /** Every operation's time-to-live is within the day the sweep keeps, so
      the sweep never removes an entry a lookup would serve. */
  lemma SweepKeepsServable(api: Api, s: Store<Payload>, key: string, now: int)
    ensures Lookup(Sweep(s, now), key, now, Ttl(api)) == Lookup(s, key, now, Ttl(api))
  {
  }

  /** A provider answer is served from the cache by the next call with the
      same key, until its time-to-live runs out. */
  lemma AnswerServedUntilExpiry(api: Api, key: string, c: Call, later: int, pending: Pending, newId: nat,
                                cooldownUntil: int, provider: nat -> Response<Reply>, clock: string,
                                extract: string -> Option<map<string, ApiEntry>>)
    requires c.provided && c.served.Fetched? && c.storage.Some? && key in c.storage.value
    requires c.storage.value[key] == Entry(c.served.data, c.end)
    requires c.end <= later < c.end + Ttl(api)
    ensures Fetch(api, key, Stored(c.storage.value), later, pending, newId, cooldownUntil, provider, clock, extract)
            == Call(FromCache(c.served.data), GetPersistentCache(Stored(c.storage.value), later).rewrite,
                    pending, cooldownUntil, 0, 0, false, later)
  {
    assert key in GetPersistentCache(Stored(c.storage.value), later).view;
  }

  /** During a cooldown, a call that finds no fresh entry and nothing in
      flight makes no provider call and returns the rate-limit fallback:
      the stale entry, if truthy, or the operation's placeholder. */
  lemma CooldownServesFallback(api: Api, key: string, saved: Saved<Payload>, now: int, pending: Pending, newId: nat,
                               cooldownUntil: int, provider: nat -> Response<Reply>, clock: string,
                               extract: string -> Option<map<string, ApiEntry>>)
    requires now < cooldownUntil
    requires Lookup(GetPersistentCache(saved, now).view, key, now, Ttl(api)).None?
    requires key !in pending
    ensures var c := Fetch(api, key, saved, now, pending, newId, cooldownUntil, provider, clock, extract);
            && c.calls == 0
            && c.served == Fetched(Fallback(api, true, Stale(GetPersistentCache(saved, now).view, key)))
            && c.cooldownUntil == cooldownUntil
            && c.pending == pending
  {
    CooldownErrorClassified();
  }

  /** When the provider fails with an error that is neither a rate limit nor
      an invalid key, a summary falls back to its stale entry or "...", and
      an analysis ignores the cache and reports a connectivity problem. */
  lemma PlainFailureFallbacks(stale: Option<Payload>)
    ensures Fallback(InsightSummary, false, stale) ==
              (if stale.Some? && Truthy(stale.value) then stale.value else Summary("..."))
    ensures Fallback(SymbolAnalysis, false, stale) ==
              Analysis("Neutral", "Analysis temporarily unavailable due to connectivity.", [], "--:--")
    ensures Fallback(ProductStrategy, true, stale) == Strategy(Some("Deep analysis unavailable."), None)
  {
  }

  // ---- Global search ----

  /** A result's link: the string the model returned, or anything else. */
  datatype Link = LinkText(s: string) | NotText

  datatype SearchResult = SearchResult(title: string, category: string, link: Link, snippet: string)

  /** A search's results, the cooldown it leaves and its provider calls. */
  datatype Search = Search(results: seq<SearchResult>, cooldownUntil: int, calls: nat)

  /** `performGlobalSearch`: no call for an empty query; otherwise the array
      extracted from the reply, and no results when there is none or the
      call fails. It neither caches nor shares requests. */
  function GlobalSearch(query: string, now: int, cooldownUntil: int, provider: nat -> Response<Reply>,
                        extract: string -> Option<seq<SearchResult>>): (r: Search)
    ensures query == "" ==> r == Search([], cooldownUntil, 0)
    ensures r.calls <= 1
    ensures r.results != [] ==> r.calls >= 1
    ensures now < cooldownUntil ==> r == Search([], cooldownUntil, 0)
    ensures query != "" && cooldownUntil <= now && provider(0).outcome.Success? ==>
              r.calls == 1 && r.results == extract(OrText(provider(0).outcome.data.text, "[]")).GetOr([])
  {
    if query == "" then Search([], cooldownUntil, 0)
    else
      var run := WithRetry(now, cooldownUntil, provider, 0, 1, 2000);
      RetryNeverOutlastsCooldown(now, cooldownUntil, provider, 0, 1, 2000);
      match run.result
      case Value(reply) => Search(extract(OrText(reply.text, "[]")).GetOr([]), run.cooldownUntil, run.calls)
      case Thrown(_) => Search([], run.cooldownUntil, run.calls)
  }
}

=== FILE: text.dfy ===
/** The few JavaScript string operations the components rely on:
    `includes`, `indexOf`, `startsWith`, `replace` with a string pattern,
    `trim` and `toLowerCase`. Strings are sequences of characters; there is
    no Unicode normalisation. */
module Text {
  import opened Wrappers

  /** `pat` occurs in `s` starting at index `i`. */
  predicate OccursAt(s: string, pat: string, i: int) {
    0 <= i && i + |pat| <= |s| && s[i..i + |pat|] == pat
  }

  /** JavaScript's `s.includes(pat)`. */
  predicate Contains(s: string, pat: string) {
    exists i :: 0 <= i <= |s| && OccursAt(s, pat, i)
  }

  /** JavaScript's `s.startsWith(p)`. */
  predicate StartsWith(s: string, p: string) {
    OccursAt(s, p, 0)
  }

  /** The first index at or after `k` where `pat` occurs, knowing it does not
      occur before `k`. */
  function IndexFrom(s: string, pat: string, k: nat): (r: Option<nat>)
    requires forall j :: 0 <= j < k ==> !OccursAt(s, pat, j)
    ensures r.Some? ==> k <= r.value && OccursAt(s, pat, r.value)
    ensures r.Some? ==> forall j :: 0 <= j < r.value ==> !OccursAt(s, pat, j)
    ensures r.None? ==> forall j :: !OccursAt(s, pat, j)
    decreases |s| - k
  {
    if k + |pat| > |s| then None
    else if s[k..k + |pat|] == pat then Some(k)
    else IndexFrom(s, pat, k + 1)
  }

  /** JavaScript's `s.indexOf(pat)`, with `None` for -1: the leftmost occurrence. */
  function IndexOf(s: string, pat: string): (r: Option<nat>)
    ensures r.Some? ==> OccursAt(s, pat, r.value)
    ensures r.Some? ==> forall j :: 0 <= j < r.value ==> !OccursAt(s, pat, j)
    ensures r.None? <==> !Contains(s, pat)
  {
    IndexFrom(s, pat, 0)
  }

  /** JavaScript's `s.replace(pat, rep)` for a string pattern: only the first
      occurrence is replaced, and `s` is returned as is when there is none. */
  function ReplaceFirst(s: string, pat: string, rep: string): (r: string)
    ensures !Contains(s, pat) ==> r == s
    ensures Contains(s, pat) ==>
              var i := IndexOf(s, pat).value;
              i + |pat| <= |s| && r == s[..i] + rep + s[i + |pat|..]
  {
    match IndexOf(s, pat)
    case None => s
    case Some(i) => s[..i] + rep + s[i + |pat|..]
  }

  /** A pattern with a character the text lacks does not occur in it. */
  lemma NotContainsChar(s: string, pat: string, c: char)
    requires c in pat && c !in s
    ensures !Contains(s, pat)
  {
    var j :| 0 <= j < |pat| && pat[j] == c;
    forall i | 0 <= i <= |s| ensures !OccursAt(s, pat, i) {
      if i + |pat| <= |s| {
        assert s[i..i + |pat|][j] == s[i + j];
        assert s[i + j] in s;
      }
    }
  }

  /** A pattern occurring in a text occurs wherever that text does. */
  lemma ContainsTransitive(s: string, mid: string, pat: string)
    requires Contains(s, mid) && Contains(mid, pat)
    ensures Contains(s, pat)
  {
    var i :| 0 <= i <= |s| && OccursAt(s, mid, i);
    var j :| 0 <= j <= |mid| && OccursAt(mid, pat, j);
    forall k | 0 <= k < |pat| ensures s[i + j + k] == pat[k] {
      assert s[i..i + |mid|][j + k] == mid[j + k];
      assert mid[j..j + |pat|][k] == pat[k];
    }
    assert s[i + j..i + j + |pat|] == pat;
    assert OccursAt(s, pat, i + j);
  }

  /** The characters `String.prototype.trim` removes: ECMAScript WhiteSpace
      (including every space separator) and LineTerminator. */
  predicate IsWhitespace(c: char) {
    || c == '\t' || c == '\n' || c == '\U{000B}' || c == '\U{000C}' || c == '\r'
    || c == ' ' || c == '\U{00A0}' || c == '\U{1680}'
    || ('\U{2000}' <= c <= '\U{200A}')
    || c == '\U{2028}' || c == '\U{2029}' || c == '\U{202F}' || c == '\U{205F}'
    || c == '\U{3000}' || c == '\U{FEFF}'
  }

  /** Number of leading whitespace characters of `s` from index `k` on. */
  function TrimStartFrom(s: string, k: nat): (n: nat)
    requires k <= |s|
    requires forall i :: 0 <= i < k ==> IsWhitespace(s[i])
    ensures k <= n <= |s|
    ensures forall i :: 0 <= i < n ==> IsWhitespace(s[i])
    ensures n < |s| ==> !IsWhitespace(s[n])
    decreases |s| - k
  {
    if k == |s| || !IsWhitespace(s[k]) then k else TrimStartFrom(s, k + 1)
  }

  /** End of `s` once trailing whitespace down to index `lo` is dropped. */
  function TrimEndTo(s: string, lo: nat, m: nat): (e: nat)
    requires lo <= m <= |s|
    requires forall i :: m <= i < |s| ==> IsWhitespace(s[i])
    ensures lo <= e <= m
    ensures forall i :: e <= i < |s| ==> IsWhitespace(s[i])
    ensures e > lo ==> !IsWhitespace(s[e - 1])
    decreases m
  {
    if m == lo || !IsWhitespace(s[m - 1]) then m else TrimEndTo(s, lo, m - 1)
  }

  /** `r` is the slice of `s` at `a` with only whitespace around it. */
  predicate TrimmedAt(s: string, r: string, a: int) {
    && 0 <= a <= |s| - |r|
    && r == s[a..a + |r|]
    && (forall i :: 0 <= i < a ==> IsWhitespace(s[i]))
    && (forall i :: a + |r| <= i < |s| ==> IsWhitespace(s[i]))
  }

  /** JavaScript's `s.trim()`: `s` without leading and trailing whitespace. */
  function Trim(s: string): (r: string)
    ensures |r| <= |s|
    ensures |r| > 0 ==> !IsWhitespace(r[0]) && !IsWhitespace(r[|r| - 1])
    ensures |r| == 0 <==> forall i :: 0 <= i < |s| ==> IsWhitespace(s[i])
    ensures exists a :: TrimmedAt(s, r, a)
  {
    var a := TrimStartFrom(s, 0);
    var e := TrimEndTo(s, a, |s|);
    var r := s[a..e];
    assert TrimmedAt(s, r, a);
    r
  }

  /** `toLowerCase` on one character, for the ASCII letters. */
  function LowerChar(c: char): (d: char)
    ensures 'A' <= c <= 'Z' ==> 'a' <= d <= 'z' && d as int == c as int + 32
    ensures !('A' <= c <= 'Z') ==> d == c
  {
    if 'A' <= c <= 'Z' then (c as int + 32) as char else c
  }

  /** `s.toLowerCase()` for ASCII letters; other characters are kept. */
  function Lower(s: string): (r: string)
    ensures |r| == |s|
    ensures forall i :: 0 <= i < |s| ==> r[i] == LowerChar(s[i])
  {
    seq(|s|, i requires 0 <= i < |s| => LowerChar(s[i]))
  }
}

=== FILE: wrappers.dfy ===
/** Option and Result, the two failure-carrying types the model uses in place of
    JavaScript's `undefined`/`null` and thrown errors. */
module Wrappers {

  /** An optional value: `None` stands for a missing key, `undefined` or `null`. */
  datatype Option<+T> = None | Some(value: T) {

    /** The value, or `default` when there is none (JavaScript's `x ?? d`). */
    function GetOr(default: T): T {
      match this
      case Some(v) => v
      case None => default
    }
  }

  /** The outcome of an operation that either succeeds or throws. */
  datatype Result<+T, +E> = Ok(value: T) | Err(error: E)
}
